=== FILE: README.md ===
# Translation pipeline and admin decisions of a Laravel starter

This project models, in Dafny, the core of a Laravel 12 starter application with a Filament admin panel.
It has two parts.

**The translation pipeline.** Translations live in three forms:
- language files under `lang/`: one flat JSON file per locale, plus PHP array files grouped by file name;
- a translations table, where each row has a `(key, group)` pair and a map from locale to value;
- a CSV file, which the admin panel exports and imports.

The model covers every step between these forms:
- the `translations:generate` command scans the code for translation keys. It copies the standard Laravel files into each locale and merges new keys into that locale's JSON file.
- the `translations:import` command reads the language files back into the table. It flattens nested arrays into dotted keys and either preserves or forces existing values.
- the `translations:publish` command writes the table out as language files. `Translation::getAllByLocale` selects the values, and `buildNestedArray` turns the dotted keys back into nested arrays.
- the CSV export and import of the translations page.

Files are values, not disk state:
- a language directory is a map from locale to a directory listing, plus each locale's decoded JSON file;
- the table is a map from `(key, group)` to a value map, plus the order in which records were created;
- a CSV file is a sequence of rows of cells.

The main results are these:
- a second generate or import run changes nothing;
- an import without `--force` never replaces a set value;
- publishing and then importing gives back the published keys and values of each group file. This holds when no key of the group is a dotted prefix of another and no dotted key's first segment is "" or "0". A group whose name holds a '/' is not published at all: the publish stops there;
- a CSV export followed by an import into an empty table gives back every record, losing only empty values. A record of the empty group comes back in `general`.

**The decision functions.** These are small, pure predicates over accounts. An account has an id, role names, a permission set, the names of those permissions, an email, a verification timestamp and a password. The names matter because the permission library's check on the Gate runs before every policy. The model covers:
- the `SetLocale` middleware and `LocaleController::switch`;
- `UserPolicy` and `RolePolicy`;
- `UserRoleEnum`;
- the listing queries, role picker, password field and verified toggle of `UserResource` and `ManagerResource`;
- the verification-email rules of the create and edit pages;
- the `tooltip_callback` helper.

Modules follow the source. Each is listed with its Dafny file.

Shared modules:
- `Base` (base.dfy): `Option`, PHP values and sequence helpers.
- `PhpString` (php_string.dfy): `trim`, `stripslashes`, `explode`/`implode`, `pathinfo` and string order.
- `OrderedMap` (ordered_map.dfy): PHP arrays as ordered association lists.
- `Sorting` (sorting.dfy): `ksort` and `ORDER BY`.
- `LangFiles` (lang_files.dfy): the `lang/` directory.

Translation pipeline:
- `Scanner` (scanner.dfy), `Generate` (generate.dfy): `translations:generate`.
- `Store` (store.dfy): the table and `getAllByLocale`.
- `Import` (import.dfy): `translations:import`.
- `NestedArray` (nested.dfy), `Publish` (publish.dfy): `translations:publish`.
- `PhpReader` (php_reader.dfy): reading a published array file back.
- `Csv` (csv.dfy): `ListTranslations`.
- `RoundTrip` (roundtrip.dfy): the publish and import round trip.

Decision functions:
- `Roles` (roles.dfy), `Policies` (policies.dfy), `Locale` (locale.dfy), `Tooltip` (tooltip.dfy);
- `UserResource` (user_resource.dfy), `UserPages` (user_pages.dfy).

Some of the repository's own files disagree with its code. The model follows the code:
- **SetLocale.** The tests in `tests/Unit/Middlewares/SetLocaleTest.php` send an `Accept-Language` header and expect the locale list to be cached. The middleware in `app/Http/Middlewares/SetLocale.php` reads only the session key `language`, with `app.locale` as the fallback. It caches nothing and never writes the session.
- **Scan order.** The comment at line 85 of `TranslationsGenerate.php` says the keys are sorted, but the code only removes duplicates (`array_unique`). The model keeps the first occurrences in order.
- **Deleting the CSV upload.** `ListTranslations.php` deletes the upload at line 222, after the whole row loop. So a header error or a failing row leaves the upload in place.

## Model

| member | source | states |
|---|---|---|
| Scanner.BodyEnd | app/Console/Commands/TranslationsGenerate.php:49-61 | A quoted literal ends at the first quote that is not escaped. The position found holds the quote, with a valid body before it, and every such position is the one found. |
| Scanner.MatchAll | app/Console/Commands/TranslationsGenerate.php:70-82 | Every literal captured by `preg_match_all` is a well-formed quoted body. |
| Scanner.PlainCallMatches | app/Console/Commands/TranslationsGenerate.php:50-51 | A call `callee('<escaped key>')` is matched as one call covering the whole text, and its literal is the escaped key. |
| Scanner.BlankLiteralYieldsNothing | app/Console/Commands/TranslationsGenerate.php:76-79 | A literal made only of whitespace gives no key. |
| Scanner.CleanAll | app/Console/Commands/TranslationsGenerate.php:74-80 | No cleaned key is empty. A key is among the cleaned ones exactly when some literal cleans to it. |
| Scanner.CleanEscaped | app/Console/Commands/TranslationsGenerate.php:76 | Cleaning an escaped key gives the key back: escaped quotes and backslashes survive as the characters themselves. |
| Scanner.PlainCallReadsKeyBack | app/Console/Commands/TranslationsGenerate.php:66-82 | A trimmed, non-empty key written in a plain call is found exactly once and cleaned back to itself. |
| Scanner.InDirMembers | app/Console/Commands/TranslationsGenerate.php:102-113 | A directory contributes exactly its files with extension `php` or ending in `.blade.php`, except dotfiles and files below a dot-directory or below a directory named `CVS`, `_svn` or `_darcs`. `File::allFiles` skips these, the last through the Finder's default of ignoring version-control directories. |
| Scanner.HiddenPathExamples | app/Console/Commands/TranslationsGenerate.php:104 | Files below `CVS`, `_svn` or `.git` are skipped; a file named `CVS.php` and one below `xCVS` are not. |
| Scanner.InDirSorted | app/Console/Commands/TranslationsGenerate.php:104 | A directory's files are read in order of their paths, as `File::allFiles` sorts them. |
| Scanner.ScannableOf | app/Console/Commands/TranslationsGenerate.php:106-112 | The file filter keeps exactly the scannable files and keeps a sorted listing sorted. |
| Scanner.FilesToScan | app/Console/Commands/TranslationsGenerate.php:92-117 | A file is scanned exactly when it lies under `app`, the views or `routes`, is not hidden (not a dotfile, and not below a dot-directory or a `CVS`, `_svn` or `_darcs` directory), and has the extension `php`. The `.blade.php` test adds no file. |
| Scanner.Unique | app/Console/Commands/TranslationsGenerate.php:86 | `array_unique` keeps each element once. The members are the same and the first occurrences stay in order. |
| Scanner.ScanKeys | app/Console/Commands/TranslationsGenerate.php:44-87 | The scan result has no duplicates and no empty key. A key is in it exactly when some scanned file yields it. |
| Generate.Run | app/Console/Commands/TranslationsGenerate.php:13-39 | The command refuses exactly when the locale list is empty. Otherwise it reports one count per locale. |
| Generate.ExitCode | app/Console/Commands/TranslationsGenerate.php:22-25 | The exit status is 0 exactly for a completed run, so a refusal or an exception gives 1. |
| Generate.CopyOne | app/Console/Commands/TranslationsGenerate.php:151-158 | A standard file is copied from English only when English has it and the locale lacks it. Other files and locales are untouched. |
| Generate.CopyFiles | app/Console/Commands/TranslationsGenerate.php:142-159 | After the copies, each listed file the locale lacked and English had equals the English file. Everything else is unchanged, so no file is ever overwritten. |
| Generate.CopyFilesNoop | app/Console/Commands/TranslationsGenerate.php:155 | A locale with nothing to copy is left as it is. |
| Generate.PreparedComplete | app/Console/Commands/TranslationsGenerate.php:122-137 | Once its directory is made and its files are copied, a locale lacks none of the standard files English has. |
| Generate.PreparedNoop | app/Console/Commands/TranslationsGenerate.php:127-133 | A locale whose directory exists and has every standard file is left as it is. |
| Generate.AddKeys | app/Console/Commands/TranslationsGenerate.php:182-197 | Existing keys keep their values. A scanned key is added exactly when it is absent and the translator returns it unchanged. The count is the number of keys added. |
| Generate.AddKeysNoop | app/Console/Commands/TranslationsGenerate.php:184-186 | When no scanned key is new, the JSON array and the count are unchanged. |
| Generate.UpdateJson | app/Console/Commands/TranslationsGenerate.php:164-210 | The result is the old entries plus the added keys, sorted by key. A new key's value is the key itself for `en` and "" for other locales. |
| Generate.UpdateJsonNoop | app/Console/Commands/TranslationsGenerate.php:203 | Updating a sorted file with no new key returns it unchanged. |
| Generate.UpdateJsonCovers | app/Console/Commands/TranslationsGenerate.php:189-196 | Afterwards no scanned key is new for the file. |
| Generate.GenerateLocaleFinishes | app/Console/Commands/TranslationsGenerate.php:122-137 | Generating a locale finishes it: the directory and JSON file exist, the file is sorted and holds every key, and no standard file is missing. |
| Generate.FinishedLocaleUnchanged | app/Console/Commands/TranslationsGenerate.php:122-137 | Generating a finished locale changes nothing and adds nothing. |
| Generate.GenerateLocaleKeepsOthers | app/Console/Commands/TranslationsGenerate.php:127-153 | Generating one locale leaves another finished locale finished. |
| Generate.GenerateAllFinishes | app/Console/Commands/TranslationsGenerate.php:33-35 | After a run, every listed locale is finished. |
| Generate.GenerateAllKeepsFinished | app/Console/Commands/TranslationsGenerate.php:33-35 | A finished locale stays finished through a run over any locales. |
| Generate.GenerateAllOnFinished | app/Console/Commands/TranslationsGenerate.php:33-35 | A run over finished locales changes nothing and reports zero new keys for each. |
| Generate.RunIdempotent | app/Console/Commands/TranslationsGenerate.php:13-39 | Running the command again over the same code changes no file and adds no key. |
| Generate.RunCoversScannedKeys | app/Console/Commands/TranslationsGenerate.php:182-197 | After a run, each locale's JSON file holds every scanned key the translator does not know. |
| Store.Save | app/Console/Commands/TranslationsImport.php:84-104 | A missing record is created holding only this locale's value. An existing record takes the value when forced or when the locale is unset (null counts as unset), and otherwise keeps its own. Nothing else changes. |
| Store.ApplyAllLookup | app/Console/Commands/TranslationsImport.php:96-103 | After a sequence of saves, each value is the fold of the values written to it, in order. |
| Store.ApplyAllRecords | app/Console/Commands/TranslationsImport.php:90-95 | Saves create exactly the records they mention. When all records exist, the creation order is unchanged. |
| Store.FoldKeepsSettled | app/Console/Commands/TranslationsImport.php:99 | Without force, a value that is set is never replaced. |
| Store.FoldForcedLast | app/Console/Commands/TranslationsImport.php:99-101 | With force, the last value written wins. |
| Store.FoldUnsettled | app/Console/Commands/TranslationsImport.php:99 | Without force, a value stays unset only when every write was null. |
| Store.FoldIdempotent | app/Console/Commands/TranslationsImport.php:96-103 | Writing the same values a second time changes nothing. |
| Store.ApplyAllIdempotent | app/Console/Commands/TranslationsImport.php:84-104 | Applying the same saves twice gives the same table as applying them once, with either flag. |
| Store.AddItem | app/Models/Translation.php:35-37 | Storing an item under a group adds the group at the end only if it is new. Exactly that group and key change. |
| Store.GroupInto | app/Models/Translation.php:33-38 | Grouping the shown records puts each at its group and key with its value for the locale. Nothing else is added. |
| Store.GetAllByLocale | app/Models/Translation.php:31-40 | A group and key map to a value exactly when that record has a non-null value for the locale. A group appears exactly when some shown record belongs to it. |
| Import.Flatten | app/Console/Commands/TranslationsImport.php:66-82 | A nested array yields one dotted entry per leaf, so the count is the number of leaves. |
| Import.FlattenAsWritten | app/Console/Commands/TranslationsImport.php:71 | The as-written reading, whose prefix test uses PHP truthiness, also yields one entry per leaf. |
| Import.FlattenAgreesBelow | app/Console/Commands/TranslationsImport.php:71-74 | Below a prefix that is neither "" nor "0", the as-written reading and the corrected one agree. |
| Import.FlattenAgrees | app/Console/Commands/TranslationsImport.php:66-82 | The two readings agree on every array whose top-level keys with leaves below them are neither "" nor "0". |
| Import.ZeroPrefixLost | app/Console/Commands/TranslationsImport.php:71 | As written, `['0' => ['title' => 'T']]` imports the key `title`, where the corrected reading gives `0.title`. |
| Import.FileWritesFromFiles | app/Console/Commands/TranslationsImport.php:52-59 | Each save of a listing stores a leaf of one of its `.php` files, under the group named by the file name without its extension. |
| Import.FileWritesEveryLeaf | app/Console/Commands/TranslationsImport.php:52-59 | Every leaf of every `.php` file in a listing is saved, under its dotted key as `importArray` writes it. |
| LangFiles.ListedMembers | app/Console/Commands/TranslationsImport.php:52 | `File::files` lists exactly the files of the directory that are not dotfiles. |
| LangFiles.ListedSorted | app/Console/Commands/TranslationsImport.php:52 | `File::files` lists the files in order of their names, each visible file as often as the directory holds it. |
| LangFiles.SortByNameIsSort | app/Console/Commands/TranslationsImport.php:52 | Sorting by name is the sort by the name key. |
| Import.LocaleWrites | app/Console/Commands/TranslationsImport.php:40-42 | A locale's saves fail exactly when its JSON file exists and does not decode. All its saves are for that locale. |
| Import.LocaleWritesSaves | app/Console/Commands/TranslationsImport.php:35-64 | A locale first saves each JSON entry in order under `general`. Every later save stores a leaf of a `.php` file that is not a dotfile, under that file's group. Every leaf of every such file is saved. Only `.php` files contribute. |
| Import.AllWrites | app/Console/Commands/TranslationsImport.php:14-33 | The saves of all locales exist exactly when every JSON file decodes. |
| Import.ImportAllWrites | app/Console/Commands/TranslationsImport.php:25-31 | A run succeeds exactly when every JSON file decodes, and then makes all the saves in order. Each count is that locale's number of saves, and the total is their sum. |
| Import.ImportAllRuns | app/Console/Commands/TranslationsImport.php:25-31 | The same facts with the counts given as the per-locale save counts up to the first failure. |
| Import.CountsOfLocales | app/Console/Commands/TranslationsImport.php:26-28 | When every JSON file decodes, there is one count per locale, and each is that locale's number of saves. |
| Import.Run | app/Console/Commands/TranslationsImport.php:14-33 | The command completes exactly when no configured locale has an undecodable JSON file. |
| Import.RunIdempotent | app/Console/Commands/TranslationsImport.php:14-33 | Importing the same files a second time gives the same outcome as the first import: the same table and the same counts. |
| Import.FailedPrefix | app/Console/Commands/TranslationsImport.php:42 | A failed run has made exactly the saves of the locales before the failing one. |
| Import.FailedAfter | app/Console/Commands/TranslationsImport.php:42 | Whether a run fails, and at which locale, does not depend on the table. A failing run makes the same saves from any table. |
| Import.RunStore | app/Console/Commands/TranslationsImport.php:14-33 | A completed run leaves the table with exactly the saves of all locales applied in order. |
| Import.RunKeepsSetValues | app/Console/Commands/TranslationsImport.php:99 | Without `--force`, no value that is already set changes. |
| Import.RunForcedStoresLast | app/Console/Commands/TranslationsImport.php:99-101 | With `--force`, each value read from the files is stored. Where a key is read twice, the later reading wins. |
| NestedArray.Descend | app/Console/Commands/TranslationsPublish.php:83-84 | Descending through a key fails exactly when that key holds a string. A missing or null entry becomes a fresh array. |
| NestedArray.InsertPathAt | app/Console/Commands/TranslationsPublish.php:75-86 | After an insertion the path holds the value, and a path that is a prefix of it or extends it holds nothing. A later key equal to an earlier key's dotted prefix replaces that subtree. Every other path keeps its value. |
| NestedArray.InsertPathWellFormed | app/Console/Commands/TranslationsPublish.php:78-85 | Insertion never repeats a key at any depth. |
| NestedArray.InsertPathSucceeds | app/Console/Commands/TranslationsPublish.php:79-86 | Insertion succeeds whenever no proper prefix of the path holds a string. A missing or null entry on the way is replaced by a fresh array. |
| NestedArray.InsertPathFails | app/Console/Commands/TranslationsPublish.php:83-84 | A string on a proper prefix of the path makes the insertion fail. |
| NestedArray.BuildNestedAt | app/Console/Commands/TranslationsPublish.php:71-90 | With keys none of which is a dotted prefix of another, the build succeeds. Each key's path holds its value, and no other path holds one. |
| NestedArray.BuildNestedKeys | app/Console/Commands/TranslationsPublish.php:76-85 | The top-level keys are the first segments of the dotted keys, each once, in order of first appearance. |
| NestedArray.StringInTheWay | app/Console/Commands/TranslationsPublish.php:83-84 | A key followed by a dotted key below it makes the build stop on the string in the way. |
| NestedArray.LeavesAt | app/Console/Commands/TranslationsImport.php:70-79 | The leaves listed by a walk of a nested array are exactly its paths to scalars. |
| Publish.ExportString | app/Console/Commands/TranslationsPublish.php:105 | A string literal is single-quoted; `PhpReader.ReadStringExport` reads it back. |
| Publish.ExportStringExamples | app/Console/Commands/TranslationsPublish.php:105 | A NUL is written as the 12 characters that close the literal, concatenate `"\0"` and reopen it; a quote gets a backslash. |
| Publish.ExportKeyIntMin | app/Console/Commands/TranslationsPublish.php:102 | The key PHP_INT_MIN is an integer key and is written as `-9223372036854775807-1`. |
| Publish.RenderItems | app/Console/Commands/TranslationsPublish.php:98-108 | There is one rendered line per element. |
| Publish.GroupOfNameIff | app/Console/Commands/TranslationsPublish.php:65 | A file name is `<group>.php` exactly when it reads back as that group. |
| Publish.GroupFile | app/Console/Commands/TranslationsPublish.php:63-69 | A group file exists exactly when its nested array can be built. Its text is the `<?php return …;` rendering of that array. |
| Publish.PublishGroupsWrites | app/Console/Commands/TranslationsPublish.php:44-50 | Publishing groups succeeds exactly when every group other than `general` can be written: its name holds no '/' and its nested array builds. `general` becomes the JSON file, each other group becomes `<group>.php`, and other files are unchanged. |
| Publish.PublishLocaleWrites | app/Console/Commands/TranslationsPublish.php:32-51 | Publishing a locale succeeds exactly when every group of its values other than `general` has a name without '/' and a nested array that builds. A locale with no set value changes nothing. |
| Publish.PublishedJson | app/Console/Commands/TranslationsPublish.php:53-61 | The locale's JSON file holds exactly the set values of group `general`. |
| Publish.PublishedGroupFile | app/Console/Commands/TranslationsPublish.php:63-69 | Each other group of a published locale has no '/' in its name and lands in `lang/<locale>/<group>.php`. The file holds the group's nested array and its rendering. |
| Publish.PublishAllSucceeds | app/Console/Commands/TranslationsPublish.php:14-30 | The command succeeds exactly when, for every configured locale, every group other than `general` has a name without '/' and a nested array that builds. |
| PhpReader.ReadStringExport | app/Console/Commands/TranslationsPublish.php:105 | Reading a quoted string back undoes its escaping and its NUL splices, when the text after it does not begin with " . ". |
| PhpReader.ReadKeyExport | app/Console/Commands/TranslationsPublish.php:102 | Reading an array key back before its " => " gives the key, whether it was written as a number, as the expression for PHP_INT_MIN, or as a string. |
| PhpReader.ReadArrayRender | app/Console/Commands/TranslationsPublish.php:92-112 | Reading a rendered array at any depth gives the array back, with the rest of the text. |
| PhpReader.ReadFileContent | app/Console/Commands/TranslationsPublish.php:67 | `require` of a published file's text gives back the array it was written from. |
| PhpReader.FileContentInjective | app/Console/Commands/TranslationsPublish.php:67 | Two different arrays never publish to the same text. |
| PhpReader.GroupFileReads | app/Console/Commands/TranslationsImport.php:58 | The array `require` reads from a group file is the group's nested array. |
| RoundTrip.FlattenLeaves | app/Console/Commands/TranslationsImport.php:66-82 | Flattening lists the leaves in order, each under its path joined with dots. |
| RoundTrip.BuildThenFlatten | app/Console/Commands/TranslationsImport.php:66-82 | With prefix-free keys, flattening the built array gives exactly the original (key, value) pairs. |
| RoundTrip.BuildThenFlattenAsWritten | app/Console/Commands/TranslationsImport.php:71 | The import as written inverts the build too, when no dotted key starts with a segment "" or "0". |
| RoundTrip.PublishedGroupReadsBack | app/Console/Commands/TranslationsImport.php:50-61 | The import, as written, reads a published group file back. A published group's name holds no '/'. The file is listed unless its name is a dotfile name, which happens exactly for an empty group or one starting with a dot. Its name gives the group back. Its leaves are exactly the keys and values set for that locale and group, when no key with a dot starts with an empty segment or "0". |
| RoundTrip.PhpFileName | app/Console/Commands/TranslationsImport.php:53-57 | A published file name has the extension `php`, and its name without the extension is the group. |
| Csv.ExportedRowWrites | app/Filament/Resources/TranslationResource/Pages/ListTranslations.php:147-154 | An exported row, read back under the same header, writes exactly the record's set, non-empty values of the exported locales. |
| Csv.ExportOpsWritten | app/Filament/Resources/TranslationResource/Pages/ListTranslations.php:145-156 | The saves of an export's rows write to each record the exported values of the records that come back as it, in row order. |
| Csv.ExportOpsMentioned | app/Filament/Resources/TranslationResource/Pages/ListTranslations.php:145-156 | The saves of an export's rows mention exactly the records that its records come back as. |
| Csv.ExportedToSingle | app/Filament/Resources/TranslationResource/Pages/ListTranslations.php:196 | A record that only one exported record comes back as receives that record's exported values alone. |
| Csv.ExportOrder | app/Filament/Resources/TranslationResource/Pages/ListTranslations.php:142-144 | Every record appears once, sorted by group and then key. |
| Csv.Export | app/Filament/Resources/TranslationResource/Pages/ListTranslations.php:128-162 | The header `group,key,<locales>` comes first, the mark glued to its first cell. Then one row per record follows, in export order. |
| Csv.RowValues | app/Filament/Resources/TranslationResource/Pages/ListTranslations.php:198-201 | A row has a value for exactly the header's locales. A missing cell reads as "". |
| Csv.RowValuesLast | app/Filament/Resources/TranslationResource/Pages/ListTranslations.php:199-201 | A locale named by several columns takes its last column's cell. |
| Csv.RowGroup | app/Filament/Resources/TranslationResource/Pages/ListTranslations.php:196 | The group read from a row is never empty. A non-empty cell is kept and an empty one becomes `general`. |
| Csv.EmptyGroupCellWritesGeneral | app/Filament/Resources/TranslationResource/Pages/ListTranslations.php:196-218 | A row with an empty group cell writes to the record of its key in `general`, and to no record of the empty group. |
| Csv.RowOpsMentioned | app/Filament/Resources/TranslationResource/Pages/ListTranslations.php:203-218 | The saves of one row mention only the row's record. |
| Csv.WritesOf | app/Filament/Resources/TranslationResource/Pages/ListTranslations.php:211-217 | Only non-empty cells are written, so an empty cell never clears a value. |
| Csv.RowOpsWritten | app/Filament/Resources/TranslationResource/Pages/ListTranslations.php:203-218 | A row creates its record if missing and writes each non-empty cell to it. It writes nothing to any other record. |
| Csv.ImportRows | app/Filament/Resources/TranslationResource/Pages/ListTranslations.php:195-220 | The loop stops at the first row with fewer than two cells. It completes exactly when it has processed every row. |
| Csv.ImportRowsOps | app/Filament/Resources/TranslationResource/Pages/ListTranslations.php:195-220 | The loop makes the saves of the leading complete rows and counts each such row once. |
| Csv.Notice | app/Filament/Resources/TranslationResource/Pages/ListTranslations.php:224-228 | Every outcome except a row failure shows a notice. |
| Csv.ImportCsv | app/Filament/Resources/TranslationResource/Pages/ListTranslations.php:164-229 | The three refusals are exact: no file, an unreadable file, or a header with fewer than three cells. A completed import counts every data row. |
| Csv.ImportCsvIdempotent | app/Filament/Resources/TranslationResource/Pages/ListTranslations.php:195-220 | Importing the same file again changes nothing and reports the same count. |
| Csv.ImportCsvKeepsSetValues | app/Filament/Resources/TranslationResource/Pages/ListTranslations.php:212 | Without overwrite, a value that is already set is never replaced. |
| Csv.ExportWithoutLocalesRefused | app/Filament/Resources/TranslationResource/Pages/ListTranslations.php:182-186 | An export made with no configured locale has a two-cell header, so importing it is refused as invalid. |
| Csv.ImportComplete | app/Filament/Resources/TranslationResource/Pages/ListTranslations.php:193-222 | A valid file whose rows all have two cells imports every row's saves, with overwrite on by default. |
| Csv.ExportShape | app/Filament/Resources/TranslationResource/Pages/ListTranslations.php:137-154 | An export with locales has a header naming them from its third cell on, and one complete row per record, for any groups. |
| Csv.ExportedOpsStore | app/Filament/Resources/TranslationResource/Pages/ListTranslations.php:195-220 | Importing the rows of a listing into an empty table creates the records they come back as. Each value is the fold of what those rows hold for it. |
| Csv.ExportOrderReadBack | app/Filament/Resources/TranslationResource/Pages/ListTranslations.php:142-154 | In export order each locale of each record reads back its `CsvReadBack` value. |
| Csv.BlankFirst | app/Filament/Resources/TranslationResource/Pages/ListTranslations.php:142-144 | In export order a record of the empty group comes before the record of the same key in `general`. |
| Csv.CollisionWrites | app/Filament/Resources/TranslationResource/Pages/ListTranslations.php:142-218 | The record of a key in `general` receives the values of the same key in the empty group first, then its own. |
| Csv.FoldTwo | app/Filament/Resources/TranslationResource/Pages/ListTranslations.php:212 | Two rows for one record: an empty cell leaves the other's value. When both are set, the later wins with overwrite and the earlier stays without it. |
| Csv.ExportThenImport | app/Filament/Resources/TranslationResource/Pages/ListTranslations.php:128-229 | Importing an export into an empty table processes one row per record. It creates exactly the records they come back as, with records of the empty group in `general`. Each locale holds its `CsvReadBack` value, with null or "" values unset. |
| Csv.ExportThenImportPlain | app/Filament/Resources/TranslationResource/Pages/ListTranslations.php:128-229 | Without records in the empty group, importing an export gives back exactly the table's records. Each exported locale keeps its set, non-empty value. |
| Csv.ExportThenImportEmptyGroup | app/Filament/Resources/TranslationResource/Pages/ListTranslations.php:196 | A record of the empty group comes back as the record of its key in `general` when the table has no such record, with the same values. |
| Roles.Values | app/Enums/UserRoleEnum.php:13-16 | `values()` lists the three backing strings in declaration order, without repeats. |
| Roles.TryFrom | app/Enums/UserRoleEnum.php:29 | `tryFrom` finds a case exactly for a backing string, compared exactly, and the case has that string. |
| Roles.TryFromValue | app/Enums/UserRoleEnum.php:9-11 | `tryFrom` inverts `value`. |
| Roles.Color | app/Enums/UserRoleEnum.php:18-25 | administrator maps to danger, manager to primary, and user to gray, and no other pairing occurs. |
| Roles.ColorForRole | app/Enums/UserRoleEnum.php:27-32 | A role's own name gets its colour, and any other string gets `info`. |
| Roles.ColorForRoleAgrees | app/Enums/UserRoleEnum.php:27-32 | `getColorForRole(r.value)` equals `r.getColor()` for every case. A name gets one of the three case colours exactly when it is a case's name. |
| Policies.AssignRolesCheck | app/Policies/UserPolicy.php:31-48 | With no target, `assignRoles` is the ASSIGN_ROLES permission. It is false for an administrator target or for oneself, and otherwise equals the permission. |
| Policies.DeleteCheck | app/Policies/UserPolicy.php:50-58 | `delete` is false for oneself and otherwise equals DELETE_USERS. |
| Policies.DeleteManagersCheck | app/Policies/UserPolicy.php:75-83 | `deleteManagers` is false for oneself and otherwise equals DELETE_MANAGERS. |
| Policies.UserAllows | app/Policies/UserPolicy.php:11-83 | No ability is granted without its permission. |
| Policies.SinglePermissionChecks | app/Policies/UserPolicy.php:11-29 | `viewAny`, `view`, `create`, `update` and the manager view, create and update abilities are each exactly one permission check. |
| Policies.GuardedChecks | app/Policies/UserPolicy.php:31-83 | Nobody deletes, or assigns roles to, their own account. Nobody assigns roles to an administrator. For another account the guarded abilities equal their permissions. |
| Policies.MorePermissionsAllowMore | app/Policies/UserPolicy.php:11-83 | Granting more permissions never takes an ability away. |
| Policies.GateGuards | app/Filament/Resources/UserResource.php:102-110 | Through the Gate, a permission named like the ability allows it on every target, one's own and an administrator's included; without one the policy alone decides. So assigning roles to oneself or to an administrator, and deleting oneself, are allowed exactly when such a permission is held. |
| Policies.RoleAllows | app/Policies/RolePolicy.php:12-45 | Viewing roles needs VIEW_ROLES and creating needs CREATE_ROLES. Updating or deleting a system role is refused, and for any other role equals EDIT_ROLES or DELETE_ROLES. |
| Policies.SystemRolesLocked | app/Policies/RolePolicy.php:27-45 | The three built-in roles can be neither updated nor deleted, whatever the permissions. The name test is case-sensitive. |
| Locale.FallbackUnchecked | app/Http/Middlewares/SetLocale.php:13-20 | Without a `language` entry the request runs in the fallback, whatever the list offers. |
| Locale.FallbackUncheckedExample | app/Http/Middlewares/SetLocale.php:16-18 | With no setting and only Ukrainian offered, a session without a choice runs in English, which is not offered. |
| Locale.ReadsLanguageOnly | app/Http/Middlewares/SetLocale.php:13 | The middleware reads no session key but `language`: two sessions that agree on it run in the same locale. |
| Locale.HandleTwice | app/Http/Middlewares/SetLocale.php:11-23 | The middleware writes nothing it reads. A second pass over the session it leaves chooses the same locale and gives the same response. |
| Locale.ActiveLocaleChoices | app/Http/Middlewares/SetLocale.php:16-20 | The active locale is offered or is the fallback. With no locale configured, the fallback is always used. |
| Locale.ActiveLocaleStable | app/Http/Middlewares/SetLocale.php:13-20 | Storing the chosen locale as `language` chooses it again. |
| Locale.SwitchUnseenByMiddleware | app/Http/Controllers/LocaleController.php:13-15 | `switch` stores the choice under `locale`, which the middleware never reads, so no switch changes the locale a request runs in. |
| Locale.LastValid | app/Http/Controllers/LocaleController.php:13-15 | The result is the code of a request after which no request of the run names an available code, so it is the last available code requested. There is none exactly when no request names an available code. |
| Locale.RepeatedSwitches | app/Http/Controllers/LocaleController.php:13-15 | After repeated switches the session holds the last valid code under `locale`. A run without a valid code leaves the session untouched. |
| Tooltip.EmptyAndSingle | app/Helpers/filament.php:6-8 | A null cell, an empty list and an empty string show the same. A list of one name shows as that name. |
| Tooltip.ListExample | app/Helpers/filament.php:7 | A list of two names shows as the names joined with ", ". |
| Tooltip.ShowProperties | app/Helpers/filament.php:6-14 | A list shows as the string it joins to. What is shown is already trimmed, and a tooltip shown at one limit is shown at every smaller one. A null cell shows something only at a limit of at most zero. |
| PhpString.TrimPadding | app/Helpers/filament.php:10 | `trim` of a trimmed text padded on both sides with trim characters gives the text back. |
| Tooltip.PaddingIgnored | app/Helpers/filament.php:10-13 | Trim characters of any kind and number before and after a trimmed text do not change what is shown. |
| UserResource.InUsersListing | app/Filament/Resources/UserResource.php:221-226 | The users listing holds an account exactly when it has the `user` role or no role. |
| UserResource.InManagersListing | app/Filament/Resources/ManagerResource.php:25-27 | The managers listing holds an account exactly when it has some role other than `user`. |
| UserResource.Listing | app/Filament/Resources/UserResource.php:218-229 | A listing holds exactly the accounts its query selects. |
| UserResource.ListingsCover | app/Filament/Resources/ManagerResource.php:25-27 | Every account is in at least one listing. It is in both exactly when it has the `user` role and another one. |
| UserResource.ListingExamples | app/Filament/Resources/UserResource.php:221-226 | Accounts with no role or only `user` are users. Accounts with only `manager` or only `administrator` are managers. |
| UserResource.PickerOptions | app/Filament/Resources/UserResource.php:94-98 | The role picker offers exactly the roles other than `administrator` and `user`. |
| UserResource.FirstNamed | app/Filament/Resources/UserResource.php:119 | The id is that of the first role row with the name, and there is none when no row has it. |
| UserResource.DefaultRoleOffered | app/Filament/Resources/UserResource.php:94-123 | The managers resource's default role is one the picker offers. There is a default exactly when the roles table has a row of the default name. |
| UserResource.RolePickerDisabledFor | app/Filament/Resources/UserResource.php:106-108 | The picker is never greyed out on the create page. Unless the signed-in user holds a permission named `assign-roles`, it is always greyed out on an administrator's record and on one's own; holding one, it never is. |
| UserResource.RolePickerHelp | app/Filament/Resources/UserResource.php:109-115 | The hint appears exactly when the picker is greyed out. |
| UserResource.SaveRolesIdempotent | app/Filament/Resources/UserResource.php:101-105 | Saving the same choice twice is the same as saving it once, and never changes the record's id. |
| UserResource.SaveRolesGuarded | app/Filament/Resources/UserResource.php:101-108 | Unless the signed-in user holds a permission named `assign-roles`, an administrator's roles and one's own never change through the picker; holding one, every save goes through. A picker that is not greyed out always saves. |
| UserResource.BlankPasswordKeeps | app/Filament/Resources/UserResource.php:139 | An absent or all-space password changes nothing, and saving the same field again changes nothing more. |
| UserResource.ManagersAllow | app/Filament/Resources/ManagerResource.php:32-55 | Each `can*` check is false with nobody signed in. Otherwise it holds exactly when the user holds a permission named like the ability or the matching policy permission, and for deleting, the record is not the user's own. |
| UserResource.ManagersNoSelfDelete | app/Filament/Resources/ManagerResource.php:52-55 | Unless the user holds a permission named `deleteManagers`, nobody deletes their own manager account; holding one allows every delete. Deleting another equals that name or DELETE_MANAGERS, and editing does not depend on the record. |
| UserPages.ToggleReadsBack | app/Filament/Resources/UserResource/Pages/CreateUser.php:24 | The toggle shown when the account is opened again is on exactly when it was switched on. |
| UserPages.DefaultToggleMailsNobody | app/Filament/Resources/UserResource.php:79 | Submitting with the toggle at its default and the address unchanged mails nobody. A new account starts verified, and an edited one keeps its state. |
| UserPages.AfterCreateSettles | app/Filament/Resources/UserResource/Pages/CreateUser.php:29-50 | Running `afterCreate` on what it stored changes no role and mails again exactly when it mailed. The account always ends with a role. |
| UserPages.Create | app/Filament/Resources/UserResource/Pages/CreateUser.php:21-27 | The new account has the form's email, and its timestamp is the converted toggle. |
| UserPages.CreatedAccounts | app/Filament/Resources/UserResource/Pages/CreateUser.php:34-49 | A new account always has a role: `user` in the users resource, or the chosen roles when the creator may assign them by ASSIGN_ROLES or by a permission named `assign-roles`. The verification mail goes out exactly when the toggle was not on. |
| UserPages.AfterSaveQuiet | app/Filament/Resources/UserResource/Pages/EditUser.php:40-65 | A save that changes neither the address nor the verification shows nothing. A verified account is never mailed. |
| UserPages.Edit | app/Filament/Resources/UserResource/Pages/EditUser.php:32-38 | On save the toggle becomes a timestamp and a blank password keeps the old one. The event fires exactly when a notice is shown. |
| UserPages.EditMailsWhen | app/Filament/Resources/UserResource/Pages/EditUser.php:52 | An edit mails exactly when the toggle is off and either the email changed or the account was verified before. So an account that stays verified is never mailed. |
| UserPages.EditRoles | app/Filament/Resources/UserResource.php:101-139 | After an edit the roles are the chosen ones when the picker is shown and the editor may assign them through the Gate, and the old ones otherwise, so the users resource never changes roles. A blank password keeps the password, so only the create page requires one. |

## Left out

- Filesystem and streams. `File::*`, `Storage`, `fopen`, `fgetcsv`, `fputcsv` and `streamDownload` are replaced by values: a language directory, a map from uploaded path to rows, and a sequence of rows. Chunking the export 500 records at a time does not change its rows and is not modelled.
- CSV quoting and line breaks inside cells. Rows are already split into cells.
- The BOM strip on import. Only the first header cell (`group`) carries the mark, and that cell is never read, so the strip is not modelled.
- JSON encoding and decoding. A JSON file is a decoded list of entries or a decoding failure. Pretty printing, unicode flags and values that are numbers or nested objects are not modelled.
- `var_export` for anything but strings, null and integer-like keys. Strings are written as PHP writes them, with NULs spliced in, and PHP_INT_MIN as a key is written as its expression; `PhpReader` reads both back.
- `require` of PHP files. A language file carries its decoded array. `PhpReader` checks that reading back holds for the files publish writes.
- The translator and `app()->setLocale` used by generate. The lookup is a function parameter.
- `now()`. The clock is the parameter `now`.
- PCRE. `preg_match_all` is replaced by a deterministic matcher for the eight patterns.
- Scanner.MatchAll: its contract states only that every captured literal is a valid quoted body, not which matches the regex engine would return. `Scanner.PlainCallReadsKeyBack` pins down the matcher on plain calls.
- The database and ORM. The table is a map with a creation order. `ORDER BY` and `ksort` are code-point order, with no collation. Transactions, `firstOrCreate` races and concurrency are not modelled.
- PHP integer keys. `ksort` in generate compares every key as a string, although PHP would order integer-like keys numerically.
- The `values` accessor. Encoding a value map as JSON and decoding it again is treated as the identity.
- A null group. Records always have a group.
- The permission library. Permissions are an abstract set on each account, because the shown `UserPermissionEnum` does not list the permissions the policies use. Role names are plain strings. Its check on the Gate, run before every policy, is modelled through a separate set of permission names on the account. Which name each permission the policies use carries is unknown, so whether ASSIGN_ROLES itself is named `assign-roles` is left open.
- `in_array` in `LocaleController`. It compares loosely and is treated as string equality, assuming codes are not numeric strings.
- A JSON file that is neither missing nor undecodable but decodes to a non-array is not modelled.
- Filament UI definitions, validation rules, avatar handling, notifications' icons and durations, and redirects other than `switch`'s.
- The tests of `SetLocale` that describe header negotiation and caching. Neither is in the middleware's code.
- RoundTrip.BuildThenFlatten: states the round trip as equal sets of (key, value) pairs, not equal sequences. The build groups keys that share a first segment, so their order can change.
- NestedArray.Descend: when a dotted key runs into a string, the model fails. PHP fails too, except when the string is met at the last-but-one segment and the last segment is a numeric offset: then PHP writes into the string (`['a' => 'xyz', 'a.0' => 'Q']` builds `'Qyz'`). This string-offset write is not modelled.
- NestedArray.BuildNestedKeys: states the first-appearance order of the top-level keys only, not of the keys at each depth.
- Publish.PublishAllSucceeds: the language directory has no subdirectories below `lang/<locale>`, so a group whose name holds '/' always fails. PHP would write into such a subdirectory when it exists, and would resolve names such as "../x". Neither is modelled. A locale code holding '/' is not modelled either.
- RoundTrip.PublishedGroupReadsBack: covers only groups that publish. A group whose name holds '/' stops the publish, and so never reaches the importer. The importer lists a locale's directory without descending, so such a file would not be read back even if it were written.
- LangFiles.Locales: every entry of `translation-manager.available_locales` is assumed to carry a string `code`. The three commands pluck `code`, so an entry without one gives null, and `importLocale`, `publishLocale` and `generateFilesForLocale`, which take a `string`, would stop on a TypeError. The CSV export's behaviour for such an entry is not modelled either; the `Locale` module, which reads the same setting for the middleware, does model a missing code.
- Store.GetAllByLocale: states the contents of the groups, not their order. The fold visits records in creation order, so groups and keys come in order of their first shown record, and that order decides the order of keys in the published files; no contract states it.
- UserPages.CreatedAccounts: assumes the new account's id differs from the creator's. A freshly inserted row always has a new id.

## Findings

| source | as written | input that shows it | evidently intended | confidence | as-written member | corrected member |
|---|---|---|---|---|---|---|
| app/Console/Commands/TranslationsImport.php:71 | The prefix is tested for PHP truthiness, so a parent key "0" or "" is dropped from the dotted key. | The file `['0' => ['title' => 'T']]` imports the key `title` instead of `0.title`. Publishing the key `0.title` and importing it back therefore changes it. | Only the top level carries no prefix, so every nested key is joined with its parent's key. | not executed | Import.ZeroPrefixLost | RoundTrip.BuildThenFlatten |

=== FILE: base.dfy ===
/** Vocabulary shared by every module: optional values, the scalar values held by
    translation files and records, and duplicate-free sequences. */
module Base {

  /** An optional value, used for the many places PHP answers `null`. */
  datatype Option<+T> = None | Some(value: T) {

    /** The wrapped value, or `default` for None (PHP's `??`). */
    function GetOr(default: T): T {
      match this
      case Some(v) => v
      case None => default
    }
  }

  /** A translation value as it appears after a JSON file or an array file has
      been decoded: a string, or PHP `null`. */
  datatype Value = Null | Text(text: string)

  /** PHP `isset($m[$k])`: the key is present and its value is not null. */
  predicate IsSet<K>(m: map<K, Value>, k: K) {
    k in m && m[k] != Null
  }

  /** PHP `$m[$k] ?? ''` on a value map: the text, or "" when unset. */
  function TextOrEmpty<K>(m: map<K, Value>, k: K): (r: string)
    ensures IsSet(m, k) ==> r == m[k].text
    ensures !IsSet(m, k) ==> r == ""
  {
    if k in m then (match m[k] case Text(t) => t case Null => "") else ""
  }

  /** No element occurs twice. */
  predicate NoDup<T(==)>(s: seq<T>) {
    forall i, j :: 0 <= i < j < |s| ==> s[i] != s[j]
  }

  /** Appending an element that does not occur keeps a sequence duplicate-free. */
  lemma NoDupAppend<T>(s: seq<T>, x: T)
    requires NoDup(s) && x !in s
    ensures NoDup(s + [x])
  {
  }

  /** A duplicate-free sequence's head does not recur, and its tail is
      duplicate-free. */
  lemma NoDupTail<T>(s: seq<T>)
    requires NoDup(s) && s != []
    ensures NoDup(s[1..]) && s[0] !in s[1..]
  {
    forall i, j | 0 <= i < j < |s[1..]| ensures s[1..][i] != s[1..][j] {
      assert s[1..][i] == s[i + 1] && s[1..][j] == s[j + 1];
    }
    forall i | 0 <= i < |s[1..]| ensures s[1..][i] != s[0] {
      assert s[1..][i] == s[i + 1];
    }
  }

  /** Position of the first occurrence of `x` in `s`. */
  function FirstIndex<T(==)>(s: seq<T>, x: T): (r: Option<nat>)
    ensures r.Some? ==> r.value < |s| && s[r.value] == x
    ensures r.Some? ==> forall j :: 0 <= j < r.value ==> s[j] != x
    ensures r.None? <==> x !in s
  {
    if |s| == 0 then None
    else if s[0] == x then Some(0)
    else match FirstIndex(s[1..], x)
      case None => None
      case Some(i) => Some(i + 1)
  }

  /** Extending a sequence does not move the first occurrence of an element it
      already holds. */
  lemma FirstIndexAppend<T>(s: seq<T>, t: seq<T>, x: T)
    requires x in s
    ensures FirstIndex(s + t, x) == FirstIndex(s, x)
  {
    var i := FirstIndex(s, x).value;
    assert (s + t)[i] == x;
  }
}

=== FILE: csv.dfy ===
/** The CSV export and import of the translations list page. A CSV file is
    modelled as its rows of cells, as `fputcsv` writes them and `fgetcsv`
    reads them back; quoting and line breaks inside cells are not modelled. */
module Csv {
  import opened Base
  import opened PhpString
  import opened OrderedMap
  import opened Sorting
  import opened Store

  type Row = seq<string>

  /** The byte-order mark written before the header, as one character. */
  const Bom: char := '﻿'

  // ---------------------------------------------------------------- export

  /** The locale codes the export writes: the configured ones, and none at
      all when the setting is absent (unlike the artisan commands, the export
      has no English default). */
  function ExportLocales(config: Option<seq<string>>): (r: seq<string>)
    ensures config.None? ==> r == []
    ensures config.Some? ==> r == config.value
  {
    config.GetOr([])
  }

  /** The sort key of `ORDER BY group, key`. */
  function IdKey(id: RecordId): seq<string> {
    [id.group, id.key]
  }

  /** The header as read back: the mark stays glued to the first cell. */
  function Header(locales: seq<string>): Row {
    [[Bom] + "group", "key"] + locales
  }

  /** One record's row: group, key, then the value of each locale or "" when
      it is not set. */
  function ExportRow(s: Store, id: RecordId, locales: seq<string>): (r: Row)
    requires id in s.records
    ensures |r| == |locales| + 2 && r[0] == id.group && r[1] == id.key
    ensures forall i :: 0 <= i < |locales| ==> r[i + 2] == TextOrEmpty(s.records[id], locales[i])
  {
    [id.group, id.key] + seq(|locales|, i requires 0 <= i < |locales| => TextOrEmpty(s.records[id], locales[i]))
  }

  /** The rows of `ids`, in order. */
  function ExportRows(s: Store, ids: seq<RecordId>, locales: seq<string>): (r: seq<Row>)
    requires forall i :: 0 <= i < |ids| ==> ids[i] in s.records
    ensures |r| == |ids|
    ensures forall i :: 0 <= i < |ids| ==> r[i] == ExportRow(s, ids[i], locales)
  {
    seq(|ids|, i requires 0 <= i < |ids| => ExportRow(s, ids[i], locales))
  }

  /** The records in export order: every record once, sorted by group and
      then key. */
  function ExportOrder(s: Store): (r: seq<RecordId>)
    requires Valid(s)
    ensures SortedBy(r, IdKey) && multiset(r) == multiset(s.order)
    ensures NoDup(r) && (forall id :: id in r <==> id in s.records)
  {
    var r := Sort(s.order, IdKey);
    forall id ensures id in r <==> id in s.order {
      assert id in r <==> id in multiset(r);
    }
    NoDupPermutation(s.order, r);
    r
  }

  /** A rearrangement of a sequence without repeats has none either. */
  lemma NoDupPermutation<T>(a: seq<T>, b: seq<T>)
    requires NoDup(a) && multiset(a) == multiset(b)
    ensures NoDup(b)
  {
    forall i, j | 0 <= i < j < |b| ensures b[i] != b[j] {
      if b[i] == b[j] {
        CountTwo(b, i, j);
        CountAtMostOne(a, b[i]);
      }
    }
  }

  /** An element occurs at most once in a sequence without repeats. */
  lemma {:induction false} CountAtMostOne<T>(a: seq<T>, x: T)
    requires NoDup(a)
    ensures multiset(a)[x] <= 1
  {
    if a != [] {
      assert a == [a[0]] + a[1..];
      assert NoDup(a[1..]) by {
        forall i, j | 0 <= i < j < |a[1..]| ensures a[1..][i] != a[1..][j] {
          assert a[1..][i] == a[i + 1] && a[1..][j] == a[j + 1];
        }
      }
      CountAtMostOne(a[1..], x);
      if a[0] == x {
        assert x !in a[1..] by {
          forall i | 0 <= i < |a[1..]| ensures a[1..][i] != x {
            assert a[1..][i] == a[i + 1];
          }
        }
      }
    }
  }

  /** `exportCsv`: the header, then one row per record in export order. */
  function Export(s: Store, config: Option<seq<string>>): (r: seq<Row>)
    requires Valid(s)
    ensures |r| == |s.order| + 1 && r[0] == Header(ExportLocales(config))
    ensures r[1..] == ExportRows(s, ExportOrder(s), ExportLocales(config))
  {
    var ids := ExportOrder(s);
    assert |ids| == |s.order| by {
      assert |multiset(ids)| == |multiset(s.order)|;
    }
    [Header(ExportLocales(config))] + ExportRows(s, ids, ExportLocales(config))
  }

  // ---------------------------------------------------------------- import of one row

  /** `$row[$i] ?? ''`. */
  function Cell(row: Row, i: nat): string {
    if i < |row| then row[i] else ""
  }

  /** `$values[$locale] = $row[$i + 2] ?? ''` for each header locale in turn. */
  function RowValues(row: Row, locales: seq<string>): (r: seq<(string, string)>)
    ensures WellFormed(r)
    ensures forall l :: Get(r, l).Some? <==> l in locales
  {
    if locales == [] then []
    else
      var n := |locales| - 1;
      var prev := RowValues(row, locales[..n]);
      assert locales == locales[..n] + [locales[n]];
      Put(prev, locales[n], Cell(row, n + 2))
  }

  /** Column `i` is the last one naming its locale. */
  predicate IsLast(locales: seq<string>, i: nat) {
    i < |locales| && forall j :: i < j < |locales| ==> locales[j] != locales[i]
  }

  /** A locale named by several header columns takes the value of the last
      of them. */
  lemma {:induction false} RowValuesLast(row: Row, locales: seq<string>, i: nat)
    requires IsLast(locales, i)
    ensures Get(RowValues(row, locales), locales[i]) == Some(Cell(row, i + 2))
    decreases |locales|
  {
    var n := |locales| - 1;
    RowValuesSnoc(row, locales);
    if i < n {
      IsLastInit(locales, i);
      RowValuesLast(row, locales[..n], i);
    }
  }

  lemma RowValuesSnoc(row: Row, locales: seq<string>)
    requires locales != []
    ensures RowValues(row, locales)
      == Put(RowValues(row, locales[..|locales| - 1]), locales[|locales| - 1], Cell(row, |locales| + 1))
  {
  }

  /** A column that is last in the header, and not its final one, is last
      in the header without its final column. */
  lemma IsLastInit(locales: seq<string>, i: nat)
    requires IsLast(locales, i) && i < |locales| - 1
    ensures IsLast(locales[..|locales| - 1], i) && locales[..|locales| - 1][i] == locales[i]
    ensures locales[|locales| - 1] != locales[i]
  {
    var init := locales[..|locales| - 1];
    forall j | i < j < |init| ensures init[j] != init[i] {
      assert init[j] == locales[j];
    }
  }

  /** A locale of the header has a last column. */
  lemma LastColumn(locales: seq<string>, l: string) returns (i: nat)
    requires l in locales
    ensures IsLast(locales, i) && locales[i] == l
    decreases |locales|
  {
    var n := |locales| - 1;
    if locales[n] == l {
      i := n;
    } else {
      var init := locales[..n];
      assert l in init by {
        var k :| 0 <= k < |locales| && locales[k] == l;
        assert init[k] == l;
      }
      i := LastColumn(init, l);
      assert forall j :: i < j < n ==> locales[j] == init[j];
    }
  }

  /** `$row[0] !== '' ? $row[0] : 'general'`: the group read from a row is
      never empty; a non-empty cell is kept and an empty one reads as
      "general". */
  function RowGroup(row: Row): (r: string)
    requires |row| >= 1
    ensures r != ""
    ensures row[0] != "" ==> r == row[0]
    ensures row[0] == "" ==> r == "general"
  {
    if row[0] != "" then row[0] else "general"
  }

  function RowId(row: Row): RecordId
    requires |row| >= 2
  {
    RecordId(row[1], RowGroup(row))
  }

  /** The writes of the non-empty values: an empty cell never changes a
      value. */
  function WritesOf(id: RecordId, values: seq<(string, string)>): (r: seq<Op>)
    ensures forall i :: 0 <= i < |r| ==> r[i].Write? && r[i].id == id && r[i].value.Text? && r[i].value.text != ""
  {
    if values == [] then []
    else
      (if values[0].1 != "" then [Write(id, values[0].0, Text(values[0].1))] else [])
      + WritesOf(id, values[1..])
  }

  /** `firstOrCreate` with no values, then the loop over the row's values. */
  function RowOps(row: Row, locales: seq<string>): seq<Op>
    requires |row| >= 2
  {
    [Touch(RowId(row))] + WritesOf(RowId(row), RowValues(row, locales))
  }

  /** What one row writes to a locale: its value when the header names the
      locale and the cell is not empty. */
  function RowWrites(row: Row, locales: seq<string>, l: string): (r: seq<Value>) {
    var v := Get(RowValues(row, locales), l);
    if v.Some? && v.value != "" then [Text(v.value)] else []
  }

  lemma WrittenToConcat(a: seq<Op>, b: seq<Op>, id: RecordId, l: string)
    ensures WrittenTo(a + b, id, l) == WrittenTo(a, id, l) + WrittenTo(b, id, l)
    decreases |a|
  {
    if a != [] {
      assert (a + b)[1..] == a[1..] + b;
      WrittenToConcat(a[1..], b, id, l);
    } else {
      assert a + b == b;
    }
  }

  /** The non-empty values are written once each, to the row's record. */
  lemma {:induction false} WritesOfWritten(id: RecordId, values: seq<(string, string)>, id': RecordId, l: string)
    requires WellFormed(values)
    ensures WrittenTo(WritesOf(id, values), id', l) ==
              (if id' == id && Get(values, l).Some? && Get(values, l).value != "" then [Text(Get(values, l).value)] else [])
    decreases |values|
  {
    if values != [] {
      var tail := values[1..];
      assert Keys(tail) == Keys(values)[1..];
      WritesOfWritten(id, tail, id', l);
      var head := if values[0].1 != "" then [Write(id, values[0].0, Text(values[0].1))] else [];
      WrittenToConcat(head, WritesOf(id, tail), id', l);
      if values[0].0 == l {
        assert Get(values, l) == Some(values[0].1);
        assert l !in Keys(tail);
      } else {
        GetAfterFirst(values, l);
      }
    }
  }

  lemma GetAfterFirst<V>(m: seq<(string, V)>, k: string)
    requires m != [] && m[0].0 != k
    ensures Get(m, k) == Get(m[1..], k)
  {
    assert Keys(m[1..]) == Keys(m)[1..];
  }

  /** A row writes, for its own record, exactly `RowWrites`, and nothing to
      any other record. */
  lemma RowOpsWritten(row: Row, locales: seq<string>, id: RecordId, l: string)
    requires |row| >= 2
    ensures WrittenTo(RowOps(row, locales), id, l) == if id == RowId(row) then RowWrites(row, locales, l) else []
  {
    WritesOfWritten(RowId(row), RowValues(row, locales), id, l);
    WrittenToConcat([Touch(RowId(row))], WritesOf(RowId(row), RowValues(row, locales)), id, l);
  }

  // ---------------------------------------------------------------- import of a file

  /** The loop over the data rows: each row is saved before the next is read;
      a row with fewer than two cells stops the import (reading `$row[1]`
      fails), leaving the rows before it saved. Gives the table, the number
      of rows processed, and whether the end of the file was reached. */
  function ImportRows(s: Store, rows: seq<Row>, locales: seq<string>, overwrite: bool): (r: (Store, nat, bool))
    requires Valid(s)
    ensures Valid(r.0) && r.1 <= |rows|
    ensures r.2 <==> r.1 == |rows|
    decreases |rows|
  {
    if rows == [] then (s, 0, true)
    else if |rows[0]| < 2 then (s, 0, false)
    else
      var next := ImportRows(ApplyAll(s, RowOps(rows[0], locales), overwrite), rows[1..], locales, overwrite);
      (next.0, next.1 + 1, next.2)
  }

  /** The outcome of `importCsv`, one per notification; `Aborted` stands for
      the exception raised by a short row, after which the uploaded file is
      kept. */
  datatype Outcome =
    | NoFileUploaded
    | UnableToRead
    | InvalidFormat
    | Aborted(store: Store, rows: nat)
    | Imported(store: Store, rows: nat)

  /** The title of the notification shown. */
  function Notice(o: Outcome): (r: Option<string>)
    ensures r.None? <==> o.Aborted?
  {
    match o
    case NoFileUploaded => Some("No file uploaded")
    case UnableToRead => Some("Unable to read CSV")
    case InvalidFormat => Some("Invalid CSV format")
    case Aborted(_, _) => None
    case Imported(_, _) => Some("CSV imported")
  }

  /** The uploaded file is deleted only after a complete import. */
  function DeletesUpload(o: Outcome): bool {
    o.Imported?
  }

  /** The number of leading rows with at least two cells. */
  function Complete(rows: seq<Row>): (n: nat)
    ensures n <= |rows|
    ensures forall i :: 0 <= i < n ==> |rows[i]| >= 2
    ensures n < |rows| ==> |rows[n]| < 2
  {
    if rows == [] || |rows[0]| < 2 then 0
    else
      var n := Complete(rows[1..]);
      assert forall i :: 1 <= i < n + 1 ==> rows[i] == rows[1..][i - 1];
      n + 1
  }

  lemma {:induction false} CompleteAll(rows: seq<Row>)
    requires forall i :: 0 <= i < |rows| ==> |rows[i]| >= 2
    ensures Complete(rows) == |rows|
  {
    if rows != [] {
      assert forall i :: 0 <= i < |rows[1..]| ==> rows[1..][i] == rows[i + 1];
      CompleteAll(rows[1..]);
    }
  }

  /** The saves of rows that all have two cells, in order. */
  function OpsOf(rows: seq<Row>, locales: seq<string>): seq<Op>
    requires forall i :: 0 <= i < |rows| ==> |rows[i]| >= 2
  {
    if rows == [] then [] else RowOps(rows[0], locales) + OpsOf(rows[1..], locales)
  }

  /** The loop does the saves of the complete rows and stops at the first
      short one. */
  lemma {:induction false} ImportRowsOps(s: Store, rows: seq<Row>, locales: seq<string>, overwrite: bool)
    requires Valid(s)
    ensures ImportRows(s, rows, locales, overwrite).0 == ApplyAll(s, OpsOf(rows[..Complete(rows)], locales), overwrite)
    ensures ImportRows(s, rows, locales, overwrite).1 == Complete(rows)
  {
    ImportRowsApply(s, rows, locales, overwrite);
    LeadingOpsOf(rows, locales);
  }

  /** The saves of the rows up to the first short one. */
  function LeadingOps(rows: seq<Row>, locales: seq<string>): seq<Op> {
    if rows == [] || |rows[0]| < 2 then [] else RowOps(rows[0], locales) + LeadingOps(rows[1..], locales)
  }

  lemma {:induction false} ImportRowsApply(s: Store, rows: seq<Row>, locales: seq<string>, overwrite: bool)
    requires Valid(s)
    ensures ImportRows(s, rows, locales, overwrite).0 == ApplyAll(s, LeadingOps(rows, locales), overwrite)
    ensures ImportRows(s, rows, locales, overwrite).1 == Complete(rows)
    decreases |rows|
  {
    if rows != [] && |rows[0]| >= 2 {
      var first := RowOps(rows[0], locales);
      ImportRowsApply(ApplyAll(s, first, overwrite), rows[1..], locales, overwrite);
      ApplyAllConcat(s, first, LeadingOps(rows[1..], locales), overwrite);
      CompleteCons(rows);
    }
  }

  lemma {:induction false} LeadingOpsOf(rows: seq<Row>, locales: seq<string>)
    ensures LeadingOps(rows, locales) == OpsOf(rows[..Complete(rows)], locales)
    decreases |rows|
  {
    if rows == [] || |rows[0]| < 2 {
      assert rows[..Complete(rows)] == [];
    } else {
      LeadingOpsOf(rows[1..], locales);
      CompleteCons(rows);
      OpsOfPrefix(rows, Complete(rows), locales);
    }
  }

  lemma CompleteCons(rows: seq<Row>)
    requires rows != [] && |rows[0]| >= 2
    ensures Complete(rows) == Complete(rows[1..]) + 1
  {
  }

  lemma OpsOfPrefix(rows: seq<Row>, n: nat, locales: seq<string>)
    requires 0 < n <= |rows| && forall i :: 0 <= i < n ==> |rows[i]| >= 2
    ensures OpsOf(rows[..n], locales) == RowOps(rows[0], locales) + OpsOf(rows[1..][..n - 1], locales)
  {
    var done := rows[..n];
    assert done[0] == rows[0] && done[1..] == rows[1..][..n - 1];
  }

  /** `importCsv`: `file` is the uploaded path (`None` when missing), `disk`
      the files that can be opened, `overwrite` the form toggle (on when
      missing). The header needs a third column; the header cells from the
      third on are the locales. Stripping the mark from the first header cell
      changes nothing that is read afterwards, so it is not modelled. */
  function ImportCsv(s: Store, file: Option<string>, disk: map<string, seq<Row>>, overwrite: Option<bool>): (r: Outcome)
    requires Valid(s)
    ensures r == NoFileUploaded <==> file.None? || IsEmptyString(file.value)
    ensures r == UnableToRead <==> file.Some? && !IsEmptyString(file.value) && file.value !in disk
    ensures r == InvalidFormat <==>
              (&& file.Some? && !IsEmptyString(file.value) && file.value in disk
               && (disk[file.value] == [] || |disk[file.value][0]| < 3))
    ensures (r.Imported? || r.Aborted?) ==> Valid(r.store) && r.rows < |disk[file.value]|
    ensures r.Imported? ==> r.rows == |disk[file.value]| - 1
  {
    if file.None? || IsEmptyString(file.value) then NoFileUploaded
    else if file.value !in disk then UnableToRead
    else
      var lines := disk[file.value];
      if lines == [] || |lines[0]| < 3 then InvalidFormat
      else
        var locales := lines[0][2..];
        var (t, n, done) := ImportRows(s, lines[1..], locales, overwrite.GetOr(true));
        if done then Imported(t, n) else Aborted(t, n)
  }

  // ---------------------------------------------------------------- properties

  /** Importing the same file again changes nothing: the second import gives
      the same table and row count (also when the first one stopped at a
      short row). */
  lemma ImportCsvIdempotent(s: Store, file: Option<string>, disk: map<string, seq<Row>>, overwrite: Option<bool>)
    requires Valid(s)
    requires ImportCsv(s, file, disk, overwrite).Imported? || ImportCsv(s, file, disk, overwrite).Aborted?
    ensures ImportCsv(ImportCsv(s, file, disk, overwrite).store, file, disk, overwrite) == ImportCsv(s, file, disk, overwrite)
  {
    var lines := disk[file.value];
    var rows := lines[1..];
    var locales := lines[0][2..];
    var ow := overwrite.GetOr(true);
    var ops := OpsOf(rows[..Complete(rows)], locales);
    ImportRowsOps(s, rows, locales, ow);
    var t := ApplyAll(s, ops, ow);
    ImportRowsOps(t, rows, locales, ow);
    ApplyAllIdempotent(s, ops, ow);
  }

  /** Without overwrite, a value already set is never replaced. */
  lemma ImportCsvKeepsSetValues(s: Store, file: Option<string>, disk: map<string, seq<Row>>, id: RecordId, l: string)
    requires Valid(s) && Settled(Lookup(s, id, l))
    requires ImportCsv(s, file, disk, Some(false)).Imported? || ImportCsv(s, file, disk, Some(false)).Aborted?
    ensures Lookup(ImportCsv(s, file, disk, Some(false)).store, id, l) == Lookup(s, id, l)
  {
    var lines := disk[file.value];
    var rows := lines[1..];
    var ops := OpsOf(rows[..Complete(rows)], lines[0][2..]);
    ImportRowsOps(s, rows, lines[0][2..], false);
    ApplyAllLookup(s, ops, false, id, l);
    FoldKeepsSettled(Lookup(s, id, l), WrittenTo(ops, id, l));
  }

  /** An export made without configured locales has only two columns, and
      importing it is refused. */
  lemma ExportWithoutLocalesRefused(s: Store, path: string, disk: map<string, seq<Row>>, overwrite: Option<bool>)
    requires Valid(s) && !IsEmptyString(path)
    ensures ImportCsv(s, Some(path), disk[path := Export(s, None)], overwrite) == InvalidFormat
  {
  }

  /** What the export of `s` writes to one locale of one record, read back:
      the value when the locale is exported and the value is set and not
      empty. */
  function Exported(s: Store, id: RecordId, locales: seq<string>, l: string): seq<Value>
    requires id in s.records
  {
    if l in locales && IsSet(s.records[id], l) && s.records[id][l].text != "" then [s.records[id][l]] else []
  }

  /** The record a record's row comes back as: a record of the empty group
      comes back in "general", since its empty group cell reads as that. */
  function Arrival(id: RecordId): RecordId {
    if id.group == "" then RecordId(id.key, "general") else id
  }

  /** A row whose group cell is empty writes to the record of its key in
      "general", and to no record of the empty group. */
  lemma EmptyGroupCellWritesGeneral(row: Row, locales: seq<string>, l: string)
    requires |row| >= 2 && row[0] == ""
    ensures WrittenTo(RowOps(row, locales), RecordId(row[1], "general"), l) == RowWrites(row, locales, l)
    ensures WrittenTo(RowOps(row, locales), RecordId(row[1], ""), l) == []
    ensures Mentioned(RowOps(row, locales)) == {RecordId(row[1], "general")}
  {
    RowOpsWritten(row, locales, RecordId(row[1], "general"), l);
    RowOpsWritten(row, locales, RecordId(row[1], ""), l);
    RowOpsMentioned(row, locales);
  }

  /** The saves of one row mention only the row's record. */
  lemma RowOpsMentioned(row: Row, locales: seq<string>)
    requires |row| >= 2
    ensures Mentioned(RowOps(row, locales)) == {RowId(row)}
  {
    var a := RowOps(row, locales);
    assert forall i :: 0 <= i < |a| ==> a[i].id == RowId(row);
    assert a[0].id == RowId(row);
  }

  /** An exported row comes back as the record's arrival. */
  lemma ExportRowArrives(s: Store, id: RecordId, locales: seq<string>)
    requires id in s.records
    ensures RowId(ExportRow(s, id, locales)) == Arrival(id)
  {
  }

  /** What the export's rows of `ids` write to locale `l` of record `id`, in
      row order: the exported values of the records that come back as `id`. */
  function ExportedTo(s: Store, ids: seq<RecordId>, locales: seq<string>, id: RecordId, l: string): seq<Value>
    requires forall i :: 0 <= i < |ids| ==> ids[i] in s.records
  {
    if ids == [] then []
    else
      assert forall i :: 0 <= i < |ids[1..]| ==> ids[1..][i] == ids[i + 1];
      (if Arrival(ids[0]) == id then Exported(s, ids[0], locales, l) else []) + ExportedTo(s, ids[1..], locales, id, l)
  }

  /** The records the export's rows of `ids` come back as. */
  function Arrivals(ids: seq<RecordId>): set<RecordId> {
    if ids == [] then {} else {Arrival(ids[0])} + Arrivals(ids[1..])
  }

  lemma {:induction false} ArrivalsMembers(ids: seq<RecordId>)
    ensures forall x :: x in Arrivals(ids) <==> exists id :: id in ids && Arrival(id) == x
  {
    if ids != [] {
      ArrivalsMembers(ids[1..]);
      assert forall id :: id in ids <==> id == ids[0] || id in ids[1..];
    }
  }

  /** The saves of an export's rows write, to each record, the exported
      values of the records that come back as it, in row order. */
  lemma {:induction false} ExportOpsWritten(s: Store, ids: seq<RecordId>, locales: seq<string>, id: RecordId, l: string)
    requires forall i :: 0 <= i < |ids| ==> ids[i] in s.records
    ensures WrittenTo(OpsOf(ExportRows(s, ids, locales), locales), id, l) == ExportedTo(s, ids, locales, id, l)
    decreases |ids|
  {
    if ids != [] {
      assert forall i :: 0 <= i < |ids[1..]| ==> ids[1..][i] == ids[i + 1];
      ExportOpsWritten(s, ids[1..], locales, id, l);
      ExportOpsStep(s, ids, locales, id, l);
    }
  }

  /** The first record's row, then the rows of the others. */
  lemma ExportOpsStep(s: Store, ids: seq<RecordId>, locales: seq<string>, id: RecordId, l: string)
    requires ids != [] && forall i :: 0 <= i < |ids| ==> ids[i] in s.records
    requires WrittenTo(OpsOf(ExportRows(s, ids[1..], locales), locales), id, l) == ExportedTo(s, ids[1..], locales, id, l)
    ensures WrittenTo(OpsOf(ExportRows(s, ids, locales), locales), id, l) == ExportedTo(s, ids, locales, id, l)
  {
    var rows := ExportRows(s, ids, locales);
    assert rows[1..] == ExportRows(s, ids[1..], locales);
    WrittenToConcat(RowOps(rows[0], locales), OpsOf(rows[1..], locales), id, l);
    ExportRowArrives(s, ids[0], locales);
    RowOpsWritten(rows[0], locales, id, l);
    if id == Arrival(ids[0]) {
      ExportedRowWrites(s, ids[0], locales, l);
    }
  }

  /** An exported row reads back as the record's exported values. */
  lemma ExportedRowWrites(s: Store, id: RecordId, locales: seq<string>, l: string)
    requires id in s.records
    ensures RowWrites(ExportRow(s, id, locales), locales, l) == Exported(s, id, locales, l)
  {
    var row := ExportRow(s, id, locales);
    if l in locales {
      var i := LastColumn(locales, l);
      RowValuesLast(row, locales, i);
      assert Get(RowValues(row, locales), l) == Some(TextOrEmpty(s.records[id], l));
    }
  }

  /** The records the saves of an export's rows mention are the arrivals of
      its records. */
  lemma {:induction false} ExportOpsMentioned(s: Store, ids: seq<RecordId>, locales: seq<string>)
    requires forall i :: 0 <= i < |ids| ==> ids[i] in s.records
    ensures Mentioned(OpsOf(ExportRows(s, ids, locales), locales)) == Arrivals(ids)
    decreases |ids|
  {
    if ids != [] {
      assert forall i :: 0 <= i < |ids[1..]| ==> ids[1..][i] == ids[i + 1];
      ExportOpsMentioned(s, ids[1..], locales);
      var rows := ExportRows(s, ids, locales);
      assert rows[1..] == ExportRows(s, ids[1..], locales);
      MentionedConcat(RowOps(rows[0], locales), OpsOf(rows[1..], locales));
      ExportRowArrives(s, ids[0], locales);
      RowOpsMentioned(rows[0], locales);
    }
  }

  lemma MentionedConcat(a: seq<Op>, b: seq<Op>)
    ensures Mentioned(a + b) == Mentioned(a) + Mentioned(b)
  {
    forall id ensures id in Mentioned(a + b) <==> id in Mentioned(a) + Mentioned(b) {
      if id in Mentioned(a + b) {
        var i :| 0 <= i < |a + b| && (a + b)[i].id == id;
        if i >= |a| {
          assert b[i - |a|].id == id;
        }
      }
      if id in Mentioned(b) {
        var i :| 0 <= i < |b| && b[i].id == id;
        assert (a + b)[i + |a|].id == id;
      }
      if id in Mentioned(a) {
        var i :| 0 <= i < |a| && a[i].id == id;
        assert (a + b)[i].id == id;
      }
    }
  }

  lemma {:induction false} ExportedToConcat(s: Store, a: seq<RecordId>, b: seq<RecordId>, locales: seq<string>, id: RecordId, l: string)
    requires forall i :: 0 <= i < |a| ==> a[i] in s.records
    requires forall i :: 0 <= i < |b| ==> b[i] in s.records
    ensures forall i :: 0 <= i < |a + b| ==> (a + b)[i] in s.records
    ensures ExportedTo(s, a + b, locales, id, l) == ExportedTo(s, a, locales, id, l) + ExportedTo(s, b, locales, id, l)
    decreases |a|
  {
    assert forall i :: 0 <= i < |a + b| ==> (a + b)[i] in s.records by {
      forall i | 0 <= i < |a + b| ensures (a + b)[i] in s.records {
        if i >= |a| {
          assert (a + b)[i] == b[i - |a|];
        }
      }
    }
    if a == [] {
      assert a + b == b;
    } else {
      assert (a + b)[1..] == a[1..] + b;
      assert forall i :: 0 <= i < |a[1..]| ==> a[1..][i] == a[i + 1];
      ExportedToConcat(s, a[1..], b, locales, id, l);
    }
  }

  /** When `src` is the only record of `ids` that comes back as `id`, and
      occurs at most once, `id` receives its exported values alone. */
  lemma {:induction false} ExportedToSingle(s: Store, ids: seq<RecordId>, locales: seq<string>, id: RecordId, l: string, src: RecordId)
    requires NoDup(ids) && forall i :: 0 <= i < |ids| ==> ids[i] in s.records
    requires Arrival(src) == id
    requires forall i :: 0 <= i < |ids| && Arrival(ids[i]) == id ==> ids[i] == src
    ensures ExportedTo(s, ids, locales, id, l) == if src in ids then Exported(s, src, locales, l) else []
    decreases |ids|
  {
    if ids != [] {
      NoDupTail(ids);
      assert forall i :: 0 <= i < |ids[1..]| ==> ids[1..][i] == ids[i + 1];
      ExportedToSingle(s, ids[1..], locales, id, l, src);
      assert src in ids <==> src == ids[0] || src in ids[1..];
    }
  }

  /** When no record of `ids` comes back as `id`, nothing is written to it. */
  lemma {:induction false} ExportedToNone(s: Store, ids: seq<RecordId>, locales: seq<string>, id: RecordId, l: string)
    requires forall i :: 0 <= i < |ids| ==> ids[i] in s.records && Arrival(ids[i]) != id
    ensures ExportedTo(s, ids, locales, id, l) == []
    decreases |ids|
  {
    if ids != [] {
      assert forall i :: 0 <= i < |ids[1..]| ==> ids[1..][i] == ids[i + 1];
      ExportedToNone(s, ids[1..], locales, id, l);
    }
  }

  /** What a record's locale holds after its export is imported into an
      empty table, when no other record comes back in its place: the value
      when the locale is exported, and the value is set and not empty. */
  function ReadBack(s: Store, locales: seq<string>, id: RecordId, l: string): Option<Value> {
    if id in s.records && l in locales && IsSet(s.records[id], l) && s.records[id][l].text != ""
    then Some(s.records[id][l]) else None
  }

  /** What a locale of a record holds after an export of `s` is imported into
      an empty table with overwrite `ow`. Nothing comes back in the empty
      group. A group other than "general" reads back its own record. The
      record of a key in "general" also receives the record of that key in
      the empty group, whose row comes first (the empty group sorts first):
      with overwrite the later row's value wins, without it the earlier
      one's is kept. */
  function CsvReadBack(s: Store, locales: seq<string>, ow: bool, id: RecordId, l: string): Option<Value> {
    if id.group == "" then None
    else if id.group != "general" then ReadBack(s, locales, id, l)
    else
      var blank := ReadBack(s, locales, RecordId(id.key, ""), l);
      var own := ReadBack(s, locales, id, l);
      if blank.None? then own else if own.None? || !ow then blank else own
  }

  /** The records that come back from an export of `s`. */
  function ArrivedKeys(s: Store): set<RecordId> {
    set id | id in s.records :: Arrival(id)
  }

  /** The rows of a record list holding every record of `s` once, in any
      order. */
  predicate Listing(s: Store, ids: seq<RecordId>) {
    && NoDup(ids)
    && (forall i :: 0 <= i < |ids| ==> ids[i] in s.records)
    && (forall id :: id in s.records ==> id in ids)
  }

  /** The saves of the rows of a listing, made on an empty table, create the
      arrivals of its records and give each locale the fold of what the rows
      coming back as its record hold. */
  lemma ExportedOpsStore(s: Store, ids: seq<RecordId>, locales: seq<string>, ow: bool)
    requires Listing(s, ids)
    ensures
      var t := ApplyAll(Empty, OpsOf(ExportRows(s, ids, locales), locales), ow);
      && t.records.Keys == ArrivedKeys(s)
      && forall id, l :: Lookup(t, id, l) == Fold(None, ExportedTo(s, ids, locales, id, l), ow)
  {
    ExportedOpsKeys(s, ids, locales, ow);
    forall id, l ensures Lookup(ApplyAll(Empty, OpsOf(ExportRows(s, ids, locales), locales), ow), id, l)
                         == Fold(None, ExportedTo(s, ids, locales, id, l), ow) {
      ExportedOpsLookup(s, ids, locales, ow, id, l);
    }
  }

  lemma ExportedOpsKeys(s: Store, ids: seq<RecordId>, locales: seq<string>, ow: bool)
    requires Listing(s, ids)
    ensures ApplyAll(Empty, OpsOf(ExportRows(s, ids, locales), locales), ow).records.Keys == ArrivedKeys(s)
  {
    var ops := OpsOf(ExportRows(s, ids, locales), locales);
    ApplyAllRecords(Empty, ops, ow);
    ExportOpsMentioned(s, ids, locales);
    ArrivalsOfListing(s, ids);
    assert Empty.records.Keys == {};
  }

  lemma ArrivalsOfListing(s: Store, ids: seq<RecordId>)
    requires Listing(s, ids)
    ensures Arrivals(ids) == ArrivedKeys(s)
  {
    ArrivalsMembers(ids);
    forall x ensures x in Arrivals(ids) <==> x in ArrivedKeys(s) {
      if x in ArrivedKeys(s) {
        var id :| id in s.records && Arrival(id) == x;
        assert id in ids;
      }
    }
  }

  lemma ExportedOpsLookup(s: Store, ids: seq<RecordId>, locales: seq<string>, ow: bool, id: RecordId, l: string)
    requires Listing(s, ids)
    ensures Lookup(ApplyAll(Empty, OpsOf(ExportRows(s, ids, locales), locales), ow), id, l)
            == Fold(None, ExportedTo(s, ids, locales, id, l), ow)
  {
    var ops := OpsOf(ExportRows(s, ids, locales), locales);
    ApplyAllLookup(Empty, ops, ow, id, l);
    ExportOpsWritten(s, ids, locales, id, l);
    assert Lookup(Empty, id, l) == None;
  }

  /** At most one write to a missing value leaves that write. */
  lemma FoldFromNothing(w: seq<Value>, ow: bool)
    requires |w| <= 1
    ensures Fold(None, w, ow) == if w == [] then None else Some(w[0])
  {
    if w != [] {
      assert Fold(None, w, ow) == Fold(Some(w[0]), [], ow);
    }
  }

  /** The exported values of one record, folded from nothing, are its
      read-back value. */
  lemma FoldExported(s: Store, src: RecordId, locales: seq<string>, l: string, ow: bool)
    requires src in s.records
    ensures Fold(None, Exported(s, src, locales, l), ow) == ReadBack(s, locales, src, l)
  {
    FoldFromNothing(Exported(s, src, locales, l), ow);
  }

  /** Read back in export order, each locale of each record holds its
      `CsvReadBack` value. */
  lemma ExportOrderReadBack(s: Store, locales: seq<string>, ow: bool, id: RecordId, l: string)
    requires Valid(s)
    ensures Fold(None, ExportedTo(s, ExportOrder(s), locales, id, l), ow) == CsvReadBack(s, locales, ow, id, l)
  {
    var blank := RecordId(id.key, "");
    if id.group == "" {
      ExportedToNone(s, ExportOrder(s), locales, id, l);
    } else if id.group != "general" || blank !in s.records {
      SingleReadBack(s, locales, ow, id, l, id);
    } else if id !in s.records {
      SingleReadBack(s, locales, ow, id, l, blank);
    } else {
      CollisionReadBack(s, locales, ow, id, l);
    }
  }

  /** A record that only `src` comes back as reads back `src`. */
  lemma SingleReadBack(s: Store, locales: seq<string>, ow: bool, id: RecordId, l: string, src: RecordId)
    requires Valid(s) && Arrival(src) == id
    requires forall x :: x in s.records && Arrival(x) == id ==> x == src
    ensures Fold(None, ExportedTo(s, ExportOrder(s), locales, id, l), ow) == ReadBack(s, locales, src, l)
  {
    var ids := ExportOrder(s);
    assert forall i :: 0 <= i < |ids| ==> ids[i] in s.records;
    ExportedToSingle(s, ids, locales, id, l, src);
    if src in s.records {
      FoldExported(s, src, locales, l, ow);
    }
  }

  /** The record of a key in "general" and the one of the same key in the
      empty group: the second's row comes first, so its values are written
      first. */
  lemma CollisionReadBack(s: Store, locales: seq<string>, ow: bool, id: RecordId, l: string)
    requires Valid(s) && id.group == "general" && id in s.records && RecordId(id.key, "") in s.records
    ensures Fold(None, ExportedTo(s, ExportOrder(s), locales, id, l), ow) == CsvReadBack(s, locales, ow, id, l)
  {
    var blank := RecordId(id.key, "");
    CollisionWrites(s, locales, id, l);
    FoldTwo(s, blank, id, locales, l, ow);
  }

  /** The values written to the record of a key in "general" are those of the
      record of that key in the empty group, then its own. */
  lemma CollisionWrites(s: Store, locales: seq<string>, id: RecordId, l: string)
    requires Valid(s) && id.group == "general" && id in s.records && RecordId(id.key, "") in s.records
    ensures ExportedTo(s, ExportOrder(s), locales, id, l) ==
              Exported(s, RecordId(id.key, ""), locales, l) + Exported(s, id, locales, l)
  {
    var ids := ExportOrder(s);
    var q := BlankFirst(s, id);
    SplitWrites(s, ids, q, locales, id, l, RecordId(id.key, ""));
  }

  /** In export order the record of a key in the empty group comes before the
      one of the key in "general". */
  lemma BlankFirst(s: Store, id: RecordId) returns (q: nat)
    requires Valid(s) && id.group == "general" && id in s.records && RecordId(id.key, "") in s.records
    ensures q < |ExportOrder(s)| && ExportOrder(s)[q] == id && RecordId(id.key, "") in ExportOrder(s)[..q]
  {
    var ids := ExportOrder(s);
    var blank := RecordId(id.key, "");
    var p :| 0 <= p < |ids| && ids[p] == blank;
    q :| 0 <= q < |ids| && ids[q] == id;
    assert !LexLe(IdKey(id), IdKey(blank));
    assert p < q;
    assert ids[..q][p] == blank;
  }

  /** Splitting a listing before `id`, when `blank` comes earlier and both
      come back as `id`. */
  lemma SplitWrites(s: Store, ids: seq<RecordId>, q: nat, locales: seq<string>, id: RecordId, l: string, blank: RecordId)
    requires NoDup(ids) && forall i :: 0 <= i < |ids| ==> ids[i] in s.records
    requires q < |ids| && ids[q] == id && blank in ids[..q] && blank != id
    requires Arrival(id) == id && Arrival(blank) == id
    requires forall x :: Arrival(x) == id ==> x == id || x == blank
    ensures ExportedTo(s, ids, locales, id, l) == Exported(s, blank, locales, l) + Exported(s, id, locales, l)
  {
    var a, b := ids[..q], ids[q..];
    assert ids == a + b;
    assert forall i :: 0 <= i < |a| ==> a[i] in s.records by {
      forall i | 0 <= i < |a| ensures a[i] in s.records { assert a[i] == ids[i]; }
    }
    assert forall i :: 0 <= i < |b| ==> b[i] in s.records by {
      forall i | 0 <= i < |b| ensures b[i] in s.records { assert b[i] == ids[q + i]; }
    }
    ExportedToConcat(s, a, b, locales, id, l);
    PrefixWrites(s, ids, q, locales, id, l, blank);
    SuffixWrites(s, ids, q, locales, id, l, blank);
  }

  lemma PrefixWrites(s: Store, ids: seq<RecordId>, q: nat, locales: seq<string>, id: RecordId, l: string, blank: RecordId)
    requires NoDup(ids) && forall i :: 0 <= i < |ids| ==> ids[i] in s.records
    requires q < |ids| && ids[q] == id && blank in ids[..q] && blank != id
    requires Arrival(blank) == id
    requires forall x :: Arrival(x) == id ==> x == id || x == blank
    ensures forall i :: 0 <= i < |ids[..q]| ==> ids[..q][i] in s.records
    ensures ExportedTo(s, ids[..q], locales, id, l) == Exported(s, blank, locales, l)
  {
    var a := ids[..q];
    NoDupSlices(ids, q);
    assert forall i :: 0 <= i < |a| ==> a[i] == ids[i];
    forall i | 0 <= i < |a| && Arrival(a[i]) == id ensures a[i] == blank {
      assert a[i] == ids[i] && i != q;
    }
    ExportedToSingle(s, a, locales, id, l, blank);
  }

  lemma SuffixWrites(s: Store, ids: seq<RecordId>, q: nat, locales: seq<string>, id: RecordId, l: string, blank: RecordId)
    requires NoDup(ids) && forall i :: 0 <= i < |ids| ==> ids[i] in s.records
    requires q < |ids| && ids[q] == id && blank in ids[..q] && blank != id
    requires Arrival(id) == id
    requires forall x :: Arrival(x) == id ==> x == id || x == blank
    ensures forall i :: 0 <= i < |ids[q..]| ==> ids[q..][i] in s.records
    ensures ExportedTo(s, ids[q..], locales, id, l) == Exported(s, id, locales, l)
  {
    var b := ids[q..];
    NoDupSlices(ids, q);
    assert forall i :: 0 <= i < |b| ==> b[i] == ids[q + i];
    var p :| 0 <= p < q && ids[..q][p] == blank;
    forall i | 0 <= i < |b| && Arrival(b[i]) == id ensures b[i] == id {
      assert b[i] == ids[q + i] && ids[p] == blank && p != q + i;
    }
    assert b[0] == id;
    ExportedToSingle(s, b, locales, id, l, id);
  }

  /** Two records' exported values folded from nothing: an empty one leaves
      the other's; when both are set the later wins only with overwrite. */
  lemma FoldTwo(s: Store, first: RecordId, second: RecordId, locales: seq<string>, l: string, ow: bool)
    requires first in s.records && second in s.records
    ensures var a, b := ReadBack(s, locales, first, l), ReadBack(s, locales, second, l);
            Fold(None, Exported(s, first, locales, l) + Exported(s, second, locales, l), ow) ==
              if a.None? then b else if b.None? || !ow then a else b
  {
    var ea, eb := Exported(s, first, locales, l), Exported(s, second, locales, l);
    if ea == [] {
      assert ea + eb == eb;
      FoldExported(s, second, locales, l, ow);
    } else if eb == [] {
      assert ea + eb == ea;
      FoldExported(s, first, locales, l, ow);
    } else {
      assert |ea| == 1 && |eb| == 1;
      assert (ea + eb)[0] == ea[0] && (ea + eb)[1..] == eb;
      assert Fold(None, ea + eb, ow) == Fold(Some(ea[0]), eb, ow);
      assert Fold(Some(ea[0]), eb, ow) == Fold(Next(Some(ea[0]), eb[0], ow), [], ow);
    }
  }

  /** Both halves of a sequence without repeats have none either. */
  lemma NoDupSlices<T>(s: seq<T>, k: nat)
    requires NoDup(s) && k <= |s|
    ensures NoDup(s[..k]) && NoDup(s[k..])
  {
    forall i, j | 0 <= i < j < |s[..k]| ensures s[..k][i] != s[..k][j] {
      assert s[..k][i] == s[i] && s[..k][j] == s[j];
    }
    forall i, j | 0 <= i < j < |s[k..]| ensures s[k..][i] != s[k..][j] {
      assert s[k..][i] == s[k + i] && s[k..][j] == s[k + j];
    }
  }

  /** Every row after the header has at least two cells. */
  predicate DataRowsComplete(lines: seq<Row>) {
    forall i :: 1 <= i < |lines| ==> |lines[i]| >= 2
  }

  lemma ExportRowsComplete(s: Store, ids: seq<RecordId>, locales: seq<string>, lines: seq<Row>)
    requires forall i :: 0 <= i < |ids| ==> ids[i] in s.records
    requires lines != [] && lines[1..] == ExportRows(s, ids, locales)
    ensures DataRowsComplete(lines)
  {
    forall i | 1 <= i < |lines| ensures |lines[i]| >= 2 {
      assert lines[i] == lines[1..][i - 1];
    }
  }

  /** A readable file whose header has a third column and whose rows all
      have two cells is imported completely, as the saves of its rows. */
  lemma ImportComplete(s: Store, path: string, lines: seq<Row>, disk: map<string, seq<Row>>, overwrite: Option<bool>)
    requires Valid(s) && !IsEmptyString(path)
    requires lines != [] && |lines[0]| >= 3 && DataRowsComplete(lines)
    ensures
      var rows := lines[1..];
      assert forall i :: 0 <= i < |rows| ==> rows[i] == lines[i + 1];
      ImportCsv(s, Some(path), disk[path := lines], overwrite) ==
        Imported(ApplyAll(s, OpsOf(rows, lines[0][2..]), overwrite.GetOr(true)), |rows|)
  {
    var rows := lines[1..];
    assert forall i :: 0 <= i < |rows| ==> rows[i] == lines[i + 1];
    CompleteAll(rows);
    assert rows[..|rows|] == rows;
    ImportRowsOps(s, rows, lines[0][2..], overwrite.GetOr(true));
  }

  /** The shape of an export with locales: a header naming them from its
      third cell on, then the rows of a listing of the table. */
  lemma ExportShape(s: Store, locales: seq<string>)
    requires Valid(s) && |locales| >= 1
    ensures
      var lines := Export(s, Some(locales));
      && |lines[0]| >= 3 && lines[0][2..] == locales
      && Listing(s, ExportOrder(s))
      && lines[1..] == ExportRows(s, ExportOrder(s), locales)
      && |lines| - 1 == |s.order|
  {
  }

  /** Importing the rows of a listing into an empty table. */
  lemma ImportListing(s: Store, ids: seq<RecordId>, locales: seq<string>, lines: seq<Row>,
                      path: string, disk: map<string, seq<Row>>, overwrite: Option<bool>)
    requires Listing(s, ids) && !IsEmptyString(path)
    requires lines != [] && |lines[0]| >= 3 && lines[0][2..] == locales
    requires lines[1..] == ExportRows(s, ids, locales)
    ensures
      var r := ImportCsv(Empty, Some(path), disk[path := lines], overwrite);
      && r.Imported? && r.rows == |ids|
      && r.store.records.Keys == ArrivedKeys(s)
      && forall id, l :: Lookup(r.store, id, l) == Fold(None, ExportedTo(s, ids, locales, id, l), overwrite.GetOr(true))
  {
    var ow := overwrite.GetOr(true);
    var rows := lines[1..];
    ExportRowsComplete(s, ids, locales, lines);
    var r := ImportCsv(Empty, Some(path), disk[path := lines], overwrite);
    var t := ApplyAll(Empty, OpsOf(rows, locales), ow);
    assert r == Imported(t, |rows|) by {
      ImportComplete(Empty, path, lines, disk, overwrite);
    }
    ExportedOpsStore(s, ids, locales, ow);
  }

  /** Export then import into an empty table: every record comes back, a
      record of the empty group in "general", one row per record; each
      locale holds its `CsvReadBack` value. */
  lemma ExportThenImport(s: Store, locales: seq<string>, path: string, disk: map<string, seq<Row>>, overwrite: Option<bool>)
    requires Valid(s) && |locales| >= 1 && !IsEmptyString(path)
    ensures
      var r := ImportCsv(Empty, Some(path), disk[path := Export(s, Some(locales))], overwrite);
      && r.Imported? && r.rows == |s.order|
      && r.store.records.Keys == ArrivedKeys(s)
      && forall id, l :: Lookup(r.store, id, l) == CsvReadBack(s, locales, overwrite.GetOr(true), id, l)
  {
    ExportShape(s, locales);
    ImportListing(s, ExportOrder(s), locales, Export(s, Some(locales)), path, disk, overwrite);
    forall id, l ensures Fold(None, ExportedTo(s, ExportOrder(s), locales, id, l), overwrite.GetOr(true))
                         == CsvReadBack(s, locales, overwrite.GetOr(true), id, l) {
      ExportOrderReadBack(s, locales, overwrite.GetOr(true), id, l);
    }
  }

  /** Without records in the empty group, export then import gives back
      exactly the table's records, each locale holding its set, non-empty
      exported value. */
  lemma ExportThenImportPlain(s: Store, locales: seq<string>, path: string, disk: map<string, seq<Row>>, overwrite: Option<bool>)
    requires Valid(s) && |locales| >= 1 && !IsEmptyString(path)
    requires forall id :: id in s.records ==> id.group != ""
    ensures
      var r := ImportCsv(Empty, Some(path), disk[path := Export(s, Some(locales))], overwrite);
      && r.Imported? && r.rows == |s.order|
      && r.store.records.Keys == s.records.Keys
      && forall id, l :: Lookup(r.store, id, l) == ReadBack(s, locales, id, l)
  {
    var r := ImportCsv(Empty, Some(path), disk[path := Export(s, Some(locales))], overwrite);
    ExportThenImport(s, locales, path, disk, overwrite);
    PlainReadBack(s, r.store, locales, overwrite.GetOr(true));
  }

  lemma PlainReadBack(s: Store, t: Store, locales: seq<string>, ow: bool)
    requires forall id :: id in s.records ==> id.group != ""
    requires t.records.Keys == ArrivedKeys(s)
    requires forall id, l :: Lookup(t, id, l) == CsvReadBack(s, locales, ow, id, l)
    ensures t.records.Keys == s.records.Keys
    ensures forall id, l :: Lookup(t, id, l) == ReadBack(s, locales, id, l)
  {
    assert forall id :: id in s.records ==> Arrival(id) == id;
    assert ArrivedKeys(s) == s.records.Keys;
  }

  /** A record of the empty group comes back as the record of its key in
      "general", when the table has no such record itself. */
  lemma ExportThenImportEmptyGroup(s: Store, locales: seq<string>, path: string, disk: map<string, seq<Row>>,
                                   overwrite: Option<bool>, key: string, l: string)
    requires Valid(s) && |locales| >= 1 && !IsEmptyString(path)
    requires RecordId(key, "") in s.records && RecordId(key, "general") !in s.records
    ensures
      var r := ImportCsv(Empty, Some(path), disk[path := Export(s, Some(locales))], overwrite);
      && r.Imported?
      && RecordId(key, "general") in r.store.records && RecordId(key, "") !in r.store.records
      && Lookup(r.store, RecordId(key, "general"), l) == ReadBack(s, locales, RecordId(key, ""), l)
  {
    var r := ImportCsv(Empty, Some(path), disk[path := Export(s, Some(locales))], overwrite);
    ExportThenImport(s, locales, path, disk, overwrite);
    EmptyGroupReadBack(s, r.store, locales, overwrite.GetOr(true), key, l);
  }

  lemma EmptyGroupReadBack(s: Store, t: Store, locales: seq<string>, ow: bool, key: string, l: string)
    requires RecordId(key, "") in s.records && RecordId(key, "general") !in s.records
    requires t.records.Keys == ArrivedKeys(s)
    requires Lookup(t, RecordId(key, "general"), l) == CsvReadBack(s, locales, ow, RecordId(key, "general"), l)
    ensures RecordId(key, "general") in t.records && RecordId(key, "") !in t.records
    ensures Lookup(t, RecordId(key, "general"), l) == ReadBack(s, locales, RecordId(key, ""), l)
  {
    assert Arrival(RecordId(key, "")) == RecordId(key, "general");
  }
}

=== FILE: generate.dfy ===
/** `translations:generate`: scan the code for keys, then for every configured
    locale make its directory, copy the standard Laravel files from English,
    and add to its JSON file every scanned key it lacks that the translator
    does not already know, keeping every existing entry and sorting by key. */
module Generate {
  import opened Base
  import opened PhpString
  import opened OrderedMap
  import opened Sorting
  import opened Scanner
  import opened LangFiles

  /** The standard files copied from `lang/en/`. */
  const StandardFiles: seq<string> := ["auth.php", "pagination.php", "passwords.php", "validation.php"]

  /** The message printed when no locale is configured. */
  const NoLocalesMessage := "No locales found in config/translation-manager.php available_locales"

  /** The translator: `trans(key)` while the application locale is `locale`.
      It answers the key itself when it has no translation. */
  type Translator = (string, string) -> string

  // ---------------------------------------------------------------- directory and standard files

  /** The copy of `name` into `locale` happens: English has the file and the
      locale does not. */
  predicate CopiesFile(lang: LangDir, locale: string, name: string) {
    && "en" in lang.dirs && Get(lang.dirs["en"], name).Some?
    && locale in lang.dirs && Get(lang.dirs[locale], name).None?
  }

  /** Copies `name` from English into `locale` when that copy happens. */
  function CopyOne(lang: LangDir, locale: string, name: string): (r: LangDir)
    requires Consistent(lang) && locale in lang.dirs
    ensures Consistent(r) && r.json == lang.json && r.dirs.Keys == lang.dirs.Keys
    ensures forall l :: l in lang.dirs && l != locale ==> r.dirs[l] == lang.dirs[l]
    ensures forall f :: Get(r.dirs[locale], f) ==
                 (if f == name && CopiesFile(lang, locale, f) then Get(lang.dirs["en"], f) else Get(lang.dirs[locale], f))
  {
    if CopiesFile(lang, locale, name) then
      lang.(dirs := lang.dirs[locale := Put(lang.dirs[locale], name, Get(lang.dirs["en"], name).value)])
    else lang
  }

  /** `r` is `lang` with each of `names` copied into `locale` when its copy
      happens, and nothing else changed. */
  ghost predicate CopiedInto(lang: LangDir, locale: string, names: seq<string>, r: LangDir)
    requires locale in lang.dirs
  {
    && Consistent(r) && r.json == lang.json && r.dirs.Keys == lang.dirs.Keys
    && (forall l :: l in lang.dirs && l != locale ==> r.dirs[l] == lang.dirs[l])
    && (forall f :: Get(r.dirs[locale], f) ==
          (if f in names && CopiesFile(lang, locale, f) then Get(lang.dirs["en"], f) else Get(lang.dirs[locale], f)))
  }

  /** Copies each of `names` from English into `locale`, never replacing a
      file the locale already has. */
  function CopyFiles(lang: LangDir, locale: string, names: seq<string>): (r: LangDir)
    requires Consistent(lang) && locale in lang.dirs
    ensures Consistent(r) && r.json == lang.json && r.dirs.Keys == lang.dirs.Keys
    ensures forall l :: l in lang.dirs && l != locale ==> r.dirs[l] == lang.dirs[l]
    ensures forall f :: Get(r.dirs[locale], f) ==
                 (if f in names && CopiesFile(lang, locale, f) then Get(lang.dirs["en"], f) else Get(lang.dirs[locale], f))
    decreases |names|
  {
    if names == [] then lang
    else
      var r := CopyFiles(CopyOne(lang, locale, names[0]), locale, names[1..]);
      CopyFilesStep(lang, locale, names, r);
      r
  }

  /** Copying the first name, then the rest, copies them all. */
  lemma CopyFilesStep(lang: LangDir, locale: string, names: seq<string>, r: LangDir)
    requires Consistent(lang) && locale in lang.dirs && names != []
    requires CopiedInto(CopyOne(lang, locale, names[0]), locale, names[1..], r)
    ensures CopiedInto(lang, locale, names, r)
  {
    var next := CopyOne(lang, locale, names[0]);
    forall f ensures Get(r.dirs[locale], f) ==
        (if f in names && CopiesFile(lang, locale, f) then Get(lang.dirs["en"], f) else Get(lang.dirs[locale], f))
    {
      CopyNext(lang, locale, names[0], f);
    }
  }

  /** What one copy changes about the copies still to come. */
  lemma CopyNext(lang: LangDir, locale: string, name: string, f: string)
    requires Consistent(lang) && locale in lang.dirs
    ensures var next := CopyOne(lang, locale, name);
      && (f != name ==> (CopiesFile(next, locale, f) <==> CopiesFile(lang, locale, f)))
      && (f == name ==> !CopiesFile(next, locale, f))
      && (CopiesFile(next, locale, f) ==> next.dirs["en"] == lang.dirs["en"])
  {
  }

  /** Copying nothing leaves the directory as it is. */
  lemma {:induction false} CopyFilesNoop(lang: LangDir, locale: string, names: seq<string>)
    requires Consistent(lang) && locale in lang.dirs
    requires forall f :: f in names ==> !CopiesFile(lang, locale, f)
    ensures CopyFiles(lang, locale, names) == lang
    decreases |names|
  {
    if names != [] {
      CopyFilesNoop(lang, locale, names[1..]);
    }
  }

  // ---------------------------------------------------------------- the JSON file

  /** The value a new key receives: the key itself in English, empty
      elsewhere. */
  function SeedValue(locale: string, key: string): (r: Value)
    ensures r.Text?
  {
    if locale == "en" then Text(key) else Text("")
  }

  /** Whether a scanned key is new for the JSON array `m`: absent, and
      unknown to the translator. */
  predicate IsNew(m: seq<(string, Value)>, key: string, locale: string, translate: Translator) {
    key !in Keys(m) && translate(locale, key) == key
  }

  /** Adds the new keys in order, counting them. */
  function AddKeys(m: seq<(string, Value)>, keys: seq<string>, locale: string, translate: Translator): (r: (seq<(string, Value)>, nat))
    requires WellFormed(m)
    ensures WellFormed(r.0)
    ensures |r.0| == |m| + r.1
    ensures forall k :: Get(r.0, k) ==
                 (if k in Keys(m) then Get(m, k)
                  else if k in keys && translate(locale, k) == k then Some(SeedValue(locale, k))
                  else None)
    decreases |keys|
  {
    if keys == [] then (m, 0)
    else
      var k0 := keys[0];
      var next := if IsNew(m, k0, locale, translate) then Put(m, k0, SeedValue(locale, k0)) else m;
      var rest := AddKeys(next, keys[1..], locale, translate);
      assert forall k :: k in keys <==> k == k0 || k in keys[1..];
      (rest.0, rest.1 + (if IsNew(m, k0, locale, translate) then 1 else 0))
  }

  /** When no key is new, nothing is added. */
  lemma {:induction false} AddKeysNoop(m: seq<(string, Value)>, keys: seq<string>, locale: string, translate: Translator)
    requires WellFormed(m)
    requires forall k :: k in keys ==> !IsNew(m, k, locale, translate)
    ensures AddKeys(m, keys, locale, translate) == (m, 0)
    decreases |keys|
  {
    if keys != [] {
      AddKeysNoop(m, keys[1..], locale, translate);
    }
  }

  /** The sort key of a JSON entry: its key. */
  function KeyOf(e: (string, Value)): seq<string> {
    [e.0]
  }

  /** The JSON array after an update, sorted by key, and how many keys were
      added. Existing entries keep their values; a scanned key is added
      exactly when it is new. */
  function UpdateJson(existing: seq<(string, Value)>, keys: seq<string>, locale: string, translate: Translator): (r: (seq<(string, Value)>, nat))
    requires WellFormed(existing)
    ensures WellFormed(r.0) && SortedBy(r.0, KeyOf)
    ensures |r.0| == |existing| + r.1
    ensures forall k :: k in Keys(existing) ==> Get(r.0, k) == Get(existing, k)
    ensures forall k :: k !in Keys(existing) ==>
                 Get(r.0, k) == if k in keys && translate(locale, k) == k then Some(SeedValue(locale, k)) else None
  {
    var (added, n) := AddKeys(existing, keys, locale, translate);
    var sorted := Sort(added, KeyOf);
    PermutedMap(added, sorted);
    assert |sorted| == |multiset(sorted)| == |multiset(added)| == |added|;
    (sorted, n)
  }

  /** Updating a sorted array that already holds every new key changes
      nothing. */
  lemma UpdateJsonNoop(existing: seq<(string, Value)>, keys: seq<string>, locale: string, translate: Translator)
    requires WellFormed(existing) && SortedBy(existing, KeyOf)
    requires forall k :: k in keys ==> !IsNew(existing, k, locale, translate)
    ensures UpdateJson(existing, keys, locale, translate) == (existing, 0)
  {
    AddKeysNoop(existing, keys, locale, translate);
    SortedJsonUnique(existing, Sort(existing, KeyOf));
  }

  /** A sorted JSON array without repeated keys is the only sorted
      arrangement of its entries. */
  lemma SortedJsonUnique(existing: seq<(string, Value)>, sorted: seq<(string, Value)>)
    requires WellFormed(existing) && SortedBy(existing, KeyOf)
    requires SortedBy(sorted, KeyOf) && multiset(sorted) == multiset(existing)
    ensures sorted == existing
  {
    forall x, y | x in existing && y in existing && KeyOf(x) == KeyOf(y) ensures x == y {
      var i :| 0 <= i < |existing| && existing[i] == x;
      var j :| 0 <= j < |existing| && existing[j] == y;
      assert Keys(existing)[i] == Keys(existing)[j];
    }
    SortedUnique(existing, sorted, KeyOf, 1);
  }

  // ---------------------------------------------------------------- one locale, all locales

  /** What a run produced: the directory and the number of keys added per
      locale; a refusal because no locale is configured; or an exception
      from a JSON file that does not decode, with the directory as it was
      left. */
  datatype Outcome =
    | Generated(lang: LangDir, added: seq<nat>)
    | NoLocales
    | Malformed(lang: LangDir, locale: string)

  /** The command's exit status; an exception counts as failure. */
  function ExitCode(o: Outcome): (code: int)
    ensures code == 0 <==> o.Generated?
  {
    if o.Generated? then 0 else 1
  }

  /** A count of zero for each of `n` locales. */
  function Zeros(n: nat): (r: seq<nat>)
    ensures |r| == n && forall i :: 0 <= i < n ==> r[i] == 0
  {
    if n == 0 then [] else [0] + Zeros(n - 1)
  }

  /** The existing JSON file of a locale; a missing file reads as empty. */
  function ExistingJson(lang: LangDir, locale: string): JsonFile {
    if locale in lang.json then lang.json[locale] else JsonObject([])
  }

  /** The directory and standard files of one locale. */
  function Prepared(lang: LangDir, locale: string): (r: LangDir)
    requires Consistent(lang)
    ensures Consistent(r) && r.json == lang.json
    ensures locale in r.dirs && r.dirs.Keys == lang.dirs.Keys + {locale}
  {
    CopyFiles(EnsureDir(lang, locale), locale, StandardFiles)
  }

  /** Afterwards the locale lacks none of the standard files English has. */
  lemma PreparedComplete(lang: LangDir, locale: string)
    requires Consistent(lang)
    ensures forall f :: f in StandardFiles ==> !CopiesFile(Prepared(lang, locale), locale, f)
  {
    var withDir := EnsureDir(lang, locale);
    var r := Prepared(lang, locale);
    forall f | f in StandardFiles ensures !CopiesFile(r, locale, f) {
      if CopiesFile(withDir, locale, f) {
        assert Get(r.dirs[locale], f).Some?;
      }
    }
  }

  /** Another locale lacking no standard file still lacks none. */
  lemma PreparedOthers(lang: LangDir, locale: string, other: string, f: string)
    requires Consistent(lang) && other != locale && other in lang.dirs && !CopiesFile(lang, other, f)
    ensures Prepared(lang, locale).dirs[other] == lang.dirs[other]
    ensures !CopiesFile(Prepared(lang, locale), other, f)
  {
    var withDir := EnsureDir(lang, locale);
    var r := Prepared(lang, locale);
    if "en" == locale && "en" in r.dirs {
      assert !CopiesFile(withDir, locale, f);
      if "en" !in lang.dirs {
        assert withDir.dirs["en"] == [];
      }
    }
  }

  /** A locale lacking no standard file is left as it is. */
  lemma PreparedNoop(lang: LangDir, locale: string)
    requires Consistent(lang) && locale in lang.dirs
    requires forall f :: f in StandardFiles ==> !CopiesFile(lang, locale, f)
    ensures Prepared(lang, locale) == lang
  {
    assert EnsureDir(lang, locale) == lang;
    CopyFilesNoop(lang, locale, StandardFiles);
  }

  /** The JSON array after an update holds every key that was new. */
  lemma UpdateJsonCovers(existing: seq<(string, Value)>, keys: seq<string>, locale: string, translate: Translator)
    requires WellFormed(existing)
    ensures forall k :: k in keys ==> !IsNew(UpdateJson(existing, keys, locale, translate).0, k, locale, translate)
  {
    var u := UpdateJson(existing, keys, locale, translate).0;
    forall k | k in keys ensures !IsNew(u, k, locale, translate) {
      if k in Keys(existing) {
        assert Get(existing, k).Some?;
      }
    }
  }

  /** One locale: directory, standard files, JSON file. */
  function GenerateLocale(lang: LangDir, locale: string, keys: seq<string>, translate: Translator): (r: Outcome)
    requires Consistent(lang)
    ensures r.Generated? || r.Malformed?
    ensures r.Generated? ==> Consistent(r.lang) && |r.added| == 1
  {
    var prepared := Prepared(lang, locale);
    match ExistingJson(prepared, locale)
    case JsonMalformed => Malformed(prepared, locale)
    case JsonObject(e) =>
      var update := UpdateJson(e, keys, locale, translate);
      WithJsonConsistent(prepared, locale, update.0);
      Generated(WithJson(prepared, locale, update.0), [update.1])
  }

  /** The directory with `entries` written as the JSON file of `locale`. */
  function WithJson(lang: LangDir, locale: string, entries: seq<(string, Value)>): LangDir {
    lang.(json := lang.json[locale := JsonObject(entries)])
  }

  lemma WithJsonConsistent(lang: LangDir, locale: string, entries: seq<(string, Value)>)
    requires Consistent(lang) && WellFormed(entries)
    ensures Consistent(WithJson(lang, locale, entries))
  {
  }

  /** Writing a sorted JSON file holding every new key finishes a locale
      whose standard files are in place. */
  lemma WithJsonFinished(lang: LangDir, locale: string, entries: seq<(string, Value)>, keys: seq<string>, translate: Translator)
    requires locale in lang.dirs && WellFormed(entries) && SortedBy(entries, KeyOf)
    requires forall k :: k in keys ==> !IsNew(entries, k, locale, translate)
    requires forall f :: f in StandardFiles ==> !CopiesFile(lang, locale, f)
    ensures Finished(WithJson(lang, locale, entries), locale, keys, translate)
  {
    var r := WithJson(lang, locale, entries);
    assert r.dirs == lang.dirs;
  }

  /** The locales in order; the first JSON file that does not decode stops
      the run. */
  function GenerateAll(lang: LangDir, locales: seq<string>, keys: seq<string>, translate: Translator): (r: Outcome)
    requires Consistent(lang)
    ensures r.Generated? || r.Malformed?
    ensures r.Generated? ==> Consistent(r.lang) && |r.added| == |locales|
    decreases |locales|
  {
    if locales == [] then Generated(lang, [])
    else
      var first := GenerateLocale(lang, locales[0], keys, translate);
      if first.Malformed? then first
      else
        var rest := GenerateAll(first.lang, locales[1..], keys, translate);
        if rest.Malformed? then rest else Generated(rest.lang, first.added + rest.added)
  }

  /** The command: refuse when no locale is configured, otherwise scan and
      generate every locale. */
  function Run(config: Option<seq<string>>, tree: seq<SourceFile>, lang: LangDir, translate: Translator): (r: Outcome)
    requires Consistent(lang)
    ensures r.NoLocales? <==> Locales(config) == []
    ensures r.Generated? ==> Consistent(r.lang) && |r.added| == |Locales(config)|
  {
    var locales := Locales(config);
    if locales == [] then NoLocales else GenerateAll(lang, locales, ScanKeys(tree), translate)
  }

  // ---------------------------------------------------------------- what a finished locale looks like

  /** A locale the command is done with: its directory exists, its JSON file
      decodes, is sorted, and holds every key the translator does not know,
      and no standard file is left to copy. */
  predicate Finished(lang: LangDir, locale: string, keys: seq<string>, translate: Translator) {
    && locale in lang.dirs && locale in lang.json && lang.json[locale].JsonObject?
    && WellFormed(lang.json[locale].entries) && SortedBy(lang.json[locale].entries, KeyOf)
    && (forall k :: k in keys ==> !IsNew(lang.json[locale].entries, k, locale, translate))
    && (forall f :: f in StandardFiles ==> !CopiesFile(lang, locale, f))
  }

  /** A finished locale is left exactly as it is by another pass. */
  lemma FinishedLocaleUnchanged(lang: LangDir, locale: string, keys: seq<string>, translate: Translator)
    requires Consistent(lang) && Finished(lang, locale, keys, translate)
    ensures GenerateLocale(lang, locale, keys, translate) == Generated(lang, [0])
  {
    var e := lang.json[locale].entries;
    PreparedNoop(lang, locale);
    UpdateJsonNoop(e, keys, locale, translate);
    WithJsonSame(lang, locale);
    GenerateLocaleSame(lang, locale, keys, translate, e);
  }

  /** Writing back the JSON file a locale has changes nothing. */
  lemma WithJsonSame(lang: LangDir, locale: string)
    requires locale in lang.json && lang.json[locale].JsonObject?
    ensures WithJson(lang, locale, lang.json[locale].entries) == lang
  {
  }

  /** A locale whose files are in place and whose JSON update changes
      nothing is left as it is. */
  lemma GenerateLocaleSame(lang: LangDir, locale: string, keys: seq<string>, translate: Translator, e: seq<(string, Value)>)
    requires Consistent(lang) && Prepared(lang, locale) == lang
    requires ExistingJson(lang, locale) == JsonObject(e) && WithJson(lang, locale, e) == lang
    requires UpdateJson(e, keys, locale, translate) == (e, 0)
    ensures GenerateLocale(lang, locale, keys, translate) == Generated(lang, [0])
  {
  }

  /** Generating a locale finishes it. */
  lemma GenerateLocaleFinishes(lang: LangDir, locale: string, keys: seq<string>, translate: Translator)
    requires Consistent(lang)
    requires GenerateLocale(lang, locale, keys, translate).Generated?
    ensures Finished(GenerateLocale(lang, locale, keys, translate).lang, locale, keys, translate)
  {
    var prepared := Prepared(lang, locale);
    var e := ExistingJson(prepared, locale).entries;
    PreparedComplete(lang, locale);
    UpdateJsonCovers(e, keys, locale, translate);
    WithJsonFinished(prepared, locale, UpdateJson(e, keys, locale, translate).0, keys, translate);
  }

  /** Generating one locale does not undo the work on another. */
  lemma GenerateLocaleKeepsOthers(lang: LangDir, other: string, locale: string, keys: seq<string>, translate: Translator)
    requires Consistent(lang) && Finished(lang, other, keys, translate) && other != locale
    requires GenerateLocale(lang, locale, keys, translate).Generated?
    ensures Finished(GenerateLocale(lang, locale, keys, translate).lang, other, keys, translate)
  {
    var prepared := Prepared(lang, locale);
    var r := GenerateLocale(lang, locale, keys, translate).lang;
    PreparedOthers(lang, locale, other, StandardFiles[0]);
    assert r.dirs == prepared.dirs && r.json[other] == lang.json[other];
    forall f | f in StandardFiles ensures !CopiesFile(r, other, f) {
      PreparedOthers(lang, locale, other, f);
    }
  }

  /** After a run every listed locale is finished. */
  lemma {:induction false} GenerateAllFinishes(lang: LangDir, locales: seq<string>, keys: seq<string>, translate: Translator)
    requires Consistent(lang)
    requires GenerateAll(lang, locales, keys, translate).Generated?
    ensures forall l :: l in locales ==> Finished(GenerateAll(lang, locales, keys, translate).lang, l, keys, translate)

    decreases |locales|
  {
    if locales != [] {
      var next := GenerateLocale(lang, locales[0], keys, translate).lang;
      GenerateLocaleFinishes(lang, locales[0], keys, translate);
      GenerateAllFinishes(next, locales[1..], keys, translate);
      GenerateAllKeepsFinished(next, locales[1..], locales[0], keys, translate);
    }
  }

  /** A finished locale stays finished through a run over other locales, and
      through a run that passes over it again. */
  lemma {:induction false} GenerateAllKeepsFinished(lang: LangDir, locales: seq<string>, done: string, keys: seq<string>, translate: Translator)
    requires Consistent(lang) && Finished(lang, done, keys, translate)
    requires GenerateAll(lang, locales, keys, translate).Generated?
    ensures Finished(GenerateAll(lang, locales, keys, translate).lang, done, keys, translate)

    decreases |locales|
  {
    if locales != [] {
      var next := GenerateLocale(lang, locales[0], keys, translate).lang;
      if locales[0] == done {
        FinishedLocaleUnchanged(lang, done, keys, translate);
      } else {
        GenerateLocaleKeepsOthers(lang, done, locales[0], keys, translate);
      }
      GenerateAllKeepsFinished(next, locales[1..], done, keys, translate);
    }
  }

  /** A run over finished locales changes nothing and adds nothing. */
  lemma {:induction false} GenerateAllOnFinished(lang: LangDir, locales: seq<string>, keys: seq<string>, translate: Translator)
    requires Consistent(lang)
    requires forall l :: l in locales ==> Finished(lang, l, keys, translate)
    ensures GenerateAll(lang, locales, keys, translate) == Generated(lang, Zeros(|locales|))
    decreases |locales|
  {
    if locales != [] {
      FinishedLocaleUnchanged(lang, locales[0], keys, translate);
      assert forall l :: l in locales[1..] ==> l in locales;
      GenerateAllOnFinished(lang, locales[1..], keys, translate);
      GenerateAllUnchangedStep(lang, locales, keys, translate, Zeros(|locales| - 1));
    }
  }

  /** A locale left as it is, followed by a run leaving everything as it is. */
  lemma GenerateAllUnchangedStep(lang: LangDir, locales: seq<string>, keys: seq<string>, translate: Translator, counts: seq<nat>)
    requires Consistent(lang) && locales != []
    requires GenerateLocale(lang, locales[0], keys, translate) == Generated(lang, [0])
    requires GenerateAll(lang, locales[1..], keys, translate) == Generated(lang, counts)
    ensures GenerateAll(lang, locales, keys, translate) == Generated(lang, [0] + counts)
  {
  }

  /** Running the command a second time over the same code changes no file
      and adds no key. */
  lemma RunIdempotent(config: Option<seq<string>>, tree: seq<SourceFile>, lang: LangDir, translate: Translator)
    requires Consistent(lang)
    requires Run(config, tree, lang, translate).Generated?
    ensures var first := Run(config, tree, lang, translate).lang;
            Run(config, tree, first, translate) == Generated(first, Zeros(|Locales(config)|))
  {
    var keys := ScanKeys(tree);
    GenerateAllFinishes(lang, Locales(config), keys, translate);
    GenerateAllOnFinished(Run(config, tree, lang, translate).lang, Locales(config), keys, translate);
  }

  /** After a run, each configured locale's JSON file holds every scanned key
      the translator does not know, and every entry it held before with its
      old value. */
  lemma RunCoversScannedKeys(config: Option<seq<string>>, tree: seq<SourceFile>, lang: LangDir, translate: Translator)
    requires Consistent(lang)
    requires Run(config, tree, lang, translate).Generated?
    ensures var r := Run(config, tree, lang, translate).lang;
            forall l, k :: l in Locales(config) && k in ScanKeys(tree) && translate(l, k) == k ==>
              l in r.json && r.json[l].JsonObject? && k in Keys(r.json[l].entries)
  {
    GenerateAllFinishes(lang, Locales(config), ScanKeys(tree), translate);
  }
}

=== FILE: import.dfy ===
/** `translations:import [--force]`: for every configured locale, every entry
    of `lang/<locale>.json` is saved under the group "general", then every
    `.php` file of `lang/<locale>/` is flattened into dotted keys and saved
    under the group named after the file. Each saved leaf is counted. */
module Import {
  import opened Base
  import opened PhpString
  import opened OrderedMap
  import opened LangFiles
  import opened Store

  // ---------------------------------------------------------------- flattening

  /** The dotted key of an element below `prefix`; `None` is the top level. */
  function JoinKey(prefix: Option<string>, key: string): string {
    match prefix
    case None => key
    case Some(p) => p + "." + key
  }

  /** `importArray`: the leaves of a nested array with their dotted keys, in
      order. The top level carries no prefix, so a top-level key is kept as it
      is even when it is "" or "0" (see `FlattenAsWritten`). */
  function Flatten(entries: seq<(string, Nested)>, prefix: Option<string>): (r: seq<(string, Value)>)
    ensures |r| == LeafCount(entries)
    decreases Size(entries)
  {
    if entries == [] then []
    else
      SizeSplit(entries);
      var key := JoinKey(prefix, entries[0].0);
      (match entries[0].1
       case Leaf(v) => [(key, v)]
       case Branch(children) => Flatten(children, Some(key)))
      + Flatten(entries[1..], prefix)
  }

  /** The number of scalar leaves of a nested array. */
  function LeafCount(entries: seq<(string, Nested)>): nat
    decreases Size(entries)
  {
    if entries == [] then 0
    else
      SizeSplit(entries);
      (match entries[0].1
       case Leaf(_) => 1
       case Branch(children) => LeafCount(children))
      + LeafCount(entries[1..])
  }

  /** `importArray` as written: the prefix is tested with PHP truthiness, so
      the prefix "0" (and "") counts as no prefix at all. */
  function FlattenAsWritten(entries: seq<(string, Nested)>, prefix: string): (r: seq<(string, Value)>)
    ensures |r| == LeafCount(entries)
    decreases Size(entries)
  {
    if entries == [] then []
    else
      SizeSplit(entries);
      var key := if IsEmptyString(prefix) then entries[0].0 else prefix + "." + entries[0].0;
      (match entries[0].1
       case Leaf(v) => [(key, v)]
       case Branch(children) => FlattenAsWritten(children, key))
      + FlattenAsWritten(entries[1..], prefix)
  }

  /** Below a prefix that PHP treats as true, the two readings agree. */
  lemma {:induction false} FlattenAgreesBelow(entries: seq<(string, Nested)>, prefix: string)
    requires !IsEmptyString(prefix)
    ensures FlattenAsWritten(entries, prefix) == Flatten(entries, Some(prefix))
    decreases Size(entries)
  {
    if entries != [] {
      SizeSplit(entries);
      var key := prefix + "." + entries[0].0;
      assert !IsEmptyString(key);
      match entries[0].1 {
        case Leaf(_) =>
        case Branch(children) => FlattenAgreesBelow(children, key);
      }
      FlattenAgreesBelow(entries[1..], prefix);
    }
  }

  /** The two readings agree unless a top-level array holding leaves has the
      key "" or "0". */
  lemma {:induction false} FlattenAgrees(entries: seq<(string, Nested)>)
    requires forall i :: 0 <= i < |entries| && entries[i].1.Branch? && LeafCount(entries[i].1.entries) > 0 ==>
               !IsEmptyString(entries[i].0)
    ensures FlattenAsWritten(entries, "") == Flatten(entries, None)
    decreases Size(entries)
  {
    if entries != [] {
      SizeSplit(entries);
      match entries[0].1 {
        case Leaf(_) =>
        case Branch(children) =>
          if LeafCount(children) > 0 {
            FlattenAgreesBelow(children, entries[0].0);
          }
      }
      assert forall i :: 1 <= i < |entries| ==> entries[1..][i - 1] == entries[i];
      FlattenAgrees(entries[1..]);
    }
  }

  /** As written, the file `['0' => ['title' => 'T']]` imports the key
      "title" instead of "0.title". */
  lemma ZeroPrefixLost()
    ensures FlattenAsWritten([("0", Branch([("title", Leaf(Text("T")))]))], "") == [("title", Text("T"))]
    ensures Flatten([("0", Branch([("title", Leaf(Text("T")))]))], None) == [("0.title", Text("T"))]
  {
    var inner: seq<(string, Nested)> := [("title", Leaf(Text("T")))];
    var outer: seq<(string, Nested)> := [("0", Branch(inner))];
    assert outer[1..] == [] && inner[1..] == [];
    assert FlattenAsWritten(inner, "0") == [("title", Text("T"))] + FlattenAsWritten([], "0");
    assert FlattenAsWritten(outer, "") == FlattenAsWritten(inner, "0") + FlattenAsWritten([], "");
    assert JoinKey(Some("0"), "title") == "0.title";
    assert Flatten(inner, Some("0")) == [("0.title", Text("T"))] + Flatten([], Some("0"));
    assert Flatten(outer, None) == Flatten(inner, Some("0")) + Flatten([], None);
  }

  // ---------------------------------------------------------------- the writes of one locale

  /** Saving each flat entry under `group`. */
  function AsWrites(flat: seq<(string, Value)>, group: string, locale: string): (r: seq<Op>)
    ensures |r| == |flat|
    ensures forall i :: 0 <= i < |r| ==> r[i] == Write(RecordId(flat[i].0, group), locale, flat[i].1)
  {
    seq(|flat|, i requires 0 <= i < |flat| => Write(RecordId(flat[i].0, group), locale, flat[i].1))
  }

  /** The `.php` files of a directory listing, in order, each flattened as
      `importArray` does under the group named by the file name without
      extension; other files are skipped. */
  function FileWrites(files: seq<(string, PhpFile)>, locale: string): (r: seq<Op>)
    ensures forall i :: 0 <= i < |r| ==> r[i].Write? && r[i].locale == locale
  {
    if files == [] then []
    else
      var (name, file) := files[0];
      (if Extension(name) == "php" then AsWrites(FlattenAsWritten(file.data, ""), Stem(name), locale) else [])
      + FileWrites(files[1..], locale)
  }

  /** The entries of `lang/<locale>.json`; none when the file is missing. */
  function JsonEntries(lang: LangDir, locale: string): seq<(string, Value)> {
    if locale in lang.json && lang.json[locale].JsonObject? then lang.json[locale].entries else []
  }

  /** The files of `lang/<locale>/`; none when there is no directory. */
  function Dir(lang: LangDir, locale: string): seq<(string, PhpFile)> {
    if locale in lang.dirs then lang.dirs[locale] else []
  }

  /** `File::files` on `lang/<locale>/`. */
  function DirListing(lang: LangDir, locale: string): seq<(string, PhpFile)> {
    Listed(Dir(lang, locale))
  }

  /** The saves made for one locale, JSON file first; `None` when the JSON
      file does not decode, which stops the command before any save of that
      locale. */
  function LocaleWrites(lang: LangDir, locale: string): (r: Option<seq<Op>>)
    ensures r.None? <==> locale in lang.json && lang.json[locale].JsonMalformed?
    ensures r.Some? ==> forall i :: 0 <= i < |r.value| ==> r.value[i].Write? && r.value[i].locale == locale
  {
    var json := if locale in lang.json then lang.json[locale] else JsonObject([]);
    var files := FileWrites(DirListing(lang, locale), locale);
    match json
    case JsonMalformed => None
    case JsonObject(entries) => Some(AsWrites(entries, "general", locale) + files)
  }

  /** `op` saves, for `locale`, a leaf of the `.php` file `f` under the group
      named after the file. */
  predicate SavesLeafOf(f: (string, PhpFile), locale: string, op: Op) {
    && Extension(f.0) == "php"
    && op.Write? && op.locale == locale && op.id.group == Stem(f.0)
    && (op.id.key, op.value) in FlattenAsWritten(f.1.data, "")
  }

  /** The save of the `j`-th leaf of the file `f`. */
  function LeafSave(f: (string, PhpFile), locale: string, j: nat): Op
    requires j < |FlattenAsWritten(f.1.data, "")|
  {
    var leaf := FlattenAsWritten(f.1.data, "")[j];
    Write(RecordId(leaf.0, Stem(f.0)), locale, leaf.1)
  }

  /** `op` saves a leaf of one of the `.php` files of `files`. */
  predicate FromSomeFile(files: seq<(string, PhpFile)>, locale: string, op: Op) {
    exists f :: f in files && SavesLeafOf(f, locale, op)
  }

  /** `op` saves a leaf of one of the `.php` files of `dir` that is not a
      dotfile. */
  predicate FromVisibleFile(dir: seq<(string, PhpFile)>, locale: string, op: Op) {
    exists f :: f in dir && !Hidden(f.0) && SavesLeafOf(f, locale, op)
  }

  /** Each save of a listing saves a leaf of one of its `.php` files. */
  lemma {:induction false} FileWritesFromFiles(files: seq<(string, PhpFile)>, locale: string)
    ensures forall i :: 0 <= i < |FileWrites(files, locale)| ==> FromSomeFile(files, locale, FileWrites(files, locale)[i])
  {
    if files != [] {
      var name := files[0].0;
      var flat := FlattenAsWritten(files[0].1.data, "");
      var head := if Extension(name) == "php" then AsWrites(flat, Stem(name), locale) else [];
      var rest := FileWrites(files[1..], locale);
      FileWritesFromFiles(files[1..], locale);
      var w := FileWrites(files, locale);
      assert w == head + rest;
      forall i | 0 <= i < |w| ensures FromSomeFile(files, locale, w[i]) {
        if i < |head| {
          assert w[i] == head[i] == Write(RecordId(flat[i].0, Stem(name)), locale, flat[i].1);
          assert (flat[i].0, flat[i].1) == flat[i] && flat[i] in flat;
          assert files[0] in files && SavesLeafOf(files[0], locale, w[i]);
        } else {
          assert w[i] == rest[i - |head|];
          assert FromSomeFile(files[1..], locale, rest[i - |head|]);
          var f :| f in files[1..] && SavesLeafOf(f, locale, rest[i - |head|]);
          assert f in files;
        }
      }
    }
  }

  /** Every leaf of every `.php` file of a listing is saved. */
  lemma {:induction false} FileWritesEveryLeaf(files: seq<(string, PhpFile)>, locale: string)
    ensures forall f, j :: f in files && Extension(f.0) == "php" && 0 <= j < |FlattenAsWritten(f.1.data, "")| ==>
              LeafSave(f, locale, j) in FileWrites(files, locale)
  {
    if files != [] {
      var (name, file) := files[0];
      var flat := FlattenAsWritten(file.data, "");
      var head := if Extension(name) == "php" then AsWrites(flat, Stem(name), locale) else [];
      var rest := FileWrites(files[1..], locale);
      FileWritesEveryLeaf(files[1..], locale);
      var w := FileWrites(files, locale);
      assert w == head + rest;
      forall f, j | f in files && Extension(f.0) == "php" && 0 <= j < |FlattenAsWritten(f.1.data, "")|
        ensures LeafSave(f, locale, j) in w
      {
        if f == files[0] {
          assert head[j] == LeafSave(f, locale, j);
        } else {
          assert f in files[1..];
        }
      }
    }
  }

  /** What one locale saves: first each entry of the JSON file, in order,
      under the group "general"; after that only leaves of the `.php` files
      that are not dotfiles, each under the group named after its file, and
      every leaf of every such file. */
  lemma LocaleWritesSaves(lang: LangDir, locale: string)
    requires LocaleWrites(lang, locale).Some?
    ensures var w := LocaleWrites(lang, locale).value;
            var json := JsonEntries(lang, locale);
            && |json| <= |w|
            && (forall i :: 0 <= i < |json| ==> w[i] == Write(RecordId(json[i].0, "general"), locale, json[i].1))
            && (forall i :: |json| <= i < |w| ==> FromVisibleFile(Dir(lang, locale), locale, w[i]))
            && (forall f, j ::
                  (f in Dir(lang, locale) && !Hidden(f.0) && Extension(f.0) == "php" &&
                   0 <= j < |FlattenAsWritten(f.1.data, "")|) ==> LeafSave(f, locale, j) in w)
  {
    var w := LocaleWrites(lang, locale).value;
    var json := JsonEntries(lang, locale);
    var dir := Dir(lang, locale);
    assert w == AsWrites(json, "general", locale) + FileWrites(Listed(dir), locale);
    SavesFromFiles(json, dir, locale, w);
    SavesEveryLeaf(json, dir, locale, w);
  }

  lemma SavesFromFiles(json: seq<(string, Value)>, dir: seq<(string, PhpFile)>, locale: string, w: seq<Op>)
    requires w == AsWrites(json, "general", locale) + FileWrites(Listed(dir), locale)
    ensures forall i :: |json| <= i < |w| ==> FromVisibleFile(dir, locale, w[i])
  {
    var head := AsWrites(json, "general", locale);
    var files := FileWrites(Listed(dir), locale);
    ListedFileWrites(dir, locale);
    AfterHead(head, files, dir, locale);
  }

  lemma ListedFileWrites(dir: seq<(string, PhpFile)>, locale: string)
    ensures forall k :: 0 <= k < |FileWrites(Listed(dir), locale)| ==>
              FromVisibleFile(dir, locale, FileWrites(Listed(dir), locale)[k])
  {
    var files := FileWrites(Listed(dir), locale);
    FileWritesFromFiles(Listed(dir), locale);
    forall k | 0 <= k < |files| ensures FromVisibleFile(dir, locale, files[k]) {
      FromListedFile(dir, locale, files[k]);
    }
  }

  lemma AfterHead(head: seq<Op>, files: seq<Op>, dir: seq<(string, PhpFile)>, locale: string)
    requires forall k :: 0 <= k < |files| ==> FromVisibleFile(dir, locale, files[k])
    ensures forall i :: |head| <= i < |head + files| ==> FromVisibleFile(dir, locale, (head + files)[i])
  {
    forall i | |head| <= i < |head + files| ensures FromVisibleFile(dir, locale, (head + files)[i]) {
      assert (head + files)[i] == files[i - |head|];
    }
  }

  lemma FromListedFile(dir: seq<(string, PhpFile)>, locale: string, op: Op)
    requires FromSomeFile(Listed(dir), locale, op)
    ensures FromVisibleFile(dir, locale, op)
  {
    var f :| f in Listed(dir) && SavesLeafOf(f, locale, op);
    ListedMembers(dir);
    assert f in dir && !Hidden(f.0);
  }

  lemma SavesEveryLeaf(json: seq<(string, Value)>, dir: seq<(string, PhpFile)>, locale: string, w: seq<Op>)
    requires w == AsWrites(json, "general", locale) + FileWrites(Listed(dir), locale)
    ensures forall f, j ::
              (f in dir && !Hidden(f.0) && Extension(f.0) == "php" && 0 <= j < |FlattenAsWritten(f.1.data, "")|) ==>
              LeafSave(f, locale, j) in w
  {
    var head := AsWrites(json, "general", locale);
    var files := FileWrites(Listed(dir), locale);
    FileWritesEveryLeaf(Listed(dir), locale);
    ListedMembers(dir);
    forall f, j | f in dir && !Hidden(f.0) && Extension(f.0) == "php" && 0 <= j < |FlattenAsWritten(f.1.data, "")|
      ensures LeafSave(f, locale, j) in w
    {
      assert f in Listed(dir);
      var k :| 0 <= k < |files| && files[k] == LeafSave(f, locale, j);
      assert w[|head| + k] == files[k];
    }
  }

  // ---------------------------------------------------------------- the command

  /** The outcome: the table and the count per locale, or the table as left
      when a JSON file failed to decode. */
  datatype Outcome = Imported(store: Store, counts: seq<nat>) | Failed(store: Store, locale: string)

  /** All saves of the listed locales, in order, as long as every JSON file
      decodes. */
  function AllWrites(lang: LangDir, locales: seq<string>): (r: Option<seq<Op>>)
    ensures r.Some? <==> forall l :: l in locales ==> LocaleWrites(lang, l).Some?
  {
    if locales == [] then Some([])
    else
      match LocaleWrites(lang, locales[0])
      case None => None
      case Some(w) =>
        match AllWrites(lang, locales[1..])
        case None => None
        case Some(ws) => Some(w + ws)
  }

  function ImportAll(s: Store, lang: LangDir, locales: seq<string>, force: bool): (r: Outcome)
    requires Valid(s)
    ensures Valid(r.store)
    decreases |locales|
  {
    if locales == [] then Imported(s, [])
    else
      match LocaleWrites(lang, locales[0])
      case None => Failed(s, locales[0])
      case Some(w) =>
        match ImportAll(ApplyAll(s, w, force), lang, locales[1..], force)
        case Failed(t, l) => Failed(t, l)
        case Imported(t, counts) => Imported(t, [|w|] + counts)
  }

  /** A run succeeds exactly when every JSON file decodes; it then makes all
      the saves in order, and counts each locale's saves. */
  lemma ImportAllWrites(s: Store, lang: LangDir, locales: seq<string>, force: bool)
    requires Valid(s)
    ensures var r := ImportAll(s, lang, locales, force);
            && (r.Imported? <==> AllWrites(lang, locales).Some?)
            && (r.Imported? ==> r.store == ApplyAll(s, AllWrites(lang, locales).value, force))
            && (r.Imported? ==> |r.counts| == |locales|)
            && (r.Imported? ==> forall i :: 0 <= i < |locales| ==> r.counts[i] == |LocaleWrites(lang, locales[i]).value|)
            && (r.Imported? ==> Sum(r.counts) == |AllWrites(lang, locales).value|)
  {
    ImportAllRuns(s, lang, locales, force);
    if AllWrites(lang, locales).Some? {
      CountsOfLocales(lang, locales);
    }
  }

  /** `ImportAllWrites` with the counts as `Counts`. */
  lemma {:induction false} ImportAllRuns(s: Store, lang: LangDir, locales: seq<string>, force: bool)
    requires Valid(s)
    ensures var r := ImportAll(s, lang, locales, force);
            && (r.Imported? <==> AllWrites(lang, locales).Some?)
            && (r.Imported? ==> r.store == ApplyAll(s, AllWrites(lang, locales).value, force))
            && (r.Imported? ==> r.counts == Counts(lang, locales))
            && (r.Imported? ==> Sum(r.counts) == |AllWrites(lang, locales).value|)
    decreases |locales|
  {
    if locales != [] && LocaleWrites(lang, locales[0]).Some? {
      var w := LocaleWrites(lang, locales[0]).value;
      ImportAllRuns(ApplyAll(s, w, force), lang, locales[1..], force);
      ImportAllStep(s, lang, locales, force, w);
    }
  }

  /** One locale more: the run is the first locale's saves, then the run
      over the rest. */
  lemma ImportAllStep(s: Store, lang: LangDir, locales: seq<string>, force: bool, w: seq<Op>)
    requires Valid(s) && locales != [] && LocaleWrites(lang, locales[0]) == Some(w)
    requires var r := ImportAll(ApplyAll(s, w, force), lang, locales[1..], force);
            && (r.Imported? <==> AllWrites(lang, locales[1..]).Some?)
            && (r.Imported? ==> r.store == ApplyAll(ApplyAll(s, w, force), AllWrites(lang, locales[1..]).value, force))
            && (r.Imported? ==> r.counts == Counts(lang, locales[1..]))
            && (r.Imported? ==> Sum(r.counts) == |AllWrites(lang, locales[1..]).value|)
    ensures var r := ImportAll(s, lang, locales, force);
            && (r.Imported? <==> AllWrites(lang, locales).Some?)
            && (r.Imported? ==> r.store == ApplyAll(s, AllWrites(lang, locales).value, force))
            && (r.Imported? ==> r.counts == Counts(lang, locales))
            && (r.Imported? ==> Sum(r.counts) == |AllWrites(lang, locales).value|)
  {
    var sub := ImportAll(ApplyAll(s, w, force), lang, locales[1..], force);
    assert ImportAll(s, lang, locales, force) ==
      (if sub.Imported? then Imported(sub.store, [|w|] + sub.counts) else sub);
    if sub.Imported? {
      var rest := AllWrites(lang, locales[1..]).value;
      ApplyAllConcat(s, w, rest, force);
      assert AllWrites(lang, locales) == Some(w + rest);
      assert ([|w|] + sub.counts)[1..] == sub.counts;
    }
  }

  /** The number of saves of each locale, up to the first that fails. */
  function Counts(lang: LangDir, locales: seq<string>): seq<nat> {
    if locales == [] then []
    else
      match LocaleWrites(lang, locales[0])
      case None => []
      case Some(w) => [|w|] + Counts(lang, locales[1..])
  }

  /** When every JSON file decodes, there is one count per locale, each its
      number of saves. */
  lemma {:induction false} CountsOfLocales(lang: LangDir, locales: seq<string>)
    requires AllWrites(lang, locales).Some?
    ensures |Counts(lang, locales)| == |locales|
    ensures forall i :: 0 <= i < |locales| ==> Counts(lang, locales)[i] == |LocaleWrites(lang, locales[i]).value|
  {
    if locales != [] {
      CountsOfLocales(lang, locales[1..]);
      assert forall i :: 1 <= i < |locales| ==> locales[i] == locales[1..][i - 1];
    }
  }

  /** The sum of the counts (the total printed at the end). */
  function Sum(xs: seq<nat>): nat {
    if xs == [] then 0 else xs[0] + Sum(xs[1..])
  }

  /** The command over the configured locales. */
  function Run(config: Option<seq<string>>, lang: LangDir, s: Store, force: bool): (r: Outcome)
    requires Valid(s)
    ensures Valid(r.store)
    ensures r.Imported? <==> forall l :: l in Locales(config) ==> !(l in lang.json && lang.json[l].JsonMalformed?)
  {
    ImportAllRuns(s, lang, Locales(config), force);
    ImportAll(s, lang, Locales(config), force)
  }

  // ---------------------------------------------------------------- properties

  /** Importing the same files a second time changes nothing and reports the
      same counts (or fails at the same locale). */
  lemma RunIdempotent(config: Option<seq<string>>, lang: LangDir, s: Store, force: bool)
    requires Valid(s)
    ensures Run(config, lang, Run(config, lang, s, force).store, force) == Run(config, lang, s, force)
  {
    var first := Run(config, lang, s, force);
    ImportAllRuns(s, lang, Locales(config), force);
    ImportAllRuns(first.store, lang, Locales(config), force);
    if first.Imported? {
      ApplyAllIdempotent(s, AllWrites(lang, Locales(config)).value, force);
    } else {
      FailedPrefix(s, lang, Locales(config), force);
      var ws := FailedWrites(lang, Locales(config));
      ApplyAllIdempotent(s, ws, force);
      FailedAfter(first.store, lang, Locales(config), force, s);
    }
  }

  /** The saves made before the first locale whose JSON file does not
      decode. */
  function FailedWrites(lang: LangDir, locales: seq<string>): seq<Op> {
    if locales == [] then []
    else
      match LocaleWrites(lang, locales[0])
      case None => []
      case Some(w) => w + FailedWrites(lang, locales[1..])
  }

  /** A failed run has made exactly the saves before the failing locale. */
  lemma {:induction false} FailedPrefix(s: Store, lang: LangDir, locales: seq<string>, force: bool)
    requires Valid(s)
    requires ImportAll(s, lang, locales, force).Failed?
    ensures ImportAll(s, lang, locales, force).store == ApplyAll(s, FailedWrites(lang, locales), force)
    decreases |locales|
  {
    if LocaleWrites(lang, locales[0]).Some? {
      var w := LocaleWrites(lang, locales[0]).value;
      FailedPrefix(ApplyAll(s, w, force), lang, locales[1..], force);
      ApplyAllConcat(s, w, FailedWrites(lang, locales[1..]), force);
    }
  }

  /** A run that fails does so from any starting table, after the same
      saves. */
  lemma {:induction false} FailedAfter(t: Store, lang: LangDir, locales: seq<string>, force: bool, s: Store)
    requires Valid(t) && Valid(s)
    requires ImportAll(s, lang, locales, force).Failed?
    ensures ImportAll(t, lang, locales, force).Failed?
    ensures ImportAll(t, lang, locales, force).locale == ImportAll(s, lang, locales, force).locale
    ensures ImportAll(t, lang, locales, force).store == ApplyAll(t, FailedWrites(lang, locales), force)
    decreases |locales|
  {
    if LocaleWrites(lang, locales[0]).Some? {
      var w := LocaleWrites(lang, locales[0]).value;
      FailedAfter(ApplyAll(t, w, force), lang, locales[1..], force, ApplyAll(s, w, force));
      ApplyAllConcat(t, w, FailedWrites(lang, locales[1..]), force);
    }
  }

  /** A run in which every JSON file decodes leaves the table after all the
      saves. */
  lemma RunStore(config: Option<seq<string>>, lang: LangDir, s: Store, force: bool)
    requires Valid(s) && AllWrites(lang, Locales(config)).Some?
    ensures Run(config, lang, s, force).store == ApplyAll(s, AllWrites(lang, Locales(config)).value, force)
  {
    ImportAllRuns(s, lang, Locales(config), force);
  }

  /** Without `--force`, no value that is already set changes. */
  lemma RunKeepsSetValues(config: Option<seq<string>>, lang: LangDir, s: Store, id: RecordId, locale: string)
    requires Valid(s) && Settled(Lookup(s, id, locale))
    requires AllWrites(lang, Locales(config)).Some?
    ensures Lookup(Run(config, lang, s, false).store, id, locale) == Lookup(s, id, locale)
  {
    RunStore(config, lang, s, false);
    var ws := AllWrites(lang, Locales(config)).value;
    ApplyAllLookup(s, ws, false, id, locale);
    FoldKeepsSettled(Lookup(s, id, locale), WrittenTo(ws, id, locale));
  }

  /** With `--force`, every value read from the files is stored; where the
      same key is read twice, the later read wins. */
  lemma RunForcedStoresLast(config: Option<seq<string>>, lang: LangDir, s: Store, id: RecordId, locale: string)
    requires Valid(s)
    requires AllWrites(lang, Locales(config)).Some?
    requires WrittenTo(AllWrites(lang, Locales(config)).value, id, locale) != []
    ensures var vs := WrittenTo(AllWrites(lang, Locales(config)).value, id, locale);
            Lookup(Run(config, lang, s, true).store, id, locale) == Some(vs[|vs| - 1])
  {
    RunStore(config, lang, s, true);
    var ws := AllWrites(lang, Locales(config)).value;
    ApplyAllLookup(s, ws, true, id, locale);
    FoldForcedLast(Lookup(s, id, locale), WrittenTo(ws, id, locale));
  }
}

=== FILE: lang_files.dfy ===
/** The `lang/` directory as the three translation commands see it: one JSON
    file per locale (`lang/<locale>.json`) holding the "general" keys, and one
    directory per locale (`lang/<locale>/`) holding PHP array files, one per
    group. A file's contents are kept decoded: the JSON object as an ordered
    array of keys and values, and a PHP file as its text together with the
    array that `require` returns for it. */
module LangFiles {
  import opened Base
  import opened OrderedMap
  import Sorting

  /** What an element of a PHP translation array holds: a scalar, or a nested
      array of (key, element) pairs in order. */
  datatype Nested = Leaf(value: Value) | Branch(entries: seq<(string, Nested)>)

  /** The number of elements of a nested array at every depth, counted from
      the `i`-th element of `n` on. It gives the recursive walks over nested
      arrays their termination measure. */
  function SizeFrom(n: Nested, i: nat): nat
    requires n.Branch? && i <= |n.entries|
    decreases n, |n.entries| - i
  {
    if i == |n.entries| then 0
    else
      1 + (match n.entries[i].1 case Leaf(_) => 0 case Branch(_) => SizeFrom(n.entries[i].1, 0))
      + SizeFrom(n, i + 1)
  }

  /** The number of elements of a nested array at every depth. */
  function Size(entries: seq<(string, Nested)>): nat {
    SizeFrom(Branch(entries), 0)
  }

  lemma {:induction false} SizeFromTail(entries: seq<(string, Nested)>, i: nat)
    requires i < |entries|
    ensures SizeFrom(Branch(entries), i + 1) == SizeFrom(Branch(entries[1..]), i)
    decreases |entries| - i
  {
    if i + 1 < |entries| {
      assert entries[i + 1] == entries[1..][i];
      SizeFromTail(entries, i + 1);
    }
  }

  /** The first element and the rest of a nested array are both smaller than
      the array. */
  lemma SizeSplit(entries: seq<(string, Nested)>)
    requires entries != []
    ensures entries[0].1.Branch? ==> Size(entries[0].1.entries) < Size(entries)
    ensures Size(entries[1..]) < Size(entries)
  {
    SizeFromTail(entries, 0);
  }

  /** A decoded `lang/<locale>.json` file. `JsonMalformed` stands for content
      that `json_decode` rejects with JSON_THROW_ON_ERROR. */
  datatype JsonFile = JsonObject(entries: seq<(string, Value)>) | JsonMalformed

  /** A PHP array file: its text and the array it evaluates to. */
  datatype PhpFile = PhpFile(text: string, data: seq<(string, Nested)>)

  /** The whole `lang/` directory. `json` maps a locale to its JSON file;
      `dirs` maps a locale to the listing of its directory (file name to file,
      in listing order). A locale missing from `dirs` has no directory. */
  datatype LangDir = LangDir(json: map<string, JsonFile>, dirs: map<string, seq<(string, PhpFile)>>)

  /** Decoded JSON objects and directory listings never repeat a key. */
  predicate Consistent(lang: LangDir) {
    && (forall l :: l in lang.json && lang.json[l].JsonObject? ==> WellFormed(lang.json[l].entries))
    && (forall l :: l in lang.dirs ==> WellFormed(lang.dirs[l]))
  }

  /** A dotfile, which Laravel's `File::files` leaves out of a listing. */
  predicate Hidden(name: string) {
    |name| > 0 && name[0] == '.'
  }

  /** The files of a listing that are not dotfiles, in order. */
  function Visible(files: seq<(string, PhpFile)>): seq<(string, PhpFile)> {
    if files == [] then []
    else (if Hidden(files[0].0) then [] else [files[0]]) + Visible(files[1..])
  }

  lemma {:induction false} VisibleMembers(files: seq<(string, PhpFile)>)
    ensures forall f :: f in Visible(files) <==> f in files && !Hidden(f.0)
  {
    if files != [] {
      VisibleMembers(files[1..]);
      assert files == [files[0]] + files[1..];
    }
  }

  /** The sort key of a listed file: its name. */
  function NameKey(f: (string, PhpFile)): seq<string> {
    [f.0]
  }

  /** Puts a file into a listing in name order, in front of the first file
      whose name is not smaller. */
  function InsertByName(f: (string, PhpFile), files: seq<(string, PhpFile)>): seq<(string, PhpFile)> {
    if files == [] then [f]
    else if Sorting.LexLe(NameKey(f), NameKey(files[0])) then [f] + files
    else [files[0]] + InsertByName(f, files[1..])
  }

  /** Sorting by name, by insertion. */
  function SortByName(files: seq<(string, PhpFile)>): seq<(string, PhpFile)> {
    if files == [] then [] else InsertByName(files[0], SortByName(files[1..]))
  }

  /** `File::files($dir)`: the directory's files without the dotfiles, sorted
      by name (see `ListedMembers` and `ListedSorted`). */
  function Listed(files: seq<(string, PhpFile)>): seq<(string, PhpFile)> {
    SortByName(Visible(files))
  }

  lemma {:induction false} InsertByNameIsInsert(f: (string, PhpFile), files: seq<(string, PhpFile)>)
    requires Sorting.SortedBy(files, NameKey)
    ensures InsertByName(f, files) == Sorting.Insert(f, files, NameKey)
  {
    if files != [] && !Sorting.LexLe(NameKey(f), NameKey(files[0])) {
      assert Sorting.SortedBy(files[1..], NameKey) by {
        forall i, j | 0 <= i < j < |files[1..]|
          ensures Sorting.LexLe(NameKey(files[1..][i]), NameKey(files[1..][j]))
        {
          assert files[1..][i] == files[i + 1] && files[1..][j] == files[j + 1];
        }
      }
      InsertByNameIsInsert(f, files[1..]);
    }
  }

  lemma {:induction false} SortByNameIsSort(files: seq<(string, PhpFile)>)
    ensures SortByName(files) == Sorting.Sort(files, NameKey)
  {
    if files != [] {
      SortByNameIsSort(files[1..]);
      InsertByNameIsInsert(files[0], Sorting.Sort(files[1..], NameKey));
    }
  }

  /** A listing holds exactly the directory's files that are not dotfiles. */
  lemma ListedMembers(files: seq<(string, PhpFile)>)
    ensures forall f :: f in Listed(files) <==> f in files && !Hidden(f.0)
  {
    VisibleMembers(files);
    SortByNameIsSort(Visible(files));
    var r := Sorting.Sort(Visible(files), NameKey);
    assert forall f :: f in r <==> f in multiset(Visible(files));
  }

  /** A listing is in name order and lists each visible file as often as the
      directory holds it. */
  lemma ListedSorted(files: seq<(string, PhpFile)>)
    ensures Sorting.SortedBy(Listed(files), NameKey)
    ensures multiset(Listed(files)) == multiset(Visible(files))
  {
    SortByNameIsSort(Visible(files));
  }

  /** Makes `lang/<locale>/` when it is missing. */
  function EnsureDir(lang: LangDir, locale: string): (r: LangDir)
    requires Consistent(lang)
    ensures Consistent(r) && r.json == lang.json
    ensures locale in r.dirs && r.dirs.Keys == lang.dirs.Keys + {locale}
    ensures forall l :: l in lang.dirs ==> r.dirs[l] == lang.dirs[l]
    ensures locale !in lang.dirs ==> r.dirs[locale] == []
  {
    if locale in lang.dirs then lang else lang.(dirs := lang.dirs[locale := []])
  }

  /** `config('translation-manager.available_locales')` reduced to the locale
      codes; `None` when the setting is absent, in which case English alone is
      configured. */
  function Locales(config: Option<seq<string>>): (r: seq<string>)
    ensures config.Some? ==> r == config.value
    ensures config.None? ==> r == ["en"]
  {
    config.GetOr(["en"])
  }
}

=== FILE: locale.dfy ===
/** Choosing the interface language: the `SetLocale` middleware, which picks
    the locale a request runs in, and `LocaleController::switch`, which
    stores the visitor's choice. The two read different settings and
    different session keys, so each takes its own. A session is a map from
    key to the string stored under it; a key holding null counts as absent. */
module Locale {
  import opened Base

  type Session = map<string, string>

  // ----------------------------------------------------------- SetLocale

  /** `config('app.locale', 'en')`. */
  function Fallback(appLocale: Option<string>): string {
    appLocale.GetOr("en")
  }

  /** `collect(config('translation-manager.available_locales'))->pluck('code')`:
      one entry per configured locale, `None` for an entry without a code
      (plucked as null). An absent setting collects to no entries. */
  function AvailableCodes(config: Option<seq<Option<string>>>): seq<Option<string>> {
    config.GetOr([])
  }

  /** Strict `in_array` of a string among the plucked codes: a null entry
      never matches. */
  predicate Offered(locale: string, codes: seq<Option<string>>) {
    Some(locale) in codes
  }

  /** The locale asked for: the session's `language` value, else the
      fallback. */
  function Candidate(session: Session, appLocale: Option<string>): (r: string)
    ensures "language" in session ==> r == session["language"]
    ensures "language" !in session ==> r == Fallback(appLocale)
  {
    if "language" in session then session["language"] else Fallback(appLocale)
  }

  /** The locale `App::setLocale` receives: the candidate when it is offered,
      otherwise the fallback, which is not checked against the list. */
  function ActiveLocale(session: Session, appLocale: Option<string>, config: Option<seq<Option<string>>>): (r: string)
    ensures Offered(Candidate(session, appLocale), AvailableCodes(config)) ==> r == Candidate(session, appLocale)
    ensures !Offered(Candidate(session, appLocale), AvailableCodes(config)) ==> r == Fallback(appLocale)
  {
    var locale := Candidate(session, appLocale);
    if !Offered(locale, AvailableCodes(config)) then Fallback(appLocale) else locale
  }

  /** What a pass through the middleware leaves behind: the application
      locale, the session, and the response of the rest of the pipeline. */
  datatype Handled<R> = Handled(locale: string, session: Session, response: R)

  /** `SetLocale::handle`; `next` is the response `$next($request)` gives. */
  function Handle<R>(session: Session, appLocale: Option<string>, config: Option<seq<Option<string>>>, next: R): (r: Handled<R>)
    ensures r.session == session && r.response == next
    ensures r.locale == ActiveLocale(session, appLocale, config)
  {
    Handled(ActiveLocale(session, appLocale, config), session, next)
  }

  /** The locale chosen is always either one the list offers or the
      fallback, and with no locales configured it is always the fallback. */
  lemma {:induction false} ActiveLocaleChoices(session: Session, appLocale: Option<string>, config: Option<seq<Option<string>>>)
    ensures var r := ActiveLocale(session, appLocale, config);
      Offered(r, AvailableCodes(config)) || r == Fallback(appLocale)
    ensures AvailableCodes(config) == [] ==> ActiveLocale(session, appLocale, config) == Fallback(appLocale)
  {
  }

  /** Without a `language` entry the fallback is used, whatever the list
      offers: it is never checked against it. */
  lemma FallbackUnchecked(session: Session, appLocale: Option<string>, config: Option<seq<Option<string>>>)
    requires "language" !in session
    ensures ActiveLocale(session, appLocale, config) == Fallback(appLocale)
  {
  }

  /** The fallback is used even when the list does not offer it: with no
      setting, a session without a choice runs in English although only
      Ukrainian is offered. */
  lemma FallbackUncheckedExample()
    ensures ActiveLocale(map[], None, Some([Some("uk")])) == "en"
    ensures !Offered("en", AvailableCodes(Some([Some("uk")])))
  {
  }

  /** The middleware reads no session key but `language`: two sessions that
      agree on it run in the same locale. */
  lemma ReadsLanguageOnly(a: Session, b: Session, appLocale: Option<string>, config: Option<seq<Option<string>>>)
    requires ("language" in a <==> "language" in b)
    requires "language" in a ==> a["language"] == b["language"]
    ensures ActiveLocale(a, appLocale, config) == ActiveLocale(b, appLocale, config)
    ensures Handle(a, appLocale, config, 0).locale == Handle(b, appLocale, config, 0).locale
  {
  }

  /** A pass through the middleware changes nothing a second pass reads:
      running it on the session it leaves chooses the same locale again. */
  lemma HandleTwice<R>(session: Session, appLocale: Option<string>, config: Option<seq<Option<string>>>, next: R)
    ensures var h := Handle(session, appLocale, config, next);
      Handle(h.session, appLocale, config, next) == h
  {
  }

  /** Storing the chosen locale as `language` chooses it again: the choice
      is a fixed point of the middleware. */
  lemma {:induction false} ActiveLocaleStable(session: Session, appLocale: Option<string>, config: Option<seq<Option<string>>>)
    ensures var r := ActiveLocale(session, appLocale, config);
      ActiveLocale(session["language" := r], appLocale, config) == r
  {
    var r := ActiveLocale(session, appLocale, config);
    var s' := session["language" := r];
    assert Candidate(s', appLocale) == r;
    if !Offered(r, AvailableCodes(config)) {
      assert r == Fallback(appLocale);
    }
  }

  // ---------------------------------------------------- LocaleController

  /** What `switch` answers: a redirect back with the resulting session, or
      a crash when `config('app.available_locales')` is not set and
      `array_keys` receives null. */
  datatype SwitchOutcome = RedirectBack(session: Session) | Crashed

  /** `LocaleController::switch($locale)`; `available` is the list of keys
      of `config('app.available_locales')`. */
  function Switch(session: Session, available: Option<seq<string>>, locale: string): (r: SwitchOutcome)
    ensures r.Crashed? <==> available.None?
    ensures available.Some? && locale in available.value ==> r == RedirectBack(session["locale" := locale])
    ensures available.Some? && locale !in available.value ==> r == RedirectBack(session)
  {
    if available.None? then Crashed
    else if locale in available.value then RedirectBack(session["locale" := locale])
    else RedirectBack(session)
  }

  /** A run of switches, each on the session the previous one left. */
  function SwitchAll(session: Session, available: seq<string>, locales: seq<string>): Session
    decreases |locales|
  {
    if locales == [] then session
    else SwitchAll(Switch(session, Some(available), locales[0]).session, available, locales[1..])
  }

  /** The last of `locales` that is an available code, if any. */
  function LastValid(available: seq<string>, locales: seq<string>): (r: Option<string>)
    ensures r.Some? ==> r.value in available && r.value in locales
    ensures r.Some? ==> exists i :: 0 <= i < |locales| && locales[i] == r.value
                          && forall j :: i < j < |locales| ==> locales[j] !in available
    ensures r.None? <==> forall i :: 0 <= i < |locales| ==> locales[i] !in available
    decreases |locales|
  {
    if locales == [] then None
    else
      var last := locales[|locales| - 1];
      if last in available then Some(last)
      else
        var init := locales[..|locales| - 1];
        var r := LastValid(available, init);
        assert forall i :: 0 <= i < |init| ==> locales[i] == init[i];
        if r.Some? then
          var i :| 0 <= i < |init| && init[i] == r.value && forall j :: i < j < |init| ==> init[j] !in available;
          assert forall j :: i < j < |locales| ==> locales[j] !in available;
          r
        else r
  }

  lemma {:induction false} SwitchAllSnoc(session: Session, available: seq<string>, locales: seq<string>, last: string)
    ensures SwitchAll(session, available, locales + [last])
      == Switch(SwitchAll(session, available, locales), Some(available), last).session
    decreases |locales|
  {
    if locales == [] {
      assert [last][1..] == [];
    } else {
      assert (locales + [last])[1..] == locales[1..] + [last];
      SwitchAllSnoc(Switch(session, Some(available), locales[0]).session, available, locales[1..], last);
    }
  }

  /** After a run of switches the session holds the last valid code under
      `locale`, and is untouched by a run without one; nothing but `locale`
      ever changes. */
  lemma {:induction false} RepeatedSwitches(session: Session, available: seq<string>, locales: seq<string>)
    ensures var s := SwitchAll(session, available, locales);
      match LastValid(available, locales)
      case Some(code) => s == session["locale" := code]
      case None => s == session
    decreases |locales|
  {
    if locales != [] {
      var init := locales[..|locales| - 1];
      var last := locales[|locales| - 1];
      assert locales == init + [last];
      SwitchAllSnoc(session, available, init, last);
      RepeatedSwitches(session, available, init);
    }
  }

  /** `switch` stores the choice under `locale`, which the middleware never
      reads: after any switch the request still runs in the locale it ran
      in before. */
  lemma SwitchUnseenByMiddleware(session: Session, available: seq<string>, locale: string,
                                 appLocale: Option<string>, config: Option<seq<Option<string>>>)
    ensures ActiveLocale(Switch(session, Some(available), locale).session, appLocale, config)
            == ActiveLocale(session, appLocale, config)
  {
    var s' := Switch(session, Some(available), locale).session;
    ReadsLanguageOnly(s', session, appLocale, config);
  }
}

=== FILE: nested.dfy ===
/** Nested translation arrays read as trees of paths: the value at a path of
    keys, the list of all leaves with their paths, and `buildNestedArray`,
    which turns dotted keys into paths and inserts them one after the other. */
module NestedArray {
  import opened Base
  import opened PhpString
  import opened OrderedMap
  import opened LangFiles

  // ---------------------------------------------------------------- reading by path

  /** The scalar at `path`: every key but the last names a nested array, the
      last one a scalar. */
  function At(entries: seq<(string, Nested)>, path: seq<string>): Option<Value>
    decreases |path|
  {
    if path == [] then None
    else
      var e: Option<Nested> := Get(entries, path[0]);
      match e
      case None => None
      case Some(Leaf(v)) => if |path| == 1 then Some(v) else None
      case Some(Branch(children)) => if |path| == 1 then None else At(children, path[1..])
  }

  /** Every leaf with its path, in array order. */
  function Leaves(entries: seq<(string, Nested)>): (r: seq<(seq<string>, Value)>)
    ensures forall i :: 0 <= i < |r| ==> |r[i].0| >= 1 && r[i].0[0] in Keys(entries)
    decreases Size(entries), 1
  {
    if entries == [] then []
    else
      SizeSplit(entries);
      var here := LeavesHere(entries);
      var rest := Leaves(entries[1..]);
      assert Keys(entries[1..]) == Keys(entries)[1..];
      assert forall i :: 0 <= i < |here| ==> here[i].0[0] == Keys(entries)[0];
      here + rest
  }

  /** The leaves of a nested array, seen from the array that holds it under
      `name`. */
  function Below(name: string, ls: seq<(seq<string>, Value)>): (r: seq<(seq<string>, Value)>)
    ensures |r| == |ls|
    ensures forall i :: 0 <= i < |r| ==> r[i] == ([name] + ls[i].0, ls[i].1)
  {
    seq(|ls|, i requires 0 <= i < |ls| => ([name] + ls[i].0, ls[i].1))
  }

  /** No key is repeated at any depth (every array built by assignment is
      like this). */
  predicate DeepWellFormed(entries: seq<(string, Nested)>)
    decreases Size(entries)
  {
    && WellFormed(entries)
    && (entries != [] ==> (SizeSplit(entries); (entries[0].1.Branch? ==> DeepWellFormed(entries[0].1.entries)) && DeepWellFormed(entries[1..])))
  }

  /** The element stored under a key of a deeply well-formed array is itself
      deeply well-formed. */
  lemma {:induction false} DeepElement(entries: seq<(string, Nested)>, k: string)
    requires DeepWellFormed(entries)
    requires Get(entries, k).Some? && Get(entries, k).value.Branch?
    ensures DeepWellFormed(Get(entries, k).value.entries)
    decreases |entries|
  {
    if entries[0].0 != k {
      assert Keys(entries[1..]) == Keys(entries)[1..];
      GetTail(entries, k);
      DeepElement(entries[1..], k);
    }
  }

  /** Looking up a key other than the first one skips the first entry. */
  lemma GetTail<V>(entries: seq<(string, V)>, k: string)
    requires entries != [] && entries[0].0 != k
    ensures Get(entries, k) == Get(entries[1..], k)
  {
    assert Keys(entries[1..]) == Keys(entries)[1..];
  }

  /** A well-formed array holding the deeply well-formed `entries` except
      that `k` now holds a deeply well-formed element. */
  lemma {:induction false} DeepPut(entries: seq<(string, Nested)>, k: string, n: Nested)
    requires DeepWellFormed(entries)
    requires n.Branch? ==> DeepWellFormed(n.entries)
    ensures DeepWellFormed(Put(entries, k, n))
    decreases |entries|
  {
    if entries == [] {
      DeepCons((k, n), []);
      assert [(k, n)] + [] == Put(entries, k, n);
    } else {
      var rest := entries[1..];
      assert Keys(rest) == Keys(entries)[1..];
      assert entries == [entries[0]] + rest;
      if entries[0].0 == k {
        NoDupTail(Keys(entries));
        DeepCons((k, n), rest);
      } else {
        DeepPut(rest, k, n);
        PutTail(entries, k, n);
        DeepCons(entries[0], Put(rest, k, n));
      }
    }
  }

  /** An entry in front of a deeply well-formed array whose keys it does not
      repeat. */
  lemma DeepCons(e: (string, Nested), rest: seq<(string, Nested)>)
    requires DeepWellFormed(rest)
    requires e.1.Branch? ==> DeepWellFormed(e.1.entries)
    requires e.0 !in Keys(rest)
    ensures DeepWellFormed([e] + rest)
  {
    var r := [e] + rest;
    assert r[1..] == rest;
    assert Keys(r) == [e.0] + Keys(rest);
  }

  /** Assigning a key other than the first one leaves the first entry in
      front. */
  lemma PutTail<V>(entries: seq<(string, V)>, k: string, v: V)
    requires entries != [] && entries[0].0 != k
    ensures Put(entries, k, v) == [entries[0]] + Put(entries[1..], k, v)
  {
    assert Keys(entries[1..]) == Keys(entries)[1..];
    var fi := FirstIndex(Keys(entries), k);
    var ft := FirstIndex(Keys(entries[1..]), k);
    if ft.Some? {
      assert fi == Some(ft.value + 1);
      assert entries[ft.value + 1 := (k, v)] == [entries[0]] + entries[1..][ft.value := (k, v)];
    } else {
      assert fi.None?;
      assert entries + [(k, v)] == [entries[0]] + (entries[1..] + [(k, v)]);
    }
  }

  /** The leaves of a deeply well-formed array are exactly its paths to
      scalars. */
  lemma {:induction false} LeavesAt(entries: seq<(string, Nested)>, p: seq<string>, v: Value)
    requires DeepWellFormed(entries)
    ensures (p, v) in Leaves(entries) <==> At(entries, p) == Some(v)
    decreases Size(entries), 1
  {
    if entries != [] {
      SizeSplit(entries);
      var rest := entries[1..];
      assert Keys(rest) == Keys(entries)[1..];
      if p != [] && p[0] == entries[0].0 {
        LeavesAtFirst(entries, p, v);
      } else {
        if p != [] {
          GetTail(entries, p[0]);
        }
        LeavesAt(rest, p, v);
        assert Leaves(entries) == LeavesHere(entries) + Leaves(rest);
        assert (p, v) !in LeavesHere(entries);
      }
    }
  }

  /** The leaves contributed by the first element of an array. */
  function LeavesHere(entries: seq<(string, Nested)>): (r: seq<(seq<string>, Value)>)
    requires entries != []
    ensures forall i :: 0 <= i < |r| ==> |r[i].0| >= 1 && r[i].0[0] == entries[0].0
    decreases Size(entries), 0
  {
    SizeSplit(entries);
    match entries[0].1
    case Leaf(w) => [([entries[0].0], w)]
    case Branch(children) => Below(entries[0].0, Leaves(children))
  }

  /** `LeavesAt` for a path that starts with the first key. */
  lemma {:induction false} LeavesAtFirst(entries: seq<(string, Nested)>, p: seq<string>, v: Value)
    requires DeepWellFormed(entries) && entries != [] && p != [] && p[0] == entries[0].0
    ensures (p, v) in Leaves(entries) <==> At(entries, p) == Some(v)
    decreases Size(entries), 0
  {
    SizeSplit(entries);
    var name := entries[0].0;
    var rest := entries[1..];
    assert Keys(rest) == Keys(entries)[1..];
    assert Leaves(entries) == LeavesHere(entries) + Leaves(rest);
    assert Get(entries, name) == Some(entries[0].1);
    assert (p, v) !in Leaves(rest) by {
      assert name !in Keys(rest);
    }
    match entries[0].1 {
      case Leaf(w) =>
        assert LeavesHere(entries) == [([name], w)];
        if |p| == 1 {
          assert p == [name];
        }
      case Branch(children) =>
        assert LeavesHere(entries) == Below(name, Leaves(children));
        if |p| > 1 {
          LeavesAt(children, p[1..], v);
          BelowMember(name, Leaves(children), p, v);
        } else {
          assert forall i :: 0 <= i < |Leaves(children)| ==> |Below(name, Leaves(children))[i].0| > 1;
        }
    }
  }

  /** A path below `name` is among the shifted leaves exactly when its tail is
      among the original ones. */
  lemma BelowMember(name: string, ls: seq<(seq<string>, Value)>, p: seq<string>, v: Value)
    requires |p| > 1 && p[0] == name
    ensures (p, v) in Below(name, ls) <==> (p[1..], v) in ls
  {
    assert p == [name] + p[1..];
    if (p[1..], v) in ls {
      var i :| 0 <= i < |ls| && ls[i] == (p[1..], v);
      assert Below(name, ls)[i] == (p, v);
    }
    if (p, v) in Below(name, ls) {
      var i :| 0 <= i < |ls| && Below(name, ls)[i] == (p, v);
      assert ([name] + ls[i].0)[1..] == ls[i].0;
    }
  }

  // ---------------------------------------------------------------- paths

  /** `p` is a prefix of `q` (or equal to it). */
  predicate IsPrefix(p: seq<string>, q: seq<string>) {
    |p| <= |q| && q[..|p|] == p
  }

  /** One path is a prefix of the other: the two cannot both lead to
      scalars. */
  predicate Related(p: seq<string>, q: seq<string>) {
    IsPrefix(p, q) || IsPrefix(q, p)
  }

  // ---------------------------------------------------------------- buildNestedArray

  /** `$current[$part] ??= []` followed by `$current = &$current[$part]`: the
      array below `name`, a fresh one when the entry is missing or null, and
      `None` when the entry is a string, into which PHP cannot descend. */
  function Descend(entries: seq<(string, Nested)>, name: string): (r: Option<seq<(string, Nested)>>)
    ensures r.None? <==> Get(entries, name).Some? && Get(entries, name).value.Leaf? && Get(entries, name).value.value.Text?
  {
    var e: Option<Nested> := Get(entries, name);
    match e
    case None => Some([])
    case Some(Leaf(Null)) => Some([])
    case Some(Leaf(Text(_))) => None
    case Some(Branch(children)) => Some(children)
  }

  /** Stores `v` at `path`, creating the arrays on the way. */
  function InsertPath(entries: seq<(string, Nested)>, path: seq<string>, v: Value): (r: Option<seq<(string, Nested)>>)
    requires |path| >= 1
    decreases |path|
  {
    if |path| == 1 then Some(Put(entries, path[0], Leaf(v)))
    else
      match Descend(entries, path[0])
      case None => None
      case Some(below) =>
        match InsertPath(below, path[1..], v)
        case None => None
        case Some(updated) => Some(Put(entries, path[0], Branch(updated)))
  }

  /** After an insertion `path` holds `v`, the paths related to it hold
      nothing, and every other path is as before. */
  lemma {:induction false} InsertPathAt(entries: seq<(string, Nested)>, path: seq<string>, v: Value, p: seq<string>)
    requires |path| >= 1 && InsertPath(entries, path, v).Some?
    ensures At(InsertPath(entries, path, v).value, p) ==
              (if p == path then Some(v) else if Related(p, path) then None else At(entries, p))
    decreases |path|
  {
    if p != [] && p[0] == path[0] {
      if |path| > 1 && |p| > 1 {
        var below := Descend(entries, path[0]).value;
        InsertPathAt(below, path[1..], v, p[1..]);
        RelatedCons(p, path);
        AtPutBranch(entries, path[0], InsertPath(below, path[1..], v).value, p);
        AtDescend(entries, p);
      } else if |path| > 1 {
        assert IsPrefix(p, path);
      } else {
        assert IsPrefix(path, p);
      }
    } else if p != [] {
      assert !IsPrefix(p, path) && !IsPrefix(path, p);
    }
  }

  /** Two paths with the same first name are related, or equal, exactly
      when the rest of them are. */
  lemma RelatedCons(p: seq<string>, q: seq<string>)
    requires |p| >= 1 && |q| >= 1 && p[0] == q[0]
    ensures Related(p, q) <==> Related(p[1..], q[1..])
    ensures p == q <==> p[1..] == q[1..]
  {
    assert p == [p[0]] + p[1..] && q == [q[0]] + q[1..];
    assert IsPrefix(p, q) <==> IsPrefix(p[1..], q[1..]);
    assert IsPrefix(q, p) <==> IsPrefix(q[1..], p[1..]);
  }

  /** Below a key that now holds an array, paths lead into that array. */
  lemma AtPutBranch(entries: seq<(string, Nested)>, k: string, children: seq<(string, Nested)>, p: seq<string>)
    requires |p| > 1 && p[0] == k
    ensures At(Put(entries, k, Branch(children)), p) == At(children, p[1..])
  {
  }

  /** A path of more than one name leads through the array `Descend` finds. */
  lemma AtDescend(entries: seq<(string, Nested)>, p: seq<string>)
    requires |p| > 1 && Descend(entries, p[0]).Some?
    ensures At(entries, p) == At(Descend(entries, p[0]).value, p[1..])
  {
    if Get(entries, p[0]).None? || Get(entries, p[0]) == Some(Leaf(Null)) {
      assert Descend(entries, p[0]).value == [];
    }
  }

  /** Insertion keeps arrays deeply well-formed. */
  lemma {:induction false} InsertPathWellFormed(entries: seq<(string, Nested)>, path: seq<string>, v: Value)
    requires |path| >= 1 && DeepWellFormed(entries)
    ensures InsertPath(entries, path, v).Some? ==> DeepWellFormed(InsertPath(entries, path, v).value)
    decreases |path|
  {
    if InsertPath(entries, path, v).None? {
    } else if |path| == 1 {
      DeepPut(entries, path[0], Leaf(v));
    } else {
      var below := Descend(entries, path[0]).value;
      if Get(entries, path[0]).Some? && Get(entries, path[0]).value.Branch? {
        DeepElement(entries, path[0]);
      }
      InsertPathWellFormed(below, path[1..], v);
      DeepPut(entries, path[0], Branch(InsertPath(below, path[1..], v).value));
    }
  }

  /** The value found is a string. */
  predicate HoldsString(x: Option<Value>) {
    x.Some? && x.value.Text?
  }

  /** Insertion fails only when a proper prefix of the path holds a string: a
      missing entry or a null one on the way is replaced by a fresh array. */
  lemma {:induction false} InsertPathSucceeds(entries: seq<(string, Nested)>, path: seq<string>, v: Value)
    requires |path| >= 1
    requires forall j :: 1 <= j < |path| ==> !HoldsString(At(entries, path[..j]))
    ensures InsertPath(entries, path, v).Some?
    decreases |path|
  {
    if |path| > 1 {
      assert !HoldsString(At(entries, path[..1]));
      assert path[..1][1..] == [];
      var below := Descend(entries, path[0]).value;
      forall j | 1 <= j < |path| - 1 ensures !HoldsString(At(below, path[1..][..j])) {
        assert path[..j + 1][1..] == path[1..][..j];
        assert path[..j + 1][0] == path[0];
        assert !HoldsString(At(entries, path[..j + 1]));
        if !(Get(entries, path[0]).Some? && Get(entries, path[0]).value.Branch?) {
          assert below == [];
        }
      }
      InsertPathSucceeds(below, path[1..], v);
    }
  }

  /** A string on a proper prefix of the path makes the insertion fail. */
  lemma {:induction false} InsertPathFails(entries: seq<(string, Nested)>, path: seq<string>, v: Value, j: nat)
    requires 1 <= j < |path| && HoldsString(At(entries, path[..j]))
    ensures InsertPath(entries, path, v).None?
    decreases |path|
  {
    assert path[..j][0] == path[0];
    if j > 1 {
      assert path[..j][1..] == path[1..][..j - 1];
      var below := Descend(entries, path[0]).value;
      InsertPathFails(below, path[1..], v, j - 1);
    }
  }

  /** `buildNestedArray`: the dotted keys in order, each split on '.' and
      inserted; `None` when PHP stops on a string in the way. */
  function BuildNested(flat: seq<(string, Value)>): (r: Option<seq<(string, Nested)>>)
    ensures r.Some? ==> DeepWellFormed(r.value)
  {
    if flat == [] then Some([])
    else
      match BuildNested(flat[..|flat| - 1])
      case None => None
      case Some(acc) =>
        var (k, v) := flat[|flat| - 1];
        var r := InsertPath(acc, Explode(k), v);
        InsertPathWellFormed(acc, Explode(k), v);
        r
  }

  /** No key's path is a prefix of another's: no key equals another, and
      none continues another with a dot. */
  predicate PrefixFree(flat: seq<(string, Value)>) {
    forall i, j :: 0 <= i < j < |flat| ==> !Related(Explode(flat[i].0), Explode(flat[j].0))
  }

  /** With prefix-free keys the build succeeds, and the value at each key's
      path is that key's value; no other path holds a value. */
  lemma {:induction false} BuildNestedAt(flat: seq<(string, Value)>)
    requires PrefixFree(flat)
    ensures BuildNested(flat).Some?
    ensures forall j :: 0 <= j < |flat| ==> At(BuildNested(flat).value, Explode(flat[j].0)) == Some(flat[j].1)
    ensures forall p :: At(BuildNested(flat).value, p).Some? ==> exists j :: 0 <= j < |flat| && p == Explode(flat[j].0)
  {
    if flat != [] {
      var n := |flat| - 1;
      var init := flat[..n];
      assert forall j :: 0 <= j < n ==> init[j] == flat[j];
      BuildNestedAt(init);
      var acc := BuildNested(init).value;
      var (k, v) := flat[n];
      NothingAbove(flat, acc);
      InsertPathSucceeds(acc, Explode(k), v);
      var r := InsertPath(acc, Explode(k), v).value;
      assert BuildNested(flat).value == r;
      InsertedValues(flat, acc, r);
      InsertedOnly(flat, acc, r);
    }
  }

  /** No proper prefix of the last key's path holds a value in what the
      earlier keys built. */
  lemma NothingAbove(flat: seq<(string, Value)>, acc: seq<(string, Nested)>)
    requires flat != [] && PrefixFree(flat)
    requires forall p :: At(acc, p).Some? ==> exists j :: 0 <= j < |flat| - 1 && p == Explode(flat[j].0)
    ensures var path := Explode(flat[|flat| - 1].0);
      forall j :: 1 <= j < |path| ==> At(acc, path[..j]).None?
  {
    var n := |flat| - 1;
    var path := Explode(flat[n].0);
    forall j | 1 <= j < |path| ensures At(acc, path[..j]).None? {
      assert IsPrefix(path[..j], path);
      assert forall i :: 0 <= i < n ==> !Related(Explode(flat[i].0), path);
      assert forall i :: 0 <= i < n ==> Explode(flat[i].0) != path[..j];
    }
  }

  /** After inserting the last key every key's path holds its value. */
  lemma InsertedValues(flat: seq<(string, Value)>, acc: seq<(string, Nested)>, r: seq<(string, Nested)>)
    requires flat != [] && PrefixFree(flat)
    requires forall j :: 0 <= j < |flat| - 1 ==> At(acc, Explode(flat[j].0)) == Some(flat[j].1)
    requires InsertPath(acc, Explode(flat[|flat| - 1].0), flat[|flat| - 1].1) == Some(r)
    ensures forall j :: 0 <= j < |flat| ==> At(r, Explode(flat[j].0)) == Some(flat[j].1)
  {
    var n := |flat| - 1;
    var path := Explode(flat[n].0);
    forall j | 0 <= j < |flat| ensures At(r, Explode(flat[j].0)) == Some(flat[j].1) {
      InsertPathAt(acc, path, flat[n].1, Explode(flat[j].0));
      if j < n {
        assert !Related(Explode(flat[j].0), path);
      }
    }
  }

  /** After inserting the last key only the keys' paths hold values. */
  lemma InsertedOnly(flat: seq<(string, Value)>, acc: seq<(string, Nested)>, r: seq<(string, Nested)>)
    requires flat != []
    requires forall p :: At(acc, p).Some? ==> exists j :: 0 <= j < |flat| - 1 && p == Explode(flat[j].0)
    requires InsertPath(acc, Explode(flat[|flat| - 1].0), flat[|flat| - 1].1) == Some(r)
    ensures forall p :: At(r, p).Some? ==> exists j :: 0 <= j < |flat| && p == Explode(flat[j].0)
  {
    var n := |flat| - 1;
    var path := Explode(flat[n].0);
    forall p | At(r, p).Some? ensures exists j :: 0 <= j < |flat| && p == Explode(flat[j].0) {
      InsertPathAt(acc, path, flat[n].1, p);
      if p != path {
        var i :| 0 <= i < n && p == Explode(flat[i].0);
      }
    }
  }

  /** Two keys sharing a path conflict: a key followed by a dotted key below
      it makes PHP stop on the string in the way. */
  lemma StringInTheWay()
    ensures BuildNested([("a", Text("x")), ("a.b", Text("y"))]).None?
  {
    var flat := [("a", Text("x")), ("a.b", Text("y"))];
    assert flat[..1] == [("a", Text("x"))] && flat[..1][..0] == [];
    assert Explode("a") == ["a"];
    assert Explode("a.b") == ["a", "b"] by {
      ExplodeDotted("a", "b");
    }
    assert BuildNested(flat[..1][..0]) == Some([]);
    assert Put([], "a", Leaf(Text("x"))) == [("a", Leaf(Text("x")))];
    assert InsertPath([], ["a"], Text("x")) == Some([("a", Leaf(Text("x")))]);
    assert BuildNested(flat[..1]) == Some([("a", Leaf(Text("x")))]);
    var acc := [("a", Leaf(Text("x")))];
    assert Get(acc, "a") == Some(Leaf(Text("x")));
  }

  // ---------------------------------------------------------------- order of the top-level keys

  /** The first name of each key's path, in order. */
  function Heads(flat: seq<(string, Value)>): (r: seq<string>)
    ensures |r| == |flat|
    ensures forall i :: 0 <= i < |flat| ==> r[i] == Explode(flat[i].0)[0]
  {
    if flat == [] then [] else Heads(flat[..|flat| - 1]) + [Explode(flat[|flat| - 1].0)[0]]
  }

  /** An insertion adds its first name at the end of the keys, unless the
      array already has it. */
  lemma InsertPathKeys(entries: seq<(string, Nested)>, path: seq<string>, v: Value)
    requires |path| >= 1 && InsertPath(entries, path, v).Some?
    ensures Keys(InsertPath(entries, path, v).value) ==
              if path[0] in Keys(entries) then Keys(entries) else Keys(entries) + [path[0]]
  {
  }

  /** An element that is new at the end of a sequence first occurs there. */
  lemma FirstIndexLast<T>(s: seq<T>, x: T)
    requires x !in s
    ensures FirstIndex(s + [x], x) == Some(|s|)
  {
    assert (s + [x])[|s|] == x;
  }

  /** The top-level keys of a built array are the first names of the paths,
      each once, in the order in which they first appear. */
  lemma {:induction false} BuildNestedKeys(flat: seq<(string, Value)>)
    requires BuildNested(flat).Some?
    ensures forall k :: k in Keys(BuildNested(flat).value) <==> k in Heads(flat)
    ensures var ks := Keys(BuildNested(flat).value);
      forall a, b :: 0 <= a < b < |ks| ==> FirstIndex(Heads(flat), ks[a]).value < FirstIndex(Heads(flat), ks[b]).value
  {
    if flat != [] {
      var init := flat[..|flat| - 1];
      var (k, v) := flat[|flat| - 1];
      var acc := BuildNested(init).value;
      BuildNestedKeys(init);
      InsertPathKeys(acc, Explode(k), v);
      var h := Explode(k)[0];
      assert Heads(flat) == Heads(init) + [h];
      forall x | x in Heads(init)
        ensures FirstIndex(Heads(flat), x) == FirstIndex(Heads(init), x)
      {
        FirstIndexAppend(Heads(init), [h], x);
      }
      if h !in Keys(acc) {
        FirstIndexLast(Heads(init), h);
      }
    }
  }
}

=== FILE: ordered_map.dfy ===
/** PHP arrays with string keys, as used throughout the pipeline: an ordered
    list of entries in which no key occurs twice. Assigning `$a[$k] = $v`
    replaces the value in place when `$k` is present and appends otherwise, so
    iteration order is first-insertion order. */
module OrderedMap {
  import opened Base

  /** The keys of `m`, in iteration order. */
  function Keys<K, V>(m: seq<(K, V)>): (r: seq<K>)
    ensures |r| == |m|
    ensures forall i :: 0 <= i < |m| ==> r[i] == m[i].0
  {
    seq(|m|, i requires 0 <= i < |m| => m[i].0)
  }

  /** No key occurs twice. */
  predicate WellFormed<K(==), V>(m: seq<(K, V)>) {
    NoDup(Keys(m))
  }

  /** `$m[$k] ?? null`: the value stored under `k`, if any. */
  function Get<K(==), V>(m: seq<(K, V)>, k: K): (r: Option<V>)
    ensures r.None? <==> k !in Keys(m)
    ensures r.Some? ==> exists i :: 0 <= i < |m| && m[i] == (k, r.value)
  {
    match FirstIndex(Keys(m), k)
    case None => None
    case Some(i) => Some(m[i].1)
  }

  /** In a well-formed array, an entry is found by its key. */
  lemma GetEntry<K, V>(m: seq<(K, V)>, i: nat)
    requires WellFormed(m) && i < |m|
    ensures Get(m, m[i].0) == Some(m[i].1)
  {
    var j := FirstIndex(Keys(m), m[i].0).value;
    assert Keys(m)[j] == Keys(m)[i];
  }

  /** PHP `$m[$k] = $v`. */
  function Put<K(==,!new), V>(m: seq<(K, V)>, k: K, v: V): (r: seq<(K, V)>)
    ensures WellFormed(m) ==> WellFormed(r)
    ensures Get(r, k) == Some(v)
    ensures forall k' :: k' != k ==> Get(r, k') == Get(m, k')
    ensures k in Keys(m) ==> Keys(r) == Keys(m)
    ensures k !in Keys(m) ==> Keys(r) == Keys(m) + [k]
  {
    match FirstIndex(Keys(m), k)
    case Some(i) =>
      var r := m[i := (k, v)];
      assert Keys(r) == Keys(m);
      r
    case None =>
      var r := m + [(k, v)];
      assert Keys(r) == Keys(m) + [k];
      forall k' | k' in Keys(m) {
        FirstIndexAppend(Keys(m), [k], k');
      }
      r
  }

  /** The array read as a finite map from keys to values. */
  function ToMap<K(==,!new), V>(m: seq<(K, V)>): (r: map<K, V>)
    ensures forall k :: k in r <==> k in Keys(m)
    ensures forall k :: k in r ==> Get(m, k) == Some(r[k])
  {
    map k | k in Keys(m) :: Get(m, k).value
  }

  /** An element at two positions occurs at least twice. */
  lemma CountTwo<T>(s: seq<T>, i: nat, j: nat)
    requires i < j < |s| && s[i] == s[j]
    ensures multiset(s)[s[i]] >= 2
  {
    assert s == s[..j] + [s[j]] + s[j + 1..];
    assert s[..j][i] == s[i];
    assert s[i] in multiset(s[..j]);
  }

  /** In a well-formed array every entry occurs at most once. */
  lemma {:induction false} CountOne<K, V>(m: seq<(K, V)>, x: (K, V))
    requires WellFormed(m)
    ensures multiset(m)[x] <= 1
  {
    if m != [] {
      var rest := m[1..];
      assert m == [m[0]] + rest;
      assert Keys(rest) == Keys(m)[1..];
      NoDupTail(Keys(m));
      CountOne(rest, x);
      if m[0] == x {
        assert forall i :: 0 <= i < |rest| ==> rest[i].0 == Keys(rest)[i];
        assert x !in rest;
      }
    }
  }

  /** In a well-formed array `Get` finds exactly the entries. */
  lemma GetIffEntry<K, V>(m: seq<(K, V)>, k: K, v: V)
    requires WellFormed(m)
    ensures Get(m, k) == Some(v) <==> (k, v) in m
  {
    if (k, v) in m {
      var i :| 0 <= i < |m| && m[i] == (k, v);
      GetEntry(m, i);
    }
  }

  /** Reordering the entries of a well-formed array keeps it well-formed and
      keeps every lookup. */
  lemma PermutedMap<K, V>(a: seq<(K, V)>, b: seq<(K, V)>)
    requires WellFormed(a) && multiset(a) == multiset(b)
    ensures WellFormed(b)
    ensures forall k :: Get(b, k) == Get(a, k)
  {
    forall i, j | 0 <= i < j < |b| ensures Keys(b)[i] != Keys(b)[j] {
      if b[i] == b[j] {
        CountTwo(b, i, j);
        CountOne(a, b[i]);
      } else {
        assert b[i] in multiset(a) && b[j] in multiset(a);
        var p :| 0 <= p < |a| && a[p] == b[i];
        var q :| 0 <= q < |a| && a[q] == b[j];
        assert Keys(a)[p] != Keys(a)[q];
      }
    }
    forall k ensures Get(b, k) == Get(a, k) {
      if Get(a, k).Some? {
        GetIffEntry(a, k, Get(a, k).value);
        assert (k, Get(a, k).value) in multiset(b);
        GetIffEntry(b, k, Get(a, k).value);
      } else {
        forall i | 0 <= i < |b| ensures Keys(b)[i] != k {
          assert b[i] in multiset(a);
          var p :| 0 <= p < |a| && a[p] == b[i];
          assert Keys(a)[p] == b[i].0;
        }
      }
    }
  }
}

=== FILE: php_reader.dfy ===
/** Reading a published group file back: a reader for exactly the PHP that
    `arrayToString` writes (array literals of single-quoted strings, with a
    NUL spliced in as a concatenated double-quoted "\0", integer keys,
    `NULL`), standing in for `require` on such a file. Each reader
    takes the remaining text and gives what it read with the text after it. */
module PhpReader {
  import opened Base
  import opened PhpString
  import opened LangFiles
  import opened NestedArray
  import opened Publish

  predicate HasPrefix(s: string, p: string) {
    |p| <= |s| && s[..|p|] == p
  }

  /** The body of a single-quoted literal up to its closing quote, with
      each backslash dropped and the character after it kept; a quote that
      opens `NulSplice` stands for a NUL and the literal goes on after it. */
  function ReadQuoted(s: string): (r: Option<(string, string)>)
    ensures r.Some? ==> |r.value.1| < |s|
  {
    if s == [] then None
    else if s[0] == '\'' then
      if HasPrefix(s, NulSplice) then
        match ReadQuoted(s[|NulSplice|..])
        case None => None
        case Some((t, rest)) => Some((['\0'] + t, rest))
      else Some(("", s[1..]))
    else if s[0] == '\\' then
      if |s| < 2 then None
      else match ReadQuoted(s[2..])
        case None => None
        case Some((t, rest)) => Some(([s[1]] + t, rest))
    else match ReadQuoted(s[1..])
      case None => None
      case Some((t, rest)) => Some(([s[0]] + t, rest))
  }

  /** A quoted literal, opening quote included. */
  function ReadString(s: string): (r: Option<(string, string)>)
    ensures r.Some? ==> |r.value.1| < |s|
  {
    if |s| > 0 && s[0] == '\'' then ReadQuoted(s[1..]) else None
  }

  /** Text after a literal that cannot be mistaken for the rest of a
      `NulSplice`. */
  predicate EndsLiteral(rest: string) {
    !HasPrefix(rest, " . ")
  }

  lemma {:induction false} ReadQuotedExport(t: string, rest: string)
    requires EndsLiteral(rest)
    ensures ReadQuoted(ExportBody(t) + "'" + rest) == Some((t, rest))
  {
    var s := ExportBody(t) + "'" + rest;
    if t == [] {
      assert s == "'" + rest;
      assert s[1..] == rest;
      assert !HasPrefix(s, NulSplice) by {
        assert NulSplice[1..4] == " . ";
        assert |s| >= 4 ==> s[1..4] == rest[..3];
      }
    } else {
      ReadQuotedExport(t[1..], rest);
      var tail := ExportBody(t[1..]) + "'" + rest;
      if t[0] == '\0' {
        NulStep(t, rest);
      } else if t[0] == '\'' || t[0] == '\\' {
        EscapedStep(t, rest);
        assert s[0] == '\\' && s[1] == t[0] && s[2..] == tail;
      } else {
        PlainStep(t, rest);
        assert s[0] == t[0] && s[1..] == tail;
      }
      assert [t[0]] + t[1..] == t;
    }
  }

  lemma NulStep(t: string, rest: string)
    requires t != [] && t[0] == '\0'
    ensures var s := ExportBody(t) + "'" + rest;
      HasPrefix(s, NulSplice) && s[|NulSplice|..] == ExportBody(t[1..]) + "'" + rest
  {
    assert ExportBody(t) + "'" + rest == NulSplice + (ExportBody(t[1..]) + "'" + rest);
    SplitAfter(NulSplice, ExportBody(t[1..]) + "'" + rest);
  }

  lemma EscapedStep(t: string, rest: string)
    requires t != [] && (t[0] == '\'' || t[0] == '\\')
    ensures var s := ExportBody(t) + "'" + rest;
      s[0] == '\\' && s[1] == t[0] && s[2..] == ExportBody(t[1..]) + "'" + rest
  {
    assert ExportBody(t) == ['\\', t[0]] + ExportBody(t[1..]);
  }

  lemma PlainStep(t: string, rest: string)
    requires t != [] && t[0] != '\0' && t[0] != '\'' && t[0] != '\\'
    ensures var s := ExportBody(t) + "'" + rest;
      s[0] == t[0] && s[1..] == ExportBody(t[1..]) + "'" + rest
  {
    assert ExportBody(t) == [t[0]] + ExportBody(t[1..]);
  }

  /** `var_export` of a string reads back as that string, NULs included,
      when the text after it does not go on like a `NulSplice`. */
  lemma {:induction false} ReadStringExport(t: string, rest: string)
    requires EndsLiteral(rest)
    ensures ReadString(ExportString(t) + rest) == Some((t, rest))
  {
    var s := ExportString(t) + rest;
    assert s[1..] == ExportBody(t) + "'" + rest;
    ReadQuotedExport(t, rest);
  }

  /** The first position at or after `i` holding a space. */
  function SpaceFrom(s: string, i: nat): (r: Option<nat>)
    requires i <= |s|
    ensures r.Some? ==> i <= r.value < |s| && s[r.value] == ' '
    ensures forall k :: i <= k < |s| && (r.None? || k < r.value) ==> s[k] != ' '
    decreases |s| - i
  {
    if i == |s| then None else if s[i] == ' ' then Some(i) else SpaceFrom(s, i + 1)
  }

  /** An array key: a quoted string, or an unquoted integer ending at the
      next space, PHP_INT_MIN written as `IntMinText`. */
  function ReadKey(s: string): (r: Option<(string, string)>)
    ensures r.Some? ==> |r.value.1| < |s|
  {
    if |s| > 0 && s[0] == '\'' then ReadString(s)
    else match SpaceFrom(s, 0)
      case None => None
      case Some(i) =>
        if s[..i] == IntMinText then Some((IntMinKey, s[i..]))
        else if IsIntegerKey(s[..i]) then Some((s[..i], s[i..]))
        else None
  }

  /** A key reads back as itself before the arrow, whether it was written
      as a number, as PHP_INT_MIN's expression or as a string. */
  lemma {:induction false} ReadKeyExport(k: string, rest: string)
    requires HasPrefix(rest, " => ")
    ensures ReadKey(ExportKey(k) + rest) == Some((k, rest))
  {
    assert rest[0] == ' ' && rest[1] == '=';
    if k == IntMinKey {
      ReadTokenKey(IntMinText, rest);
    } else if IsIntegerKey(k) {
      assert forall j :: 0 <= j < |k| ==> k[j] != ' ';
      ReadTokenKey(k, rest);
      assert !IsIntegerKey(IntMinText) by {
        assert IntMinText[0] == '-' && IntMinText[1..][19] == '-';
      }
    } else {
      assert EndsLiteral(rest) by {
        assert " . "[1] == '.';
      }
      ReadStringExport(k, rest);
    }
  }

  /** An unquoted token before a space is read up to that space. */
  lemma ReadTokenKey(k: string, rest: string)
    requires |k| > 0 && k[0] != '\'' && (forall j :: 0 <= j < |k| ==> k[j] != ' ')
    requires |rest| > 0 && rest[0] == ' '
    ensures SpaceFrom(k + rest, 0) == Some(|k|)
    ensures (k + rest)[..|k|] == k && (k + rest)[|k|..] == rest
  {
    var s := k + rest;
    assert s[|k|] == ' ';
    assert forall j :: 0 <= j < |k| ==> s[j] == k[j];
    SpaceFromNone(s, 0, |k|);
  }

  lemma {:induction false} SpaceFromNone(s: string, i: nat, n: nat)
    requires i <= n < |s| && s[n] == ' ' && (forall j :: i <= j < n ==> s[j] != ' ')
    ensures SpaceFrom(s, i) == Some(n)
    decreases n - i
  {
    if i < n {
      SpaceFromNone(s, i + 1, n);
    }
  }

  /** The closing bracket of an array at `depth`, on its own line. */
  function Close(depth: nat): string
    requires depth >= 1
  {
    Spaces(4 * (depth - 1)) + "]"
  }

  /** An array literal at `depth`. */
  function ReadArray(s: string, depth: nat): (r: Option<(seq<(string, Nested)>, string)>)
    requires depth >= 1
    ensures r.Some? ==> |r.value.1| < |s|
    decreases |s|, 3
  {
    if HasPrefix(s, "[]") then Some(([], s[2..]))
    else if HasPrefix(s, "[\n") then ReadItems(s[2..], depth)
    else None
  }

  /** An element value at `depth`: `NULL`, a string, or a nested array. */
  function ReadValue(s: string, depth: nat): (r: Option<(Nested, string)>)
    requires depth >= 1
    ensures r.Some? ==> |r.value.1| < |s|
    decreases |s|, 4
  {
    if HasPrefix(s, "NULL") then Some((Leaf(Null), s[4..]))
    else if HasPrefix(s, "'") then
      match ReadString(s)
      case None => None
      case Some((t, rest)) => Some((Leaf(Text(t)), rest))
    else if HasPrefix(s, "[") then
      match ReadArray(s, depth + 1)
      case None => None
      case Some((entries, rest)) => Some((Branch(entries), rest))
    else None
  }

  /** One element line of an array at `depth`: indent, key, " => ", value
      and the closing ",\n". */
  function ReadItem(s: string, depth: nat): (r: Option<((string, Nested), string)>)
    requires depth >= 1
    ensures r.Some? ==> |r.value.1| < |s|
    decreases |s|, 1
  {
    if !HasPrefix(s, Spaces(4 * depth)) then None
    else match ReadKey(s[4 * depth..])
      case None => None
      case Some((key, t1)) =>
        if !HasPrefix(t1, " => ") then None
        else match ReadValue(t1[4..], depth)
          case None => None
          case Some((value, t2)) =>
            if HasPrefix(t2, ",\n") then Some(((key, value), t2[2..])) else None
  }

  /** The element lines of an array at `depth` and its closing bracket. */
  function ReadItems(s: string, depth: nat): (r: Option<(seq<(string, Nested)>, string)>)
    requires depth >= 1
    ensures r.Some? ==> |r.value.1| < |s|
    decreases |s|, 2
  {
    match ReadItem(s, depth)
    case None => None
    case Some((item, t)) =>
      if HasPrefix(t, Close(depth)) then Some(([item], t[|Close(depth)|..]))
      else match ReadItems(t, depth)
        case None => None
        case Some((more, rest)) => Some(([item] + more, rest))
  }

  /** A whole group file. */
  function ReadFile(text: string): (r: Option<seq<(string, Nested)>>)
  {
    var head := "<?php\n\nreturn ";
    if !HasPrefix(text, head) then None
    else match ReadArray(text[|head|..], 1)
      case None => None
      case Some((entries, rest)) => if rest == ";\n" then Some(entries) else None
  }

  // ---------------------------------------------------------------- reading back what was written

  /** Each line followed by ",\n". */
  function Terminated(lines: seq<string>): string {
    if lines == [] then "" else lines[0] + ",\n" + Terminated(lines[1..])
  }

  lemma {:induction false} JoinTerminated(lines: seq<string>)
    requires lines != []
    ensures Join(",\n", lines) + ",\n" == Terminated(lines)
  {
    if |lines| > 1 {
      JoinTerminated(lines[1..]);
    }
  }

  /** The element lines of an array at `depth` all open with its indent. */
  lemma LinesIndented(entries: seq<(string, Nested)>, depth: nat, tail: string)
    requires depth >= 1 && entries != []
    ensures HasPrefix(Terminated(RenderItems(entries, depth)) + tail, Spaces(4 * depth))
  {
    var lines := RenderItems(entries, depth);
    var x := Terminated(lines[1..]) + tail;
    TerminatedCons(lines, tail);
    FirstLine(entries, depth, x);
    SplitAfter(Spaces(4 * depth), ExportKey(entries[0].0) + (" => " + (ValueText(entries[0].1, depth) + (",\n" + x))));
  }

  /** The text of an element value at `depth`, as `arrayToString` writes it. */
  function ValueText(n: Nested, depth: nat): string
    requires depth >= 1
  {
    match n
    case Leaf(v) => ExportValue(v)
    case Branch(children) => Render(children, depth + 1)
  }

  /** The rendered array reads back as the array, whatever follows it. */
  lemma {:induction false} ReadArrayRender(entries: seq<(string, Nested)>, depth: nat, rest: string)
    requires depth >= 1
    ensures ReadArray(Render(entries, depth) + rest, depth) == Some((entries, rest))
    decreases Size(entries), 2
  {
    if entries == [] {
      SplitAfter("[]", rest);
      ReadArrayEmpty(Render(entries, depth) + rest, depth);
    } else {
      var lines := RenderItems(entries, depth);
      JoinTerminated(lines);
      var tail := Close(depth) + rest;
      var body := Terminated(lines) + tail;
      RenderSplit(entries, depth, rest);
      SplitAfter("[\n", body);
      ReadItemsRender(entries, depth, tail, rest);
      ReadArrayItems("[\n" + body, depth);
    }
  }

  lemma RenderSplit(entries: seq<(string, Nested)>, depth: nat, rest: string)
    requires depth >= 1 && entries != []
    ensures Render(entries, depth) + rest == "[\n" + (Terminated(RenderItems(entries, depth)) + (Close(depth) + rest))
  {
    var lines := RenderItems(entries, depth);
    JoinTerminated(lines);
    Regroup("[\n", Join(",\n", lines), ",\n", Spaces(4 * (depth - 1)), "]", rest);
  }

  lemma Regroup(a: string, b: string, c: string, d: string, e: string, f: string)
    ensures a + b + c + d + e + f == a + ((b + c) + ((d + e) + f))
  {
  }

  /** `a` followed by `b` opens with `a`, and `b` is what follows. */
  lemma SplitAfter(a: string, b: string)
    ensures HasPrefix(a + b, a) && (a + b)[|a|..] == b
  {
    assert (a + b)[..|a|] == a;
  }

  lemma ReadArrayEmpty(s: string, depth: nat)
    requires depth >= 1 && HasPrefix(s, "[]")
    ensures ReadArray(s, depth) == Some(([], s[2..]))
  {
  }

  lemma ReadArrayItems(s: string, depth: nat)
    requires depth >= 1 && HasPrefix(s, "[\n")
    ensures ReadArray(s, depth) == ReadItems(s[2..], depth)
  {
    assert s[1] == '\n';
    assert !HasPrefix(s, "[]");
  }

  /** The element lines and closing bracket read back as the elements. */
  lemma {:induction false} ReadItemsRender(entries: seq<(string, Nested)>, depth: nat, tail: string, rest: string)
    requires depth >= 1 && entries != [] && tail == Close(depth) + rest
    ensures ReadItems(Terminated(RenderItems(entries, depth)) + tail, depth) == Some((entries, rest))
    decreases Size(entries), 1
  {
    SizeSplit(entries);
    ReadItemRender(entries, depth, Terminated(RenderItems(entries[1..], depth)) + tail);
    if |entries| == 1 {
      FirstItemOnly(entries, depth, tail, rest);
    } else {
      ReadItemsRender(entries[1..], depth, tail, rest);
      ItemsContinue(entries[1..], depth, tail);
      FirstItemThenMore(entries, depth, tail, rest);
    }
  }

  lemma RenderItemsTail(entries: seq<(string, Nested)>, depth: nat)
    requires depth >= 1 && entries != []
    ensures RenderItems(entries, depth)[1..] == RenderItems(entries[1..], depth)
  {
  }

  lemma FirstItemOnly(entries: seq<(string, Nested)>, depth: nat, tail: string, rest: string)
    requires depth >= 1 && |entries| == 1 && tail == Close(depth) + rest
    requires var x := Terminated(RenderItems(entries[1..], depth)) + tail;
      ReadItem(RenderItems(entries, depth)[0] + ",\n" + x, depth) == Some((entries[0], x))
    ensures ReadItems(Terminated(RenderItems(entries, depth)) + tail, depth) == Some((entries, rest))
  {
    var lines := RenderItems(entries, depth);
    RenderItemsTail(entries, depth);
    ItemsOne(lines, depth, entries[0], tail, rest);
    assert [entries[0]] == entries;
  }

  lemma FirstItemThenMore(entries: seq<(string, Nested)>, depth: nat, tail: string, rest: string)
    requires depth >= 1 && |entries| > 1 && tail == Close(depth) + rest
    requires var x := Terminated(RenderItems(entries[1..], depth)) + tail;
      && ReadItem(RenderItems(entries, depth)[0] + ",\n" + x, depth) == Some((entries[0], x))
      && !HasPrefix(x, Close(depth))
      && ReadItems(x, depth) == Some((entries[1..], rest))
    ensures ReadItems(Terminated(RenderItems(entries, depth)) + tail, depth) == Some((entries, rest))
  {
    var lines := RenderItems(entries, depth);
    RenderItemsTail(entries, depth);
    ItemsCons(lines, depth, entries[0], entries[1..], tail, rest);
    assert [entries[0]] + entries[1..] == entries;
  }

  /** A single element line before the closing bracket. */
  lemma ItemsOne(lines: seq<string>, depth: nat, item: (string, Nested), tail: string, rest: string)
    requires depth >= 1 && |lines| == 1 && tail == Close(depth) + rest
    requires ReadItem(lines[0] + ",\n" + (Terminated(lines[1..]) + tail), depth) == Some((item, Terminated(lines[1..]) + tail))
    ensures ReadItems(Terminated(lines) + tail, depth) == Some(([item], rest))
  {
    TerminatedCons(lines, tail);
    var x := Terminated(lines[1..]) + tail;
    assert lines[1..] == [];
    assert x == tail;
    SplitAfter(Close(depth), rest);
    ReadItemsLast(lines[0] + ",\n" + tail, depth, item, tail);
  }

  /** An element line before further element lines. */
  lemma ItemsCons(lines: seq<string>, depth: nat, item: (string, Nested), more: seq<(string, Nested)>, tail: string, rest: string)
    requires depth >= 1 && |lines| > 1
    requires var x := Terminated(lines[1..]) + tail;
      && ReadItem(lines[0] + ",\n" + x, depth) == Some((item, x))
      && !HasPrefix(x, Close(depth))
      && ReadItems(x, depth) == Some((more, rest))
    ensures ReadItems(Terminated(lines) + tail, depth) == Some(([item] + more, rest))
  {
    var x := Terminated(lines[1..]) + tail;
    TerminatedCons(lines, tail);
    ReadItemsMore(lines[0] + ",\n" + x, depth, item, x, more, rest);
  }

  lemma TerminatedCons(lines: seq<string>, tail: string)
    requires lines != []
    ensures Terminated(lines) + tail == lines[0] + ",\n" + (Terminated(lines[1..]) + tail)
  {
  }

  lemma ItemsContinue(entries: seq<(string, Nested)>, depth: nat, tail: string)
    requires depth >= 1 && entries != []
    ensures !HasPrefix(Terminated(RenderItems(entries, depth)) + tail, Close(depth))
  {
    var x := Terminated(RenderItems(entries, depth)) + tail;
    LinesIndented(entries, depth, tail);
    assert x[4 * (depth - 1)] == ' ';
    assert Close(depth)[4 * (depth - 1)] == ']';
  }

  lemma TerminatedSplit(entries: seq<(string, Nested)>, depth: nat, tail: string)
    requires depth >= 1 && entries != []
    ensures Terminated(RenderItems(entries, depth)) + tail
      == RenderItems(entries, depth)[0] + ",\n" + (Terminated(RenderItems(entries[1..], depth)) + tail)
  {
    var lines := RenderItems(entries, depth);
    assert lines[1..] == RenderItems(entries[1..], depth);
  }

  lemma ReadItemsLast(s: string, depth: nat, item: (string, Nested), t: string)
    requires depth >= 1
    requires ReadItem(s, depth) == Some((item, t)) && HasPrefix(t, Close(depth))
    ensures ReadItems(s, depth) == Some(([item], t[|Close(depth)|..]))
  {
  }

  lemma ReadItemsMore(s: string, depth: nat, item: (string, Nested), t: string, more: seq<(string, Nested)>, rest: string)
    requires depth >= 1
    requires ReadItem(s, depth) == Some((item, t)) && !HasPrefix(t, Close(depth))
    requires ReadItems(t, depth) == Some((more, rest))
    ensures ReadItems(s, depth) == Some(([item] + more, rest))
  {
  }

  /** The first element line reads back as the first element. */
  lemma {:induction false} ReadItemRender(entries: seq<(string, Nested)>, depth: nat, x: string)
    requires depth >= 1 && entries != []
    ensures ReadItem(RenderItems(entries, depth)[0] + ",\n" + x, depth) == Some((entries[0], x))
    decreases Size(entries), 0
  {
    var (key, value) := entries[0];
    var t2 := ",\n" + x;
    var t1 := " => " + (ValueText(value, depth) + t2);
    var s := RenderItems(entries, depth)[0] + ",\n" + x;
    FirstLine(entries, depth, x);
    SplitAfter(Spaces(4 * depth), ExportKey(key) + t1);
    SplitAfter(" => ", ValueText(value, depth) + t2);
    ReadKeyExport(key, t1);
    SplitAfter(",\n", x);
    ReadValueRender(entries, depth, t2);
    ReadItemOf(s, depth, key, t1, value, t2);
  }

  /** The first element line, split into indent, key, arrow and value. */
  lemma FirstLine(entries: seq<(string, Nested)>, depth: nat, x: string)
    requires depth >= 1 && entries != []
    ensures RenderItems(entries, depth)[0] + ",\n" + x
      == Spaces(4 * depth) + (ExportKey(entries[0].0) + (" => " + (ValueText(entries[0].1, depth) + (",\n" + x))))
  {
  }

  lemma ReadItemOf(s: string, depth: nat, key: string, t1: string, value: Nested, t2: string)
    requires depth >= 1
    requires HasPrefix(s, Spaces(4 * depth)) && ReadKey(s[4 * depth..]) == Some((key, t1))
    requires HasPrefix(t1, " => ") && ReadValue(t1[4..], depth) == Some((value, t2))
    requires HasPrefix(t2, ",\n")
    ensures ReadItem(s, depth) == Some(((key, value), t2[2..]))
  {
  }

  /** The first element's value reads back as itself. */
  lemma {:induction false} ReadValueRender(entries: seq<(string, Nested)>, depth: nat, rest: string)
    requires depth >= 1 && entries != [] && HasPrefix(rest, ",\n")
    ensures ReadValue(ValueText(entries[0].1, depth) + rest, depth) == Some((entries[0].1, rest))
    decreases Size(entries), 0, 0
  {
    SizeSplit(entries);
    match entries[0].1
    case Leaf(v) =>
      ReadLeafExport(v, depth, rest);
    case Branch(children) =>
      RenderOpens(children, depth + 1, rest);
      ReadArrayRender(children, depth + 1, rest);
      ReadValueArray(Render(children, depth + 1) + rest, depth);
  }

  lemma RenderOpens(entries: seq<(string, Nested)>, depth: nat, rest: string)
    requires depth >= 1
    ensures |Render(entries, depth) + rest| > 0 && (Render(entries, depth) + rest)[0] == '['
  {
  }

  lemma ReadValueArray(s: string, depth: nat)
    requires depth >= 1 && |s| > 0 && s[0] == '['
    ensures ReadArray(s, depth + 1).Some? ==>
      ReadValue(s, depth) == Some((Branch(ReadArray(s, depth + 1).value.0), ReadArray(s, depth + 1).value.1))
  {
    assert !HasPrefix(s, "NULL") && !HasPrefix(s, "'") && HasPrefix(s, "[");
  }

  /** `var_export` of a scalar reads back as the scalar before the comma
      that ends its line. */
  lemma ReadLeafExport(v: Value, depth: nat, rest: string)
    requires depth >= 1 && HasPrefix(rest, ",\n")
    ensures ReadValue(ExportValue(v) + rest, depth) == Some((Leaf(v), rest))
  {
    match v
    case Null =>
      assert ("NULL" + rest)[..4] == "NULL" && ("NULL" + rest)[4..] == rest;
    case Text(t) =>
      var s := ExportString(t) + rest;
      assert s[0] == '\'';
      assert !HasPrefix(s, "NULL") && HasPrefix(s, "'");
      assert EndsLiteral(rest) by {
        assert rest[0] == ',';
      }
      ReadStringExport(t, rest);
  }

  /** A published group file evaluates to the array it was written from. */
  lemma {:induction false} ReadFileContent(entries: seq<(string, Nested)>)
    ensures ReadFile(FileContent(entries)) == Some(entries)
  {
    var head := "<?php\n\nreturn ";
    var text := FileContent(entries);
    assert text == head + (Render(entries, 1) + ";\n");
    assert text[|head|..] == Render(entries, 1) + ";\n";
    ReadArrayRender(entries, 1, ";\n");
  }

  /** So no two arrays are published as the same text. */
  lemma {:induction false} FileContentInjective(a: seq<(string, Nested)>, b: seq<(string, Nested)>)
    requires FileContent(a) == FileContent(b)
    ensures a == b
  {
    ReadFileContent(a);
    ReadFileContent(b);
  }

  /** What `publishPhp` writes for a group is read back, by `require`, as
      the nested array built from the group's values. */
  lemma {:induction false} GroupFileReads(items: seq<(string, Value)>)
    requires GroupFile(items).Some?
    ensures ReadFile(GroupFile(items).value.text) == Some(BuildNested(items).value)
  {
    ReadFileContent(BuildNested(items).value);
  }
}

=== FILE: php_string.dfy ===
/** The PHP string functions the translation pipeline relies on, written out:
    `trim`, `stripslashes`, PHP's `empty()` on strings, `explode`/`implode` on
    '.', `str_ends_with`, `str_repeat` of the indent, and the two halves of
    `pathinfo` (extension and file name without extension). Strings are
    sequences of characters; PHP works on bytes, which only matters for
    multi-byte characters and is not modelled. */
module PhpString {
  import opened Base

  // ---------------------------------------------------------------- trim

  /** The characters PHP's `trim` removes by default. */
  predicate IsTrimChar(c: char) {
    c == ' ' || c == '\t' || c == '\n' || c == '\r' || c == '\0' || c == '\U{000B}'
  }

  /** How many trim characters open `s`. */
  function LeadingTrim(s: string): (n: nat)
    ensures n <= |s|
    ensures forall k :: 0 <= k < n ==> IsTrimChar(s[k])
    ensures n < |s| ==> !IsTrimChar(s[n])
  {
    if |s| > 0 && IsTrimChar(s[0]) then
      var m := LeadingTrim(s[1..]);
      assert forall k :: 1 <= k < 1 + m ==> s[k] == s[1..][k - 1];
      1 + m
    else 0
  }

  /** How many trim characters close `s`. */
  function TrailingTrim(s: string): (n: nat)
    ensures n <= |s|
    ensures forall k :: |s| - n <= k < |s| ==> IsTrimChar(s[k])
    ensures n < |s| ==> !IsTrimChar(s[|s| - n - 1])
  {
    if |s| > 0 && IsTrimChar(s[|s| - 1]) then
      var m := TrailingTrim(s[..|s| - 1]);
      assert forall k :: |s| - 1 - m <= k < |s| - 1 ==> s[k] == s[..|s| - 1][k];
      1 + m
    else 0
  }

  /** PHP `trim($s)`: `s` without its opening and closing trim characters. The
      result is the slice of `s` starting at `LeadingTrim(s)`; everything outside
      it is a trim character and it neither starts nor ends with one. */
  function Trim(s: string): (r: string)
    ensures |r| <= |s|
    ensures LeadingTrim(s) + |r| <= |s| && r == s[LeadingTrim(s)..LeadingTrim(s) + |r|]
    ensures forall k :: 0 <= k < LeadingTrim(s) ==> IsTrimChar(s[k])
    ensures forall k :: LeadingTrim(s) + |r| <= k < |s| ==> IsTrimChar(s[k])
    ensures r != [] ==> !IsTrimChar(r[0]) && !IsTrimChar(r[|r| - 1])
    ensures r == [] <==> forall k :: 0 <= k < |s| ==> IsTrimChar(s[k])
  {
    var i := LeadingTrim(s);
    var t := s[i..];
    var n := TrailingTrim(t);
    assert forall k :: i <= k < |s| ==> s[k] == t[k - i];
    t[..|t| - n]
  }

  /** Trimming twice is trimming once. */
  lemma TrimIdempotent(s: string)
    ensures Trim(Trim(s)) == Trim(s)
  {
    var r := Trim(s);
    if r != [] {
      assert LeadingTrim(r) == 0;
      assert TrailingTrim(r) == 0;
    }
  }

  /** Trim characters added around a trimmed text are trimmed away again. */
  lemma TrimPadding(a: string, s: string, b: string)
    requires Trim(s) == s
    requires forall k :: 0 <= k < |a| ==> IsTrimChar(a[k])
    requires forall k :: 0 <= k < |b| ==> IsTrimChar(b[k])
    ensures Trim(a + s + b) == s
  {
    if s == [] {
      TrimOfPadding(a, b);
    } else {
      assert !IsTrimChar(s[0]) && !IsTrimChar(s[|s| - 1]);
      TrimAroundCore(a, s, b);
    }
  }

  lemma TrimOfPadding(a: string, b: string)
    requires forall k :: 0 <= k < |a| ==> IsTrimChar(a[k])
    requires forall k :: 0 <= k < |b| ==> IsTrimChar(b[k])
    ensures Trim(a + [] + b) == []
  {
    var x := a + [] + b;
    forall k | 0 <= k < |x| ensures IsTrimChar(x[k]) {
      if k < |a| {
        assert x[k] == a[k];
      } else {
        assert x[k] == b[k - |a|];
      }
    }
  }

  lemma TrimAroundCore(a: string, s: string, b: string)
    requires s != [] && !IsTrimChar(s[0]) && !IsTrimChar(s[|s| - 1])
    requires forall k :: 0 <= k < |a| ==> IsTrimChar(a[k])
    requires forall k :: 0 <= k < |b| ==> IsTrimChar(b[k])
    ensures Trim(a + s + b) == s
  {
    var x := a + s + b;
    var t := s + b;
    assert x == a + t;
    assert forall k :: 0 <= k < |a| ==> x[k] == a[k];
    assert x[|a|] == s[0];
    LeadingTrimIs(x, |a|);
    assert x[|a|..] == t;
    assert forall k :: |s| <= k < |t| ==> t[k] == b[k - |s|];
    assert t[|s| - 1] == s[|s| - 1];
    TrailingTrimIs(t, |b|);
    assert t[..|s|] == s;
  }

  /** `n` trim characters and then another one open `x`. */
  lemma LeadingTrimIs(x: string, n: nat)
    requires n < |x| && !IsTrimChar(x[n]) && forall k :: 0 <= k < n ==> IsTrimChar(x[k])
    ensures LeadingTrim(x) == n
  {
  }

  /** Another character and then `n` trim characters close `x`. */
  lemma TrailingTrimIs(x: string, n: nat)
    requires n < |x| && !IsTrimChar(x[|x| - n - 1]) && forall k :: |x| - n <= k < |x| ==> IsTrimChar(x[k])
    ensures TrailingTrim(x) == n
  {
  }

  // ---------------------------------------------------------------- stripslashes

  /** PHP `stripslashes`: a backslash is dropped and the character after it kept,
      except that backslash-zero becomes the NUL character; a lone backslash at
      the very end disappears. */
  function StripSlashes(s: string): (r: string)
    ensures |r| <= |s|
    ensures '\\' !in s ==> r == s
  {
    if |s| == 0 then ""
    else if s[0] != '\\' then [s[0]] + StripSlashes(s[1..])
    else if |s| == 1 then ""
    else if s[1] == '0' then ['\0'] + StripSlashes(s[2..])
    else [s[1]] + StripSlashes(s[2..])
  }

  /** How a key is written inside a PHP literal delimited by `quote`: a
      backslash goes before every `quote` and every backslash. */
  function Escape(key: string, quote: char): (r: string)
    ensures |r| >= |key|
  {
    if key == [] then ""
    else if key[0] == quote || key[0] == '\\' then ['\\', key[0]] + Escape(key[1..], quote)
    else [key[0]] + Escape(key[1..], quote)
  }

  /** `stripslashes` undoes the escaping of a literal, whatever the key holds. */
  lemma {:induction false} StripSlashesEscape(key: string, quote: char)
    requires quote != '0'
    ensures StripSlashes(Escape(key, quote)) == key
  {
    if key != [] {
      StripSlashesEscape(key[1..], quote);
      var e := Escape(key, quote);
      if key[0] == quote || key[0] == '\\' {
        assert e[2..] == Escape(key[1..], quote);
      } else {
        assert e[1..] == Escape(key[1..], quote);
      }
    }
  }

  // ---------------------------------------------------------------- empty()

  /** PHP `empty($s)` for a string: only "" and "0" are empty. */
  predicate IsEmptyString(s: string) {
    s == "" || s == "0"
  }

  // ---------------------------------------------------------------- explode / implode on '.'

  /** PHP `explode('.', $s)`: the pieces between dots, at least one. */
  function Explode(s: string): (r: seq<string>)
    ensures |r| >= 1
    ensures forall i :: 0 <= i < |r| ==> '.' !in r[i]
    ensures '.' !in s ==> r == [s]
  {
    if |s| == 0 then [""]
    else if s[0] == '.' then [""] + Explode(s[1..])
    else
      var t := Explode(s[1..]);
      assert '.' !in s ==> t == [s[1..]] && s == [s[0]] + s[1..];
      [[s[0]] + t[0]] + t[1..]
  }

  /** PHP `implode($sep, $items)`. */
  function Join(sep: string, items: seq<string>): string {
    if |items| == 0 then ""
    else if |items| == 1 then items[0]
    else items[0] + sep + Join(sep, items[1..])
  }

  /** Joining the pieces of `explode` with dots gives the string back. */
  lemma {:induction false} JoinExplode(s: string)
    ensures Join(".", Explode(s)) == s
  {
    if |s| == 0 {
    } else if s[0] == '.' {
      JoinExplode(s[1..]);
      assert s == "." + s[1..];
    } else {
      JoinExplode(s[1..]);
      var t := Explode(s[1..]);
      if |t| == 1 {
        assert Join(".", t) == t[0];
      } else {
        assert Join(".", t) == t[0] + "." + Join(".", t[1..]);
        assert s == [s[0]] + s[1..];
      }
    }
  }

  /** Exploding a dot-free string followed by a dot and a rest. */
  lemma {:induction false} ExplodeDotted(a: string, b: string)
    requires '.' !in a
    ensures Explode(a + "." + b) == [a] + Explode(b)
  {
    if a == [] {
      assert a + "." + b == "." + b;
      assert ("." + b)[1..] == b;
    } else {
      ExplodeDotted(a[1..], b);
      assert (a + "." + b)[1..] == a[1..] + "." + b;
      assert [a[0]] + a[1..] == a;
    }
  }

  /** Exploding dot-free pieces joined with dots gives the pieces back. */
  lemma {:induction false} ExplodeJoin(p: seq<string>)
    requires |p| >= 1
    requires forall i :: 0 <= i < |p| ==> '.' !in p[i]
    ensures Explode(Join(".", p)) == p
  {
    if |p| > 1 {
      ExplodeJoin(p[1..]);
      ExplodeDotted(p[0], Join(".", p[1..]));
    }
  }

  // ---------------------------------------------------------------- ordering

  /** Code-point lexicographic order on strings (how `ksort` and `ORDER BY` are
      modelled). */
  predicate StrLe(a: string, b: string) {
    |a| == 0 || (|b| > 0 && (a[0] < b[0] || (a[0] == b[0] && StrLe(a[1..], b[1..]))))
  }

  lemma {:induction false} StrLeReflexive(a: string)
    ensures StrLe(a, a)
  {
    if |a| > 0 {
      StrLeReflexive(a[1..]);
    }
  }

  lemma {:induction false} StrLeTotal(a: string, b: string)
    ensures StrLe(a, b) || StrLe(b, a)
  {
    if |a| > 0 && |b| > 0 && a[0] == b[0] {
      StrLeTotal(a[1..], b[1..]);
    }
  }

  lemma {:induction false} StrLeTransitive(a: string, b: string, c: string)
    requires StrLe(a, b) && StrLe(b, c)
    ensures StrLe(a, c)
  {
    if |a| > 0 && a[0] == b[0] && b[0] == c[0] {
      StrLeTransitive(a[1..], b[1..], c[1..]);
    }
  }

  lemma {:induction false} StrLeAntisymmetric(a: string, b: string)
    requires StrLe(a, b) && StrLe(b, a)
    ensures a == b
  {
    if |a| > 0 {
      StrLeAntisymmetric(a[1..], b[1..]);
      assert a == [a[0]] + a[1..] && b == [b[0]] + b[1..];
    }
  }

  // ---------------------------------------------------------------- file names

  /** PHP `str_ends_with($s, $suffix)`. */
  predicate EndsWith(s: string, suffix: string) {
    |suffix| <= |s| && s[|s| - |suffix|..] == suffix
  }

  /** Position of the last `c` in `s`, if any. */
  function LastIndexOf(s: string, c: char): (r: Option<nat>)
    ensures r.Some? ==> r.value < |s| && s[r.value] == c
    ensures r.Some? ==> forall k :: r.value < k < |s| ==> s[k] != c
    ensures r.None? <==> c !in s
  {
    if |s| == 0 then None
    else if s[|s| - 1] == c then Some(|s| - 1)
    else
      var r := LastIndexOf(s[..|s| - 1], c);
      assert forall k :: 0 <= k < |s| - 1 ==> s[k] == s[..|s| - 1][k];
      assert s == s[..|s| - 1] + [s[|s| - 1]];
      r
  }

  /** `pathinfo($name, PATHINFO_EXTENSION)`: what follows the last dot, or "". */
  function Extension(name: string): (r: string)
    ensures '.' !in r
  {
    match LastIndexOf(name, '.')
    case None => ""
    case Some(d) => name[d + 1..]
  }

  /** `pathinfo($name, PATHINFO_FILENAME)`: what precedes the last dot, or the
      whole name when it has none. */
  function Stem(name: string): string {
    match LastIndexOf(name, '.')
    case None => name
    case Some(d) => name[..d]
  }

  /** A name with a dot is its stem, a dot, and its extension. */
  lemma StemExtension(name: string)
    requires '.' in name
    ensures name == Stem(name) + "." + Extension(name)
  {
    var d := LastIndexOf(name, '.').value;
    assert name == name[..d] + "." + name[d + 1..];
  }

  /** Any name ending in ".blade.php" already has the extension "php". */
  lemma BladeNameHasPhpExtension(name: string)
    requires EndsWith(name, ".blade.php")
    ensures Extension(name) == "php"
  {
    var n := |name|;
    assert name[n - 4] == '.';
    var d := LastIndexOf(name, '.').value;
    assert d >= n - 4;
    assert name[n - 3..] == "php";
  }

  // ---------------------------------------------------------------- indentation

  /** PHP `str_repeat(' ', $n)`. */
  function Spaces(n: nat): (r: string)
    ensures |r| == n
    ensures forall k :: 0 <= k < n ==> r[k] == ' '
  {
    if n == 0 then "" else " " + Spaces(n - 1)
  }
}

=== FILE: policies.dfy ===
/** Who may do what to user accounts and roles: `UserPolicy` and
    `RolePolicy`. An account carries its id, the names of its roles and the
    permissions it holds, directly or through a role. The policies' permissions
    are kept abstract; the Gate's before-check, which looks a permission up by
    name, sees the names of the held permissions as a separate set. */
module Policies {
  import opened Base
  import Roles

  /** The permissions the policies ask about. */
  datatype Permission =
    | ViewUsers | CreateUsers | EditUsers | AssignRoles | DeleteUsers
    | ViewManagers | CreateManagers | EditManagers | DeleteManagers
    | ViewRoles | CreateRoles | EditRoles | DeleteRoles

  /** A user account. `granted` holds the names of the permissions it holds;
      which name each `Permission` carries is not part of the model.
      `verifiedAt` is `email_verified_at`, a timestamp or null. */
  datatype Account = Account(
    id: int,
    roles: seq<string>,
    permissions: set<Permission>,
    granted: set<string>,
    email: string,
    verifiedAt: Option<int>,
    password: string)

  /** `$user->can(<permission>)`. */
  predicate Can(user: Account, p: Permission) {
    p in user.permissions
  }

  /** `hasRole(UserRoleEnum::ADMINISTRATOR)`. */
  predicate IsAdministrator(user: Account) {
    Roles.Role.Administrator.Value() in user.roles
  }

  // ---------------------------------------------------------- UserPolicy

  /** The abilities `UserPolicy` defines. */
  datatype Ability =
    | ViewAny | View | Create | Update | AssignRolesTo | Delete
    | ViewManagersAbility | CreateManagersAbility | UpdateManagers | DeleteManagersAbility

  /** The one permission each ability asks for once its guards pass. */
  function Required(a: Ability): Permission {
    match a
    case ViewAny => ViewUsers
    case View => ViewUsers
    case Create => CreateUsers
    case Update => EditUsers
    case AssignRolesTo => AssignRoles
    case Delete => DeleteUsers
    case ViewManagersAbility => ViewManagers
    case CreateManagersAbility => CreateManagers
    case UpdateManagers => EditManagers
    case DeleteManagersAbility => DeleteManagers
  }

  function AssignRolesCheck(user: Account, model: Option<Account>): (r: bool)
    ensures model.None? ==> (r <==> Can(user, AssignRoles))
    ensures model.Some? && IsAdministrator(model.value) ==> !r
    ensures model.Some? && model.value.id == user.id ==> !r
    ensures model.Some? && !IsAdministrator(model.value) && model.value.id != user.id ==> (r <==> Can(user, AssignRoles))
  {
    if model.None? then Can(user, AssignRoles)
    else if IsAdministrator(model.value) then false
    else if user.id == model.value.id then false
    else Can(user, AssignRoles)
  }

  function DeleteCheck(user: Account, model: Account): (r: bool)
    ensures user.id == model.id ==> !r
    ensures user.id != model.id ==> (r <==> Can(user, DeleteUsers))
  {
    if user.id == model.id then false else Can(user, DeleteUsers)
  }

  function DeleteManagersCheck(user: Account, manager: Account): (r: bool)
    ensures user.id == manager.id ==> !r
    ensures user.id != manager.id ==> (r <==> Can(user, DeleteManagers))
  {
    if user.id == manager.id then false else Can(user, DeleteManagers)
  }

  /** `UserPolicy::<ability>($user, $model)`; `model` is the target account,
      absent for the abilities that take none (and for `assignRoles` called
      without one). */
  function UserAllows(a: Ability, user: Account, model: Option<Account>): (r: bool)
    requires a in {View, Update, Delete, UpdateManagers, DeleteManagersAbility} ==> model.Some?
    ensures r ==> Can(user, Required(a))
  {
    match a
    case ViewAny => Can(user, ViewUsers)
    case View => Can(user, ViewUsers)
    case Create => Can(user, CreateUsers)
    case Update => Can(user, EditUsers)
    case AssignRolesTo => AssignRolesCheck(user, model)
    case Delete => DeleteCheck(user, model.value)
    case ViewManagersAbility => Can(user, ViewManagers)
    case CreateManagersAbility => Can(user, CreateManagers)
    case UpdateManagers => Can(user, EditManagers)
    case DeleteManagersAbility => DeleteManagersCheck(user, model.value)
  }

  /** Every ability but the three guarded ones is exactly its permission,
      whoever the target is. */
  lemma {:induction false} SinglePermissionChecks(a: Ability, user: Account, model: Option<Account>)
    requires a !in {AssignRolesTo, Delete, DeleteManagersAbility}
    requires a in {View, Update, UpdateManagers} ==> model.Some?
    ensures UserAllows(a, user, model) <==> Can(user, Required(a))
  {
  }

  /** The guarded abilities: nobody deletes their own account, and nobody
      changes the roles of an administrator or their own. */
  lemma {:induction false} GuardedChecks(user: Account, model: Account)
    ensures !UserAllows(Delete, user, Some(user))
    ensures !UserAllows(DeleteManagersAbility, user, Some(user))
    ensures !UserAllows(AssignRolesTo, user, Some(user))
    ensures IsAdministrator(model) ==> !UserAllows(AssignRolesTo, user, Some(model))
    ensures UserAllows(AssignRolesTo, user, None) <==> Can(user, AssignRoles)
    ensures model.id != user.id ==>
      (UserAllows(Delete, user, Some(model)) <==> Can(user, DeleteUsers))
      && (UserAllows(DeleteManagersAbility, user, Some(model)) <==> Can(user, DeleteManagers))
      && (UserAllows(AssignRolesTo, user, Some(model)) <==> !IsAdministrator(model) && Can(user, AssignRoles))
  {
  }

  /** Granting more permissions never takes an ability away. */
  lemma {:induction false} MorePermissionsAllowMore(a: Ability, user: Account, extra: set<Permission>, model: Option<Account>)
    requires a in {View, Update, Delete, UpdateManagers, DeleteManagersAbility} ==> model.Some?
    ensures UserAllows(a, user, model) ==> UserAllows(a, user.(permissions := user.permissions + extra), model)
  {
  }

  // ---------------------------------------------------------------- Gate

  /** The name a resource passes to `can(…)` for each ability: `assign-roles`
      from the user resource, the policy's method names from the managers
      resource, and Laravel's resource ability names for the others. */
  function AbilityName(a: Ability): string {
    match a
    case ViewAny => "viewAny"
    case View => "view"
    case Create => "create"
    case Update => "update"
    case AssignRolesTo => "assign-roles"
    case Delete => "delete"
    case ViewManagersAbility => "viewManagers"
    case CreateManagersAbility => "createManagers"
    case UpdateManagers => "updateManagers"
    case DeleteManagersAbility => "deleteManagers"
  }

  /** `$user->can(<ability>, $model)` through Laravel's Gate. The permission
      library gives the Gate a before-check: a user holding a permission
      named like the ability is allowed without the policy being asked;
      otherwise `UserPolicy` decides. */
  predicate GateAllows(a: Ability, user: Account, model: Option<Account>)
    requires a in {View, Update, Delete, UpdateManagers, DeleteManagersAbility} ==> model.Some?
  {
    AbilityName(a) in user.granted || UserAllows(a, user, model)
  }

  /** Through the Gate the policy's guards hold only for a user holding no
      permission named like the ability: such a permission allows the
      ability on every target, one's own account and an administrator's
      included, and without it the policy alone decides. */
  lemma GateGuards(a: Ability, user: Account, model: Account)
    ensures AbilityName(a) in user.granted ==> GateAllows(a, user, Some(model))
    ensures AbilityName(a) !in user.granted ==> (GateAllows(a, user, Some(model)) <==> UserAllows(a, user, Some(model)))
    ensures GateAllows(a, user, Some(model)) ==> AbilityName(a) in user.granted || Can(user, Required(a))
    ensures GateAllows(AssignRolesTo, user, Some(user)) <==> "assign-roles" in user.granted
    ensures IsAdministrator(model) ==> (GateAllows(AssignRolesTo, user, Some(model)) <==> "assign-roles" in user.granted)
    ensures GateAllows(Delete, user, Some(user)) <==> "delete" in user.granted
    ensures GateAllows(DeleteManagersAbility, user, Some(user)) <==> "deleteManagers" in user.granted
  {
  }

  // ---------------------------------------------------------- RolePolicy

  /** One of the built-in roles, which nobody may edit or delete. */
  predicate IsSystemRole(name: string) {
    name in Roles.Values()
  }

  /** The abilities `RolePolicy` defines. */
  datatype RoleAbility = ViewAnyRoles | ViewRole | CreateRole | UpdateRole | DeleteRole

  /** `RolePolicy::<ability>($user, $role)`; `roleName` is the target role's
      name, ignored by the abilities that do not look at it. */
  function RoleAllows(a: RoleAbility, user: Account, roleName: string): (r: bool)
    ensures a in {ViewAnyRoles, ViewRole} ==> (r <==> Can(user, ViewRoles))
    ensures a == CreateRole ==> (r <==> Can(user, CreateRoles))
    ensures a in {UpdateRole, DeleteRole} && IsSystemRole(roleName) ==> !r
    ensures a == UpdateRole && !IsSystemRole(roleName) ==> (r <==> Can(user, EditRoles))
    ensures a == DeleteRole && !IsSystemRole(roleName) ==> (r <==> Can(user, DeleteRoles))
  {
    match a
    case ViewAnyRoles => Can(user, ViewRoles)
    case ViewRole => Can(user, ViewRoles)
    case CreateRole => Can(user, CreateRoles)
    case UpdateRole => if roleName in Roles.Values() then false else Can(user, EditRoles)
    case DeleteRole => if roleName in Roles.Values() then false else Can(user, DeleteRoles)
  }

  /** The three built-in roles are locked whatever permissions the user has,
      and every other name, even one differing only in letter case, is
      governed by the permission alone. */
  lemma {:induction false} SystemRolesLocked(user: Account, role: Roles.Role)
    ensures !RoleAllows(UpdateRole, user, role.Value()) && !RoleAllows(DeleteRole, user, role.Value())
    ensures RoleAllows(UpdateRole, user, "Administrator") <==> Can(user, EditRoles)
    ensures RoleAllows(DeleteRole, user, "editor") <==> Can(user, DeleteRoles)
  {
    assert Roles.Values() == ["administrator", "manager", "user"];
  }
}

=== FILE: publish.dfy ===
/** `translations:publish`: the set values of each configured locale, read
    from the table grouped by group, are written back to the `lang/`
    directory. The "general" group becomes `lang/<locale>.json`; every other
    group becomes `lang/<locale>/<group>.php`, a PHP file returning the group's
    keys as a nested array (split on dots). */
module Publish {
  import opened Base
  import opened PhpString
  import opened OrderedMap
  import opened LangFiles
  import opened Store
  import opened NestedArray

  // ---------------------------------------------------------------- var_export

  predicate IsDigit(c: char) {
    '0' <= c <= '9'
  }

  /** Decimal digits without a leading zero (except "0" itself). */
  predicate IsCanonicalDigits(d: string) {
    && |d| >= 1
    && (forall i :: 0 <= i < |d| ==> IsDigit(d[i]))
    && (|d| == 1 || d[0] != '0')
  }

  /** A digit string no larger than the digit string `max` of the same
      width or less. */
  predicate AtMost(d: string, max: string) {
    |d| < |max| || (|d| == |max| && StrLe(d, max))
  }

  /** A string key that PHP stores as an integer key: a canonical decimal
      integer within the 64-bit range. */
  predicate IsIntegerKey(k: string) {
    || (IsCanonicalDigits(k) && AtMost(k, "9223372036854775807"))
    || (&& |k| >= 2 && k[0] == '-' && IsCanonicalDigits(k[1..]) && k[1..] != "0"
        && AtMost(k[1..], "9223372036854775808"))
  }

  /** What `var_export` writes for a NUL character inside a quoted string:
      it closes the literal, concatenates a double-quoted "\0" and opens a
      new literal. */
  const NulSplice := "' . \"\\0\" . '"

  /** The body of `var_export`'s single-quoted literal: a backslash before
      every quote and backslash, and each NUL spliced in as above. */
  function ExportBody(s: string): (r: string)
    ensures |r| >= |s|
  {
    if s == [] then []
    else if s[0] == '\0' then NulSplice + ExportBody(s[1..])
    else if s[0] == '\'' || s[0] == '\\' then ['\\', s[0]] + ExportBody(s[1..])
    else [s[0]] + ExportBody(s[1..])
  }

  /** `var_export` of a string. */
  function ExportString(s: string): (r: string)
    ensures |r| >= 2 && r[0] == '\'' && r[|r| - 1] == '\''
  {
    "'" + ExportBody(s) + "'"
  }

  /** The key PHP_INT_MIN, and how `var_export` writes it: as a literal
      "-9223372036854775808" would be read back as a float. */
  const IntMinKey := "-9223372036854775808"
  const IntMinText := "-9223372036854775807-1"

  /** `var_export` of an array key: integer keys are written as numbers. */
  function ExportKey(k: string): string {
    if k == IntMinKey then IntMinText
    else if IsIntegerKey(k) then k
    else ExportString(k)
  }

  /** A NUL is spliced in as a concatenated "\0", a quote is escaped. */
  lemma ExportStringExamples()
    ensures |NulSplice| == 12
    ensures ExportString("a\0b") == "'a' . \"\\0\" . 'b'"
    ensures ExportString("it's") == "'it\\'s'"
  {
    assert ExportBody("b") == "b";
    assert ExportBody("\0b") == NulSplice + "b";
    assert ExportBody("s") == "s";
    assert ExportBody("'s") == "\\'s";
  }

  /** PHP_INT_MIN is an integer key, written as an expression. */
  lemma ExportKeyIntMin()
    ensures IsIntegerKey(IntMinKey) && ExportKey(IntMinKey) == "-9223372036854775807-1"
  {
    var d := IntMinKey[1..];
    assert d == "9223372036854775808";
    assert IsCanonicalDigits(d) by {
      assert forall i :: 0 <= i < |d| ==> d[i] in "0123456789";
    }
    assert AtMost(d, d) by {
      StrLeReflexive(d);
    }
  }

  /** `var_export` of a scalar. */
  function ExportValue(v: Value): string {
    match v
    case Null => "NULL"
    case Text(t) => ExportString(t)
  }

  // ---------------------------------------------------------------- arrayToString

  /** `arrayToString($array, $depth)`: "[]" for an empty array, otherwise one
      line per element indented by `depth` levels of four spaces, each line
      ending in a comma, and the closing bracket one level further out. */
  function Render(entries: seq<(string, Nested)>, depth: nat): string
    requires depth >= 1
    decreases Size(entries), 1
  {
    if entries == [] then "[]"
    else "[\n" + Join(",\n", RenderItems(entries, depth)) + ",\n" + Spaces(4 * (depth - 1)) + "]"
  }

  /** The lines of the elements of an array at `depth`. */
  function RenderItems(entries: seq<(string, Nested)>, depth: nat): (r: seq<string>)
    requires depth >= 1
    ensures |r| == |entries|
    decreases Size(entries), 0
  {
    if entries == [] then []
    else
      SizeSplit(entries);
      var value := match entries[0].1
        case Leaf(v) => ExportValue(v)
        case Branch(children) => Render(children, depth + 1);
      [Spaces(4 * depth) + ExportKey(entries[0].0) + " => " + value] + RenderItems(entries[1..], depth)
  }

  /** The text of a published group file. */
  function FileContent(entries: seq<(string, Nested)>): string {
    "<?php\n\nreturn " + Render(entries, 1) + ";\n"
  }

  // ---------------------------------------------------------------- the files of one locale

  /** The file name a group is published under. */
  function FileName(group: string): string {
    group + ".php"
  }

  /** The group a file name is published for, if it is one. */
  function GroupOfName(name: string): (r: Option<string>)
    ensures r.Some? <==> EndsWith(name, ".php")
  {
    if EndsWith(name, ".php") then Some(name[..|name| - 4]) else None
  }

  /** `FileName` and `GroupOfName` are inverse. */
  lemma GroupOfNameIff(name: string, group: string)
    ensures GroupOfName(name) == Some(group) <==> name == FileName(group)
  {
    if name == FileName(group) {
      assert name[..|name| - 4] == group;
    }
    if GroupOfName(name) == Some(group) {
      assert name == name[..|name| - 4] + ".php";
    }
  }

  /** The outcome: the directory as written, or as left when a group could
      not be written: its nested array stopped on a string in the way, or its
      name holds a '/', so that `File::put` aims below a directory the
      command never makes. */
  datatype Outcome = Published(lang: LangDir) | Failed(lang: LangDir, locale: string, group: string)

  /** The group file for `items`, if its nested array can be built. */
  function GroupFile(items: seq<(string, Value)>): (r: Option<PhpFile>)
    ensures r.Some? <==> BuildNested(items).Some?
    ensures r.Some? ==> r.value.data == BuildNested(items).value && r.value.text == FileContent(r.value.data)
  {
    match BuildNested(items)
    case None => None
    case Some(arr) => Some(PhpFile(FileContent(arr), arr))
  }

  /** `publishJson` / `publishPhp` for each group in order. */
  function PublishGroups(lang: LangDir, locale: string, groups: Groups): (r: Outcome)
    requires Consistent(lang) && locale in lang.dirs && GroupsWellFormed(groups)
    ensures Consistent(r.lang) && locale in r.lang.dirs
    decreases |groups|
  {
    if groups == [] then Published(lang)
    else
      GroupsTail(groups);
      var (g, items) := groups[0];
      if g == "general" then
        PublishGroups(lang.(json := lang.json[locale := JsonObject(items)]), locale, groups[1..])
      else if '/' in g then Failed(lang, locale, g)
      else
        match GroupFile(items)
        case None => Failed(lang, locale, g)
        case Some(file) =>
          PublishGroups(lang.(dirs := lang.dirs[locale := Put(lang.dirs[locale], FileName(g), file)]), locale, groups[1..])
  }

  /** The groups after the first are still well-formed, and so are the
      first group's items. */
  lemma GroupsTail(groups: Groups)
    requires groups != [] && GroupsWellFormed(groups)
    ensures GroupsWellFormed(groups[1..]) && WellFormed(groups[0].1)
  {
    assert Keys(groups[1..]) == Keys(groups)[1..];
    assert forall i :: 0 <= i < |groups[1..]| ==> groups[1..][i] == groups[i + 1];
  }

  /** `publishLocale`: nothing happens when the locale has no set value;
      otherwise its directory is made and its groups are written. */
  function PublishLocale(lang: LangDir, s: Store, locale: string): (r: Outcome)
    requires Consistent(lang) && Valid(s)
    ensures Consistent(r.lang)
  {
    var groups := GetAllByLocale(s, locale);
    if groups == [] then Published(lang)
    else PublishGroups(EnsureDir(lang, locale), locale, groups)
  }

  /** The configured locales in order; a failure stops the command. */
  function PublishAll(lang: LangDir, s: Store, locales: seq<string>): (r: Outcome)
    requires Consistent(lang) && Valid(s)
    ensures Consistent(r.lang)
    decreases |locales|
  {
    if locales == [] then Published(lang)
    else
      match PublishLocale(lang, s, locales[0])
      case Failed(l, loc, g) => Failed(l, loc, g)
      case Published(l) => PublishAll(l, s, locales[1..])
  }

  /** `handle`: English alone when no locale is configured. */
  function Run(config: Option<seq<string>>, lang: LangDir, s: Store): (r: Outcome)
    requires Consistent(lang) && Valid(s)
    ensures Consistent(r.lang)
  {
    PublishAll(lang, s, Locales(config))
  }

  // ---------------------------------------------------------------- what gets written

  /** A group other than "general" can be written to its own file: its name
      names a file directly in the locale's directory, and its nested array
      can be built. */
  predicate Writable(group: string, items: seq<(string, Value)>) {
    '/' !in group && BuildNested(items).Some?
  }

  /** Every non-"general" group can be written. */
  predicate AllWritable(groups: Groups) {
    forall i :: 0 <= i < |groups| && groups[i].0 != "general" ==> Writable(groups[i].0, groups[i].1)
  }

  /** The JSON files after publishing `groups`: the "general" items, if any,
      replace the locale's file. */
  function JsonAfter(json: map<string, JsonFile>, locale: string, groups: Groups): map<string, JsonFile> {
    match Get(groups, "general")
    case Some(items) => json[locale := JsonObject(items)]
    case None => json
  }

  /** A file of the locale's directory after publishing `groups`: the file of
      the group it is named after, or what was there before. */
  function FileAfter(files: seq<(string, PhpFile)>, groups: Groups, name: string): Option<PhpFile> {
    match GroupOfName(name)
    case Some(g) =>
      if g != "general" && Get(groups, g).Some? && GroupFile(Get(groups, g).value).Some?
      then GroupFile(Get(groups, g).value)
      else Get(files, name)
    case None => Get(files, name)
  }

  /** `after` is `before` with `groups` published for `locale`: the
      "general" items, if any, in the JSON file, each other group in its own
      file, and nothing else changed. */
  ghost predicate WritesGroups(before: LangDir, locale: string, groups: Groups, after: LangDir)
    requires locale in before.dirs && locale in after.dirs
  {
    && after.json == JsonAfter(before.json, locale, groups)
    && after.dirs.Keys == before.dirs.Keys
    && (forall l :: l in before.dirs && l != locale ==> after.dirs[l] == before.dirs[l])
    && (forall name :: Get(after.dirs[locale], name) == FileAfter(before.dirs[locale], groups, name))
  }

  /** Publishing a list of groups with distinct names succeeds exactly when
      every group file can be written, and then writes the "general" items to
      the JSON file, each other group to its own file, and nothing else. */
  lemma {:induction false} PublishGroupsWrites(lang: LangDir, locale: string, groups: Groups)
    requires Consistent(lang) && locale in lang.dirs && GroupsWellFormed(groups)
    ensures PublishGroups(lang, locale, groups).Published? <==> AllWritable(groups)
    ensures PublishGroups(lang, locale, groups).Published? ==>
      WritesGroups(lang, locale, groups, PublishGroups(lang, locale, groups).lang)
    decreases |groups|
  {
    if groups != [] {
      var (g, items) := groups[0];
      GroupsTail(groups);
      AllWritableCons(groups);
      if g == "general" {
        var next := lang.(json := lang.json[locale := JsonObject(items)]);
        PublishGroupsWrites(next, locale, groups[1..]);
        if PublishGroups(next, locale, groups[1..]).Published? {
          GeneralStep(lang, locale, groups, PublishGroups(next, locale, groups[1..]).lang);
        }
      } else if Writable(g, items) {
        var next := lang.(dirs := lang.dirs[locale := Put(lang.dirs[locale], FileName(g), GroupFile(items).value)]);
        PublishGroupsWrites(next, locale, groups[1..]);
        if PublishGroups(next, locale, groups[1..]).Published? {
          FileStep(lang, locale, groups, PublishGroups(next, locale, groups[1..]).lang);
        }
      }
    }
  }

  /** The lookups in `groups` other than its first name are lookups in its
      tail. */
  lemma GroupsLookups(groups: Groups)
    requires groups != [] && GroupsWellFormed(groups)
    ensures groups[0].0 !in Keys(groups[1..])
    ensures Get(groups, groups[0].0) == Some(groups[0].1)
    ensures forall h :: h != groups[0].0 ==> Get(groups, h) == Get(groups[1..], h)
  {
    assert Keys(groups[1..]) == Keys(groups)[1..];
    forall h | h != groups[0].0 ensures Get(groups, h) == Get(groups[1..], h) {
      GetTail(groups, h);
    }
  }

  /** Publishing "general" first writes the JSON file, then the rest. */
  lemma GeneralStep(lang: LangDir, locale: string, groups: Groups, after: LangDir)
    requires locale in lang.dirs && GroupsWellFormed(groups) && groups != [] && groups[0].0 == "general"
    requires locale in after.dirs
    requires WritesGroups(lang.(json := lang.json[locale := JsonObject(groups[0].1)]), locale, groups[1..], after)
    ensures WritesGroups(lang, locale, groups, after)
  {
    GroupsLookups(groups);
    forall name ensures FileAfter(lang.dirs[locale], groups[1..], name) == FileAfter(lang.dirs[locale], groups, name) {
    }
  }

  /** Publishing another group first writes its file, then the rest. */
  lemma FileStep(lang: LangDir, locale: string, groups: Groups, after: LangDir)
    requires locale in lang.dirs && GroupsWellFormed(groups) && groups != [] && groups[0].0 != "general"
    requires GroupFile(groups[0].1).Some? && locale in after.dirs
    requires
      var files := Put(lang.dirs[locale], FileName(groups[0].0), GroupFile(groups[0].1).value);
      WritesGroups(lang.(dirs := lang.dirs[locale := files]), locale, groups[1..], after)
    ensures WritesGroups(lang, locale, groups, after)
  {
    var files := Put(lang.dirs[locale], FileName(groups[0].0), GroupFile(groups[0].1).value);
    forall name ensures FileAfter(files, groups[1..], name) == FileAfter(lang.dirs[locale], groups, name) {
      FileAfterPut(lang.dirs[locale], groups, name);
    }
  }

  /** Writing the first group's file and then the rest leaves each file
      as publishing all the groups does. */
  lemma FileAfterPut(files: seq<(string, PhpFile)>, groups: Groups, name: string)
    requires GroupsWellFormed(groups) && groups != [] && groups[0].0 != "general"
    requires GroupFile(groups[0].1).Some?
    ensures FileAfter(Put(files, FileName(groups[0].0), GroupFile(groups[0].1).value), groups[1..], name)
      == FileAfter(files, groups, name)
  {
    var g := groups[0].0;
    GroupsLookups(groups);
    GroupOfNameIff(name, g);
    if GroupOfName(name) == Some(g) {
      assert Get(groups[1..], g).None?;
    }
  }

  /** Every group can be written exactly when the first one can (or is
      "general") and the rest all can. */
  lemma AllWritableCons(groups: Groups)
    requires groups != []
    ensures AllWritable(groups) <==>
              (groups[0].0 != "general" ==> Writable(groups[0].0, groups[0].1)) && AllWritable(groups[1..])
  {
    if AllWritable(groups) {
      forall i | 0 <= i < |groups[1..]| && groups[1..][i].0 != "general"
        ensures Writable(groups[1..][i].0, groups[1..][i].1)
      {
        assert groups[1..][i] == groups[i + 1];
      }
    }
  }

  /** `publishLocale` succeeds exactly when every group other than
      "general" has a name without '/' and a nested array that can be built;
      a locale without a set value is left
      alone. */
  lemma PublishLocaleWrites(lang: LangDir, s: Store, locale: string)
    requires Consistent(lang) && Valid(s)
    ensures PublishLocale(lang, s, locale).Published? <==> AllWritable(GetAllByLocale(s, locale))
    ensures GetAllByLocale(s, locale) == [] ==> PublishLocale(lang, s, locale) == Published(lang)
  {
    var groups := GetAllByLocale(s, locale);
    if groups != [] {
      PublishGroupsWrites(EnsureDir(lang, locale), locale, groups);
    }
  }

  /** The JSON file of a published locale holds exactly the set values of the
      "general" group. */
  lemma PublishedJson(lang: LangDir, s: Store, locale: string)
    requires Consistent(lang) && Valid(s)
    requires PublishLocale(lang, s, locale).Published?
    requires exists k :: Shown(s, RecordId(k, "general"), locale)
    ensures
      var r := PublishLocale(lang, s, locale).lang;
      && locale in r.json && r.json[locale].JsonObject?
      && forall k :: Get(r.json[locale].entries, k) ==
           (if Shown(s, RecordId(k, "general"), locale) then Some(s.records[RecordId(k, "general")][locale]) else None)
  {
    var groups := GetAllByLocale(s, locale);
    var k0 :| Shown(s, RecordId(k0, "general"), locale);
    assert "general" in Keys(groups);
    assert groups != [];
    PublishGroupsWrites(EnsureDir(lang, locale), locale, groups);
    var items := Get(groups, "general").value;
    forall k ensures Get(items, k) == Find(groups, "general", k) {
    }
  }

  /** A published group other than "general" has no '/' in its name and
      lands in the file named after it, holding the nested array built from
      the group's set values. */
  lemma PublishedGroupFile(lang: LangDir, s: Store, locale: string, g: string)
    requires Consistent(lang) && Valid(s)
    requires PublishLocale(lang, s, locale).Published?
    requires g != "general" && g in Keys(GetAllByLocale(s, locale))
    ensures
      var r := PublishLocale(lang, s, locale).lang;
      var items := Get(GetAllByLocale(s, locale), g).value;
      && locale in r.dirs
      && '/' !in g
      && BuildNested(items).Some?
      && Get(r.dirs[locale], FileName(g)) == Some(PhpFile(FileContent(BuildNested(items).value), BuildNested(items).value))
  {
    var groups := GetAllByLocale(s, locale);
    PublishGroupsWrites(EnsureDir(lang, locale), locale, groups);
    AllWritableGet(groups, g);
    FileAfterGroup(EnsureDir(lang, locale).dirs[locale], groups, g);
  }

  /** A group of `groups` other than "general" can be written when all can. */
  lemma AllWritableGet(groups: Groups, g: string)
    requires GroupsWellFormed(groups) && AllWritable(groups)
    requires g != "general" && g in Keys(groups)
    ensures Get(groups, g).Some? && Writable(g, Get(groups, g).value)
  {
    var i :| 0 <= i < |groups| && Keys(groups)[i] == g;
    GetEntry(groups, i);
  }

  /** The file named after a group that builds is that group's file. */
  lemma FileAfterGroup(files: seq<(string, PhpFile)>, groups: Groups, g: string)
    requires g != "general" && Get(groups, g).Some? && BuildNested(Get(groups, g).value).Some?
    ensures FileAfter(files, groups, FileName(g)) == GroupFile(Get(groups, g).value)
  {
    GroupOfNameIff(FileName(g), g);
  }

  /** The command succeeds exactly when, for every configured locale, every
      group other than "general" can be written, its name free of '/' and
      its nested array buildable; which locales come first does
      not matter, since success depends on the table alone. */
  lemma {:induction false} PublishAllSucceeds(lang: LangDir, s: Store, locales: seq<string>)
    requires Consistent(lang) && Valid(s)
    ensures PublishAll(lang, s, locales).Published? <==>
              forall i :: 0 <= i < |locales| ==> AllWritable(GetAllByLocale(s, locales[i]))
    decreases |locales|
  {
    if locales != [] {
      PublishLocaleWrites(lang, s, locales[0]);
      var first := PublishLocale(lang, s, locales[0]);
      if first.Published? {
        PublishAllSucceeds(first.lang, s, locales[1..]);
        assert forall i :: 1 <= i < |locales| ==> locales[i] == locales[1..][i - 1];
      }
    }
  }
}

=== FILE: roles.dfy ===
/** The three built-in user roles (`UserRoleEnum`), their string values and
    the badge colour the admin panel shows for a role name. */
module Roles {
  import opened Base

  datatype Role = Administrator | Manager | User {
    /** The backing string of the case, which is also the role's name in
        the roles table. */
    function Value(): string {
      match this
      case Administrator => "administrator"
      case Manager => "manager"
      case User => "user"
    }
  }

  /** The cases in declaration order. */
  const Cases: seq<Role> := [Administrator, Manager, User]

  /** `values()`: the backing strings in declaration order. */
  function Values(): (r: seq<string>)
    ensures |r| == |Cases| && forall i :: 0 <= i < |r| ==> r[i] == Cases[i].Value()
    ensures NoDup(r)
    ensures forall s :: s in r <==> exists role: Role :: role.Value() == s
  {
    var r := ValuesOf(Cases);
    assert forall role: Role :: role.Value() == r[IndexOf(role)];
    r
  }

  /** The backing strings of `roles`, in order (`array_column(…, 'value')`). */
  function ValuesOf(roles: seq<Role>): (r: seq<string>)
    ensures |r| == |roles| && forall i :: 0 <= i < |r| ==> r[i] == roles[i].Value()
  {
    if roles == [] then [] else [roles[0].Value()] + ValuesOf(roles[1..])
  }

  /** The position of a case in `Cases`. */
  function IndexOf(role: Role): (i: nat)
    ensures i < |Cases| && Cases[i] == role
  {
    match role
    case Administrator => 0
    case Manager => 1
    case User => 2
  }

  /** `tryFrom`: the case whose backing string is exactly `s`. */
  function TryFrom(s: string): (r: Option<Role>)
    ensures r.Some? <==> s in Values()
    ensures r.Some? ==> r.value.Value() == s
  {
    if s == "administrator" then Some(Administrator)
    else if s == "manager" then Some(Manager)
    else if s == "user" then Some(User)
    else None
  }

  /** Backing strings are distinct, so `tryFrom` inverts `Value`. */
  lemma TryFromValue(role: Role)
    ensures TryFrom(role.Value()) == Some(role)
  {
  }

  /** `getColor`: the badge colour of a role. */
  function Color(role: Role): (r: string)
    ensures r in {"danger", "primary", "gray"}
    ensures role == Administrator <==> r == "danger"
    ensures role == Manager <==> r == "primary"
    ensures role == User <==> r == "gray"
  {
    match role
    case Administrator => "danger"
    case Manager => "primary"
    case User => "gray"
  }

  /** `getColorForRole`: the colour of the named role, `info` for any name
      that is not exactly one of the backing strings. */
  function ColorForRole(name: string): (r: string)
    ensures TryFrom(name).Some? ==> r == Color(TryFrom(name).value)
    ensures name !in Values() ==> r == "info"
  {
    var e := TryFrom(name);
    if e.Some? then Color(e.value) else "info"
  }

  /** A built-in role's own name gets its own colour, and no other name gets
      one of the three built-in colours. */
  lemma {:induction false} ColorForRoleAgrees(name: string)
    ensures forall role: Role :: ColorForRole(role.Value()) == Color(role)
    ensures ColorForRole(name) in {"danger", "primary", "gray"} <==> name in Values()
  {
    forall role: Role ensures ColorForRole(role.Value()) == Color(role) {
      TryFromValue(role);
    }
  }
}

=== FILE: roundtrip.dfy ===
/** Publishing and importing against each other: the nested array a group is
    published as flattens back, under `translations:import`, to exactly the
    keys and values it was built from. */
module RoundTrip {
  import opened Base
  import opened PhpString
  import opened OrderedMap
  import opened LangFiles
  import opened Store
  import opened NestedArray
  import Import
  import Publish

  /** The leaves of an array as `importArray` names them: each path joined
      with dots after the prefix. */
  function Keyed(ls: seq<(seq<string>, Value)>, prefix: Option<string>): (r: seq<(string, Value)>)
    ensures |r| == |ls|
    ensures forall i :: 0 <= i < |r| ==> r[i] == (Import.JoinKey(prefix, Join(".", ls[i].0)), ls[i].1)
  {
    seq(|ls|, i requires 0 <= i < |ls| => (Import.JoinKey(prefix, Join(".", ls[i].0)), ls[i].1))
  }

  /** Flattening lists the leaves in order, each under its dotted path. */
  lemma {:induction false} FlattenLeaves(entries: seq<(string, Nested)>, prefix: Option<string>)
    ensures Import.Flatten(entries, prefix) == Keyed(Leaves(entries), prefix)
    decreases Size(entries)
  {
    if entries != [] {
      SizeSplit(entries);
      var name := entries[0].0;
      var key := Import.JoinKey(prefix, name);
      var rest := entries[1..];
      FlattenLeaves(rest, prefix);
      var here := LeavesHere(entries);
      assert Leaves(entries) == here + Leaves(rest);
      KeyedConcat(here, Leaves(rest), prefix);
      match entries[0].1 {
        case Leaf(v) =>
          assert here == [([name], v)];
          assert Join(".", [name]) == name;
          assert Import.Flatten(entries, prefix) == [(key, v)] + Import.Flatten(rest, prefix);
        case Branch(children) =>
          FlattenLeaves(children, Some(key));
          assert here == Below(name, Leaves(children));
          KeyedBelow(name, Leaves(children), prefix);
          assert Import.Flatten(entries, prefix) == Import.Flatten(children, Some(key)) + Import.Flatten(rest, prefix);
      }
    }
  }

  lemma KeyedConcat(a: seq<(seq<string>, Value)>, b: seq<(seq<string>, Value)>, prefix: Option<string>)
    ensures Keyed(a + b, prefix) == Keyed(a, prefix) + Keyed(b, prefix)
  {
    assert forall i :: 0 <= i < |a + b| ==> (a + b)[i] == if i < |a| then a[i] else b[i - |a|];
  }

  /** Leaves seen from one level up are named with the parent's key as
      prefix. */
  lemma KeyedBelow(name: string, ls: seq<(seq<string>, Value)>, prefix: Option<string>)
    requires forall i :: 0 <= i < |ls| ==> |ls[i].0| >= 1
    ensures Keyed(Below(name, ls), prefix) == Keyed(ls, Some(Import.JoinKey(prefix, name)))
  {
    forall i | 0 <= i < |ls|
      ensures Keyed(Below(name, ls), prefix)[i] == Keyed(ls, Some(Import.JoinKey(prefix, name)))[i]
    {
      var p := ls[i].0;
      assert ([name] + p)[1..] == p;
      assert Join(".", [name] + p) == name + "." + Join(".", p);
      match prefix {
        case None =>
        case Some(q) =>
          assert q + "." + (name + "." + Join(".", p)) == (q + "." + name) + "." + Join(".", p);
      }
    }
  }

  /** The round trip: with prefix-free keys, the array built from `flat`
      flattens back to exactly the pairs of `flat`. */
  lemma BuildThenFlatten(flat: seq<(string, Value)>)
    requires PrefixFree(flat)
    ensures BuildNested(flat).Some?
    ensures forall k, v :: (k, v) in Import.Flatten(BuildNested(flat).value, None) <==> (k, v) in flat
  {
    BuildNestedAt(flat);
    var b := BuildNested(flat).value;
    FlattenLeaves(b, None);
    forall k, v ensures (k, v) in Import.Flatten(b, None) <==> (k, v) in flat {
      if (k, v) in Import.Flatten(b, None) {
        FlattenedFromFlat(flat, b, k, v);
      }
      if (k, v) in flat {
        FlatIsFlattened(flat, b, k, v);
      }
    }
  }

  /** Each pair the flattening gives comes from `flat`. */
  lemma FlattenedFromFlat(flat: seq<(string, Value)>, b: seq<(string, Nested)>, k: string, v: Value)
    requires DeepWellFormed(b)
    requires forall p :: At(b, p).Some? ==> exists j :: 0 <= j < |flat| && p == Explode(flat[j].0)
    requires forall j :: 0 <= j < |flat| ==> At(b, Explode(flat[j].0)) == Some(flat[j].1)
    requires Import.Flatten(b, None) == Keyed(Leaves(b), None)
    requires (k, v) in Import.Flatten(b, None)
    ensures (k, v) in flat
  {
    var ls := Leaves(b);
    var i :| 0 <= i < |ls| && Keyed(ls, None)[i] == (k, v);
    var p := ls[i].0;
    assert (p, v) in ls;
    LeavesAt(b, p, v);
    var j :| 0 <= j < |flat| && p == Explode(flat[j].0);
    JoinExplode(flat[j].0);
    assert flat[j] == (k, v);
  }

  /** Each pair of `flat` is given by the flattening. */
  lemma FlatIsFlattened(flat: seq<(string, Value)>, b: seq<(string, Nested)>, k: string, v: Value)
    requires DeepWellFormed(b)
    requires forall j :: 0 <= j < |flat| ==> At(b, Explode(flat[j].0)) == Some(flat[j].1)
    requires Import.Flatten(b, None) == Keyed(Leaves(b), None)
    requires (k, v) in flat
    ensures (k, v) in Import.Flatten(b, None)
  {
    var ls := Leaves(b);
    var j :| 0 <= j < |flat| && flat[j] == (k, v);
    var p := Explode(k);
    LeavesAt(b, p, v);
    var i :| 0 <= i < |ls| && ls[i] == (p, v);
    JoinExplode(k);
    assert Keyed(ls, None)[i] == (k, v);
  }

  /** A leaf below an element of an array is a leaf of the array, under the
      element's key. */
  lemma {:induction false} LeafBelowEntry(entries: seq<(string, Nested)>, i: nat, x: (seq<string>, Value))
    requires i < |entries| && entries[i].1.Branch? && x in Leaves(entries[i].1.entries)
    ensures ([entries[i].0] + x.0, x.1) in Leaves(entries)
    decreases i
  {
    SizeSplit(entries);
    assert Leaves(entries) == LeavesHere(entries) + Leaves(entries[1..]);
    if i == 0 {
      var ls := Leaves(entries[0].1.entries);
      var k :| 0 <= k < |ls| && ls[k] == x;
      assert LeavesHere(entries) == Below(entries[0].0, ls);
      assert LeavesHere(entries)[k] == ([entries[0].0] + x.0, x.1);
    } else {
      assert entries[1..][i - 1] == entries[i];
      LeafBelowEntry(entries[1..], i - 1, x);
    }
  }

  /** Keys of the built array that hold leaves below them are first
      segments of dotted keys. */
  lemma BranchKeyIsSegment(flat: seq<(string, Value)>, i: nat)
    requires PrefixFree(flat)
    requires BuildNested(flat).Some?
    requires var b := BuildNested(flat).value; i < |b| && b[i].1.Branch? && Import.LeafCount(b[i].1.entries) > 0
    ensures exists j :: 0 <= j < |flat| && |Explode(flat[j].0)| > 1 && Explode(flat[j].0)[0] == BuildNested(flat).value[i].0
  {
    BuildNestedAt(flat);
    var b := BuildNested(flat).value;
    var children := b[i].1.entries;
    FlattenLeaves(children, None);
    var ls := Leaves(children);
    var x := ls[0];
    LeafBelowEntry(b, i, x);
    var p := [b[i].0] + x.0;
    LeavesAt(b, p, x.1);
    var j :| 0 <= j < |flat| && p == Explode(flat[j].0);
    assert |x.0| >= 1 && p[0] == b[i].0;
  }

  /** The importer as written inverts the build too, when besides being
      prefix-free no dotted key starts with the segment "" or "0". */
  lemma BuildThenFlattenAsWritten(flat: seq<(string, Value)>)
    requires PrefixFree(flat)
    requires forall j :: 0 <= j < |flat| && |Explode(flat[j].0)| > 1 ==> !IsEmptyString(Explode(flat[j].0)[0])
    ensures BuildNested(flat).Some?
    ensures forall k, v :: (k, v) in Import.FlattenAsWritten(BuildNested(flat).value, "") <==> (k, v) in flat
  {
    BuildThenFlatten(flat);
    var b := BuildNested(flat).value;
    forall i | 0 <= i < |b| && b[i].1.Branch? && Import.LeafCount(b[i].1.entries) > 0
      ensures !IsEmptyString(b[i].0)
    {
      BranchKeyIsSegment(flat, i);
    }
    Import.FlattenAgrees(b);
  }

  /** A published group file reads back, under `translations:import`, as the
      group's set values: its name holds no '/', the file is listed unless its name makes it a
      dotfile, the importer takes the group from the file name, and the
      file's array flattens, as `importArray` does it, to exactly the keys
      and values set for the locale in that group. This holds provided no key
      of the group is a dotted prefix of another and no dotted key starts
      with the segment "" or "0". */
  lemma PublishedGroupReadsBack(lang: LangDir, s: Store, locale: string, g: string)
    requires Consistent(lang) && Valid(s)
    requires Publish.PublishLocale(lang, s, locale).Published?
    requires g != "general" && g in Keys(GetAllByLocale(s, locale))
    requires var items := Get(GetAllByLocale(s, locale), g).value;
      && PrefixFree(items)
      && forall j :: 0 <= j < |items| && |Explode(items[j].0)| > 1 ==> !IsEmptyString(Explode(items[j].0)[0])
    ensures
      var r := Publish.PublishLocale(lang, s, locale).lang;
      && locale in r.dirs
      && '/' !in g
      && Get(r.dirs[locale], Publish.FileName(g)).Some?
      && var f := (Publish.FileName(g), Get(r.dirs[locale], Publish.FileName(g)).value);
      && (f in Import.DirListing(r, locale) <==> !Hidden(Publish.FileName(g)))
      && (Hidden(Publish.FileName(g)) <==> g == "" || g[0] == '.')
      && Extension(f.0) == "php" && Stem(f.0) == g
      && forall k, v :: (k, v) in Import.FlattenAsWritten(f.1.data, "") <==>
                          Shown(s, RecordId(k, g), locale) && s.records[RecordId(k, g)][locale] == v
  {
    var groups := GetAllByLocale(s, locale);
    var items := Get(groups, g).value;
    Publish.PublishedGroupFile(lang, s, locale, g);
    BuildThenFlattenAsWritten(items);
    PhpFileName(g);
    var r := Publish.PublishLocale(lang, s, locale).lang;
    var file := Get(r.dirs[locale], Publish.FileName(g)).value;
    GetIffEntry(r.dirs[locale], Publish.FileName(g), file);
    ListedMembers(Import.Dir(r, locale));
    var i :| 0 <= i < |groups| && groups[i].0 == g;
    assert WellFormed(groups[i].1);
    forall k, v ensures (k, v) in items <==> Shown(s, RecordId(k, g), locale) && s.records[RecordId(k, g)][locale] == v {
      GetIffEntry(items, k, v);
      assert Find(groups, g, k) == Get(items, k);
    }
  }

  /** A published file name carries the extension "php" and the group as its
      stem. */
  lemma PhpFileName(g: string)
    ensures Extension(Publish.FileName(g)) == "php" && Stem(Publish.FileName(g)) == g
  {
    var name := Publish.FileName(g);
    var d := LastIndexOf(name, '.');
    assert name[|g|] == '.';
    assert d.Some? && d.value >= |g|;
    assert d.value == |g|;
    assert name[..|g|] == g && name[|g| + 1..] == "php";
  }
}

=== FILE: scanner.dfy ===
/** The key scanner of `translations:generate`: which files are read, how a
    translation call is recognised in a file's text, how the quoted key is
    cleaned, and how the keys of all files are deduplicated.

    Each of the eight extraction patterns is modelled as a deterministic
    recogniser that accepts exactly what the regular expression accepts at a
    given position (the backtracking of the optional parameter list is resolved
    by hand), and matches are collected left to right without overlap, as
    `preg_match_all` does. */
module Scanner {
  import opened Base
  import opened PhpString
  import opened Sorting

  // ---------------------------------------------------------------- patterns

  /** A call form: `callee('…')`, or inside a Blade echo when `echo` holds
      (`{{ callee('…') }}`), with the literal delimited by `quote`. */
  datatype Pattern = Pattern(echo: bool, callee: string, quote: char)

  /** The eight patterns, in the order they are applied. */
  const Patterns: seq<Pattern> := [
    Pattern(false, "__", '\''), Pattern(false, "__", '"'),
    Pattern(true, "__", '\''), Pattern(true, "__", '"'),
    Pattern(false, "@lang", '\''), Pattern(false, "@lang", '"'),
    Pattern(false, "trans", '\''), Pattern(false, "trans", '"')
  ]

  /** The two delimiters a translation literal can have. */
  predicate IsQuote(q: char) {
    q == '\'' || q == '"'
  }

  /** PCRE `\s`. */
  predicate IsSpace(c: char) {
    c == ' ' || c == '\t' || c == '\n' || c == '\U{000B}' || c == '\U{000C}' || c == '\r'
  }

  /** `s` holds `w` at position `i`. */
  predicate HasAt(s: string, i: nat, w: string) {
    i + |w| <= |s| && s[i..i + |w|] == w
  }

  /** The position after the run of spaces starting at `i`. */
  function SkipSpace(s: string, i: nat): (j: nat)
    requires i <= |s|
    ensures i <= j <= |s|
    ensures forall k :: i <= k < j ==> IsSpace(s[k])
    ensures j < |s| ==> !IsSpace(s[j])
    decreases |s| - i
  {
    if i < |s| && IsSpace(s[i]) then SkipSpace(s, i + 1) else i
  }

  /** The first position at or after `i` holding `c`. */
  function IndexFrom(s: string, i: nat, c: char): (r: Option<nat>)
    requires i <= |s|
    ensures r.Some? ==> i <= r.value < |s| && s[r.value] == c
    ensures forall k :: i <= k < |s| && (r.None? || k < r.value) ==> s[k] != c
    decreases |s| - i
  {
    if i == |s| then None
    else if s[i] == c then Some(i)
    else IndexFrom(s, i + 1, c)
  }

  /** The last position in [lo, hi) that does not hold a space. */
  function LastNonSpace(s: string, lo: nat, hi: nat): (r: Option<nat>)
    requires lo <= hi <= |s|
    ensures r.Some? ==> lo <= r.value < hi && !IsSpace(s[r.value])
    ensures forall k :: lo <= k < hi && (r.None? || r.value < k) ==> IsSpace(s[k])
    decreases hi - lo
  {
    if lo == hi then None
    else if !IsSpace(s[hi - 1]) then Some(hi - 1)
    else LastNonSpace(s, lo, hi - 1)
  }

  // ---------------------------------------------------------------- the quoted literal

  /** What `(?:[^q\\]|\\.)*` accepts: characters other than the quote and the
      backslash, and backslash pairs whose second character is not a newline
      (PCRE's `.` does not match a newline). */
  predicate ValidBody(b: string, q: char)
    decreases |b|
  {
    || |b| == 0
    || (b[0] != q && b[0] != '\\' && ValidBody(b[1..], q))
    || (|b| >= 2 && b[0] == '\\' && b[1] != '\n' && ValidBody(b[2..], q))
  }

  /** The position of the quote closing a literal whose body starts at `i`.
      The body is valid, and no other position closes a valid body: the literal
      ends at the first quote that is not escaped. */
  function BodyEnd(s: string, i: nat, q: char): (r: Option<nat>)
    requires i <= |s| && IsQuote(q)
    ensures r.Some? ==> i <= r.value < |s| && s[r.value] == q && ValidBody(s[i..r.value], q)
    ensures forall j :: i <= j < |s| && s[j] == q && ValidBody(s[i..j], q) ==> r == Some(j)
    decreases |s| - i
  {
    if i == |s| then None
    else if s[i] == q then
      BodyStartsClosed(s, i, q);
      Some(i)
    else if s[i] != '\\' then
      BodyPlainStep(s, i, q);
      BodyEnd(s, i + 1, q)
    else if i + 1 < |s| && s[i + 1] != '\n' then
      BodyEscapeStep(s, i, q);
      BodyEnd(s, i + 2, q)
    else
      BodyBroken(s, i, q);
      None
  }

  /** A body starting with the quote itself is empty. */
  lemma BodyStartsClosed(s: string, i: nat, q: char)
    requires i < |s| && s[i] == q && IsQuote(q)
    ensures forall j :: i < j <= |s| ==> !ValidBody(s[i..j], q)
  {
    assert forall j :: i < j <= |s| ==> s[i..j][0] == q;
  }

  /** An ordinary character starts a valid body exactly when the rest is one. */
  lemma BodyPlainStep(s: string, i: nat, q: char)
    requires i < |s| && s[i] != q && s[i] != '\\'
    ensures forall j :: i < j <= |s| ==> (ValidBody(s[i..j], q) <==> ValidBody(s[i + 1..j], q))
  {
    assert forall j :: i < j <= |s| ==> s[i..j][0] == s[i] && s[i..j][1..] == s[i + 1..j];
  }

  /** An escape pair starts a valid body exactly when the rest is one; a lone
      backslash is not a body. */
  lemma BodyEscapeStep(s: string, i: nat, q: char)
    requires i + 1 < |s| && s[i] == '\\' && s[i + 1] != '\n'
    ensures !ValidBody(s[i..i + 1], q)
    ensures forall j :: i + 1 < j <= |s| ==> (ValidBody(s[i..j], q) <==> ValidBody(s[i + 2..j], q))
  {
    assert s[i..i + 1] == ['\\'];
    assert forall j :: i + 1 < j <= |s| ==> s[i..j][0] == s[i] && s[i..j][1] == s[i + 1] && s[i..j][2..] == s[i + 2..j];
  }

  /** A backslash at the end of the text or before a newline ends every body. */
  lemma BodyBroken(s: string, i: nat, q: char)
    requires i < |s| && s[i] == '\\' && !(i + 1 < |s| && s[i + 1] != '\n')
    ensures forall j :: i < j <= |s| ==> !ValidBody(s[i..j], q)
  {
    assert forall j :: i < j <= |s| ==> s[i..j][0] == s[i];
    assert forall j :: i + 1 < j <= |s| ==> s[i..j][1] == s[i + 1];
  }

  // ---------------------------------------------------------------- one match

  /** A recognised call: the raw literal and the position after the call. */
  datatype Match = Match(literal: string, end: nat)

  /** The position just after the opening quote, when the call's opening part
      (`callee('`, or `{{`, spaces, `callee('` for an echo) starts at `i`. */
  function OpenQuote(s: string, i: nat, p: Pattern): (r: Option<nat>)
    requires i <= |s|
    ensures r.Some? ==> i + |p.callee| + 2 <= r.value <= |s| && s[r.value - 1] == p.quote
  {
    var open := p.callee + "(" + [p.quote];
    if !p.echo then
      if HasAt(s, i, open) then
        assert s[i + |open| - 1] == open[|open| - 1];
        Some(i + |open|)
      else None
    else if HasAt(s, i, "{{") then
      var j := SkipSpace(s, i + 2);
      if HasAt(s, j, open) then
        assert s[j + |open| - 1] == open[|open| - 1];
        Some(j + |open|)
      else None
    else None
  }

  /** The position after the call whose literal closes at `close`:
      `\s*(?:,\s*[^)]+)?\)` for a plain call, and
      `\s*(?:,\s*[^}]+)?\)\s*\}\}` for an echo. A plain call ends at the first
      `)` after the literal (the parameter list cannot contain one), and an
      echo ends with `}}`. */
  function CallEnd(s: string, close: nat, p: Pattern): (r: Option<nat>)
    requires close < |s|
    ensures r.Some? ==> close + 1 < r.value <= |s|
    ensures r.Some? && !p.echo ==> s[r.value - 1] == ')'
    ensures r.Some? && !p.echo ==> forall k :: close < k < r.value - 1 ==> s[k] != ')'
    ensures r.Some? && p.echo ==> s[r.value - 2..r.value] == "}}"
  {
    var t := SkipSpace(s, close + 1);
    if t == |s| then None
    else if !p.echo then
      if s[t] == ')' then Some(t + 1)
      else if s[t] == ',' then
        match IndexFrom(s, t + 1, ')')
        case Some(k) => if k >= t + 2 then Some(k + 1) else None
        case None => None
      else None
    else
      if s[t] == ')' then
        var u := SkipSpace(s, t + 1);
        if HasAt(s, u, "}}") then Some(u + 2) else None
      else if s[t] == ',' then
        match IndexFrom(s, t + 1, '}')
        case None => None
        case Some(k) =>
          match LastNonSpace(s, t + 1, k)
          case None => None
          case Some(m) => if m >= t + 2 && s[m] == ')' && HasAt(s, k, "}}") then Some(k + 2) else None
      else None
  }

  /** Pattern `p` tried at position `i`. */
  function MatchAt(s: string, i: nat, p: Pattern): (r: Option<Match>)
    requires i <= |s| && IsQuote(p.quote)
    ensures r.Some? ==> i < r.value.end <= |s| && ValidBody(r.value.literal, p.quote)
  {
    match OpenQuote(s, i, p)
    case None => None
    case Some(b) =>
      match BodyEnd(s, b, p.quote)
      case None => None
      case Some(e) =>
        match CallEnd(s, e, p)
        case None => None
        case Some(end) => Some(Match(s[b..e], end))
  }

  /** `preg_match_all`: the literals of all non-overlapping matches of `p`,
      searching from `i` and resuming after each match. */
  function MatchAll(s: string, p: Pattern, i: nat): (r: seq<string>)
    requires i <= |s| && IsQuote(p.quote)
    ensures forall k :: 0 <= k < |r| ==> ValidBody(r[k], p.quote)
    decreases |s| - i
  {
    if i == |s| then []
    else match MatchAt(s, i, p)
      case Some(m) => [m.literal] + MatchAll(s, p, m.end)
      case None => MatchAll(s, p, i + 1)
  }

  // ---------------------------------------------------------------- cleaning

  /** `stripslashes(trim($raw))`, discarded when PHP's `empty()` rejects it. */
  function CleanKey(raw: string): (r: Option<string>)
    ensures r.Some? <==> !IsEmptyString(StripSlashes(Trim(raw)))
    ensures r.Some? ==> r.value == StripSlashes(Trim(raw))
  {
    var k := StripSlashes(Trim(raw));
    if IsEmptyString(k) then None else Some(k)
  }

  /** A literal made only of trim characters yields no key. */
  lemma BlankLiteralYieldsNothing(raw: string)
    requires forall k :: 0 <= k < |raw| ==> IsTrimChar(raw[k])
    ensures CleanKey(raw) == None
  {
  }

  /** The cleaned keys of a list of literals, in order. */
  function CleanAll(raws: seq<string>): (r: seq<string>)
    ensures forall k :: 0 <= k < |r| ==> !IsEmptyString(r[k])
    ensures forall x :: x in r <==> exists j :: 0 <= j < |raws| && CleanKey(raws[j]) == Some(x)
  {
    if raws == [] then []
    else
      var rest := CleanAll(raws[1..]);
      var r := match CleanKey(raws[0]) case Some(k) => [k] + rest case None => rest;
      CleanAllStep(raws, rest, r);
      r
  }

  /** One step of `CleanAll`: the first literal's key, if any, before the
      keys of the others. */
  lemma CleanAllStep(raws: seq<string>, rest: seq<string>, r: seq<string>)
    requires raws != []
    requires forall k :: 0 <= k < |rest| ==> !IsEmptyString(rest[k])
    requires forall x :: x in rest <==> exists j :: 0 <= j < |raws| - 1 && CleanKey(raws[1..][j]) == Some(x)
    requires r == match CleanKey(raws[0]) case Some(k) => [k] + rest case None => rest
    ensures forall k :: 0 <= k < |r| ==> !IsEmptyString(r[k])
    ensures forall x :: x in r <==> exists j :: 0 <= j < |raws| && CleanKey(raws[j]) == Some(x)
  {
    forall x | x in r
      ensures exists j :: 0 <= j < |raws| && CleanKey(raws[j]) == Some(x)
    {
      CleanAllSound(raws, rest, r, x);
    }
    forall x | exists j :: 0 <= j < |raws| && CleanKey(raws[j]) == Some(x)
      ensures x in r
    {
      var j :| 0 <= j < |raws| && CleanKey(raws[j]) == Some(x);
      CleanAllComplete(raws, rest, r, x, j);
    }
  }

  lemma CleanAllSound(raws: seq<string>, rest: seq<string>, r: seq<string>, x: string)
    requires raws != []
    requires x in rest ==> exists j :: 0 <= j < |raws| - 1 && CleanKey(raws[1..][j]) == Some(x)
    requires r == match CleanKey(raws[0]) case Some(k) => [k] + rest case None => rest
    requires x in r
    ensures exists j :: 0 <= j < |raws| && CleanKey(raws[j]) == Some(x)
  {
    if CleanKey(raws[0]) != Some(x) {
      assert x in rest;
      var j :| 0 <= j < |raws| - 1 && CleanKey(raws[1..][j]) == Some(x);
      assert raws[1..][j] == raws[j + 1];
    }
  }

  lemma CleanAllComplete(raws: seq<string>, rest: seq<string>, r: seq<string>, x: string, j: nat)
    requires j < |raws| && CleanKey(raws[j]) == Some(x)
    requires (exists i :: 0 <= i < |raws| - 1 && CleanKey(raws[1..][i]) == Some(x)) ==> x in rest
    requires r == match CleanKey(raws[0]) case Some(k) => [k] + rest case None => rest
    ensures x in r
  {
    if j == 0 {
      assert r == [x] + rest;
    } else {
      assert raws[1..][j - 1] == raws[j];
      assert x in rest;
    }
  }

  /** The keys one file contributes: every pattern in turn, every match of it. */
  function FileKeys(content: string): (r: seq<string>)
    ensures forall k :: 0 <= k < |r| ==> !IsEmptyString(r[k])
  {
    PatternKeys(content, Patterns)
  }

  function PatternKeys(content: string, ps: seq<Pattern>): (r: seq<string>)
    requires forall k :: 0 <= k < |ps| ==> IsQuote(ps[k].quote)
    ensures forall k :: 0 <= k < |r| ==> !IsEmptyString(r[k])
  {
    if ps == [] then [] else CleanAll(MatchAll(content, ps[0], 0)) + PatternKeys(content, ps[1..])
  }

  // ---------------------------------------------------------------- escaped literals read back

  lemma {:induction false} EscapeIsValidBody(key: string, q: char)
    requires IsQuote(q)
    ensures ValidBody(Escape(key, q), q)
  {
    if key != [] {
      EscapeIsValidBody(key[1..], q);
      var e := Escape(key, q);
      if key[0] == q || key[0] == '\\' {
        assert e[2..] == Escape(key[1..], q);
      } else {
        assert e[1..] == Escape(key[1..], q);
      }
    }
  }

  /** The escaped form of a key opens with the key's first character or a
      backslash, and closes with the key's last character. */
  lemma {:induction false} EscapeEnds(key: string, q: char)
    requires key != []
    ensures |Escape(key, q)| > 0
    ensures Escape(key, q)[0] == key[0] || Escape(key, q)[0] == '\\'
    ensures Escape(key, q)[|Escape(key, q)| - 1] == key[|key| - 1]
  {
    if |key| > 1 {
      EscapeEnds(key[1..], q);
    }
  }

  /** Cleaning the escaped form of a key returns the key, unless `trim` would
      change the key or `empty()` rejects it. */
  lemma CleanEscaped(key: string, q: char)
    requires IsQuote(q)
    requires Trim(key) == key && !IsEmptyString(key)
    ensures CleanKey(Escape(key, q)) == Some(key)
  {
    var e := Escape(key, q);
    EscapeEnds(key, q);
    assert !IsTrimChar(key[0]) && !IsTrimChar(key[|key| - 1]);
    assert LeadingTrim(e) == 0;
    assert TrailingTrim(e) == 0;
    assert Trim(e) == e;
    StripSlashesEscape(key, q);
  }

  /** A key written as `callee('<escaped key>')` is recognised as one call
      whose literal is exactly the escaped key: the literal ends at the real
      closing quote, not at an escaped one. */
  lemma PlainCallMatches(key: string, p: Pattern)
    requires !p.echo && IsQuote(p.quote)
    ensures var s := p.callee + "(" + [p.quote] + Escape(key, p.quote) + [p.quote] + ")";
            MatchAt(s, 0, p) == Some(Match(Escape(key, p.quote), |s|))
  {
    var e := Escape(key, p.quote);
    var open := p.callee + "(" + [p.quote];
    var s := open + e + [p.quote] + ")";
    var c := |open| + |e|;
    assert s[0..|open|] == open;
    assert OpenQuote(s, 0, p) == Some(|open|);
    EscapeIsValidBody(key, p.quote);
    assert s[|open|..c] == e;
    assert s[c] == p.quote;
    assert BodyEnd(s, |open|, p.quote) == Some(c);
    assert s[c + 1] == ')';
    assert SkipSpace(s, c + 1) == c + 1;
    assert CallEnd(s, c, p) == Some(|s|);
  }

  /** Both halves together: the key written in a plain call is the key the
      scan reports for it. */
  lemma PlainCallReadsKeyBack(key: string, p: Pattern)
    requires !p.echo && IsQuote(p.quote)
    requires Trim(key) == key && !IsEmptyString(key)
    ensures var s := p.callee + "(" + [p.quote] + Escape(key, p.quote) + [p.quote] + ")";
            MatchAll(s, p, 0) == [Escape(key, p.quote)] && CleanAll(MatchAll(s, p, 0)) == [key]
  {
    var s := p.callee + "(" + [p.quote] + Escape(key, p.quote) + [p.quote] + ")";
    PlainCallMatches(key, p);
    CleanEscaped(key, p.quote);
    assert MatchAll(s, p, 0) == [Escape(key, p.quote)] + MatchAll(s, p, |s|);
  }

  // ---------------------------------------------------------------- files

  /** Where a file lives: the application code, the Blade views, the route
      files, or anywhere else. */
  datatype SourceDir = AppDir | ViewsDir | RoutesDir | OtherDir

  /** A file of the project: its directory, its path below that directory
      (`/`-separated, the file name last) and its text. The extension of the
      path is the file name's own, since a slash after the last dot leaves an
      extension that is not `php`. */
  datatype SourceFile = SourceFile(dir: SourceDir, name: string, content: string)

  /** The filter applied to each listed file. */
  predicate IsScannable(name: string) {
    Extension(name) == "php" || EndsWith(name, ".blade.php")
  }

  /** The version-control directory names Symfony's Finder prunes by
      default that do not start with a dot. */
  predicate IsVcsDirName(segment: string) {
    segment == "CVS" || segment == "_svn" || segment == "_darcs"
  }

  /** A path lying below a directory with such a name, at any depth. */
  predicate BelowVcsDir(path: string) {
    exists i, j :: 0 <= i < j < |path| && (i == 0 || path[i - 1] == '/') && path[j] == '/' && IsVcsDirName(path[i..j])
  }

  /** A path the listing skips: a dotfile, one below a dot-directory, or
      one below a version-control directory. */
  predicate HiddenPath(path: string) {
    || (|path| > 0 && path[0] == '.')
    || (exists i :: 0 <= i < |path| - 1 && path[i] == '/' && path[i + 1] == '.')
    || BelowVcsDir(path)
  }

  /** Which paths are skipped: those below `CVS` or `_svn` at any depth, and
      those below a dot-directory; not a file merely named like such a
      directory, and not one below a directory whose name only ends in one. */
  lemma HiddenPathExamples()
    ensures HiddenPath("CVS/x.php") && HiddenPath("a/_svn/b.php") && HiddenPath("a/.git/b.php")
    ensures !HiddenPath("CVS.php") && !HiddenPath("xCVS/a.php")
  {
    assert "CVS/x.php"[0..3] == "CVS";
    assert "a/_svn/b.php"[2..6] == "_svn";
    assert "a/.git/b.php"[1] == '/' && "a/.git/b.php"[2] == '.';
    NotBelowVcsDir("CVS.php");
    NotBelowVcsDir("xCVS/a.php");
  }

  /** A file named like a version-control directory, and a directory
      whose name only ends in one, lie below none. */
  lemma NotBelowVcsDir(path: string)
    requires path == "CVS.php" || path == "xCVS/a.php"
    ensures !BelowVcsDir(path)
  {
    forall i, j | 0 <= i < j < |path| && (i == 0 || path[i - 1] == '/') && path[j] == '/'
      ensures !IsVcsDirName(path[i..j])
    {
      assert j == 0 || j == 1 || j == 2 || j == 3 || j == 4 || j == 5 || j == 6 || j == 7 || j == 8 || j == 9;
      assert path == "xCVS/a.php" && j == 4;
      assert i == 0 || i == 1 || i == 2 || i == 3;
      assert i == 0;
      assert path[i..j] == "xCVS";
    }
  }

  /** The sort key of `sortByName`: the path, compared byte by byte. */
  function PathKey(f: SourceFile): seq<string> {
    [f.name]
  }

  /** The files of one directory that are not hidden, in the tree's order. */
  function Present(tree: seq<SourceFile>, d: SourceDir): seq<SourceFile> {
    if tree == [] then []
    else (if tree[0].dir == d && !HiddenPath(tree[0].name) then [tree[0]] else []) + Present(tree[1..], d)
  }

  lemma {:induction false} PresentMembers(tree: seq<SourceFile>, d: SourceDir)
    ensures forall f :: f in Present(tree, d) <==> f in tree && f.dir == d && !HiddenPath(f.name)
  {
    if tree != [] {
      PresentMembers(tree[1..], d);
      assert tree == [tree[0]] + tree[1..];
    }
  }

  /** `File::allFiles($directory)`: every file below the directory, at any
      depth, except dotfiles, files below dot-directories and files below
      the version-control directories the Finder ignores, sorted by path. */
  function AllFiles(tree: seq<SourceFile>, d: SourceDir): seq<SourceFile> {
    Sort(Present(tree, d), PathKey)
  }

  /** The scannable files of a listing, in order. */
  function Scannable(files: seq<SourceFile>): seq<SourceFile> {
    if files == [] then []
    else (if IsScannable(files[0].name) then [files[0]] else []) + Scannable(files[1..])
  }

  /** The scannable files of one directory, in listing order. */
  function InDir(tree: seq<SourceFile>, d: SourceDir): seq<SourceFile> {
    Scannable(AllFiles(tree, d))
  }

  /** A directory's scan reads exactly its scannable files that are not
      hidden. */
  lemma InDirMembers(tree: seq<SourceFile>, d: SourceDir)
    ensures forall f :: f in InDir(tree, d) <==> f in tree && f.dir == d && !HiddenPath(f.name) && IsScannable(f.name)
  {
    var all := AllFiles(tree, d);
    PresentMembers(tree, d);
    assert forall f :: f in all <==> f in multiset(Present(tree, d));
    ScannableOf(all);
  }

  /** A directory's scan reads its files in order of their paths. */
  lemma InDirSorted(tree: seq<SourceFile>, d: SourceDir)
    ensures SortedBy(InDir(tree, d), PathKey)
  {
    ScannableOf(AllFiles(tree, d));
  }

  /** Filtering keeps exactly the scannable members and keeps a sorted
      listing sorted. */
  lemma ScannableOf(files: seq<SourceFile>)
    ensures forall f :: f in Scannable(files) <==> f in files && IsScannable(f.name)
    ensures SortedBy(files, PathKey) ==> SortedBy(Scannable(files), PathKey)
    ensures forall j :: 0 <= j < |Scannable(files)| ==> Scannable(files)[j] in files
  {
    ScannableMembers(files);
    if SortedBy(files, PathKey) {
      ScannableSorted(files);
    }
  }

  lemma {:induction false} ScannableMembers(files: seq<SourceFile>)
    ensures forall f :: f in Scannable(files) <==> f in files && IsScannable(f.name)
    ensures forall j :: 0 <= j < |Scannable(files)| ==> Scannable(files)[j] in files
  {
    if files != [] {
      ScannableMembers(files[1..]);
      assert files == [files[0]] + files[1..];
    }
  }

  lemma {:induction false} ScannableSorted(files: seq<SourceFile>)
    requires SortedBy(files, PathKey)
    ensures SortedBy(Scannable(files), PathKey)
  {
    if files != [] {
      var rest := Scannable(files[1..]);
      assert SortedBy(files[1..], PathKey) by {
        forall i, j | 0 <= i < j < |files[1..]| ensures LexLe(PathKey(files[1..][i]), PathKey(files[1..][j])) {
          assert files[1..][i] == files[i + 1] && files[1..][j] == files[j + 1];
        }
      }
      ScannableSorted(files[1..]);
      if IsScannable(files[0].name) {
        ScannableMembers(files[1..]);
        forall j | 0 <= j < |rest| ensures LexLe(PathKey(files[0]), PathKey(rest[j])) {
          var k :| 0 <= k < |files[1..]| && files[1..][k] == rest[j];
          assert files[k + 1] == rest[j];
        }
        SortedCons(files[0], rest, PathKey);
      }
    }
  }

  /** The files read by the scan: the application code, then the views, then
      the routes. Only files whose extension is `php` are read, which already
      includes every `.blade.php` file; nothing outside the three directories
      and nothing hidden is read. */
  function FilesToScan(tree: seq<SourceFile>): (r: seq<SourceFile>)
    ensures forall f :: f in r <==> f in tree && f.dir != OtherDir && !HiddenPath(f.name) && Extension(f.name) == "php"
  {
    forall n | EndsWith(n, ".blade.php") ensures Extension(n) == "php" {
      BladeNameHasPhpExtension(n);
    }
    InDirMembers(tree, AppDir);
    InDirMembers(tree, ViewsDir);
    InDirMembers(tree, RoutesDir);
    InDir(tree, AppDir) + InDir(tree, ViewsDir) + InDir(tree, RoutesDir)
  }

  // ---------------------------------------------------------------- dedup

  /** `array_unique`: the first occurrence of every element, in order. */
  function Unique(xs: seq<string>): (r: seq<string>)
    ensures NoDup(r)
    ensures forall x :: x in r <==> x in xs
    ensures forall i, j :: 0 <= i < j < |r| ==> FirstIndex(xs, r[i]).value < FirstIndex(xs, r[j]).value
  {
    if xs == [] then []
    else
      var init := xs[..|xs| - 1];
      var last := xs[|xs| - 1];
      assert xs == init + [last];
      var u := Unique(init);
      forall x | x in init ensures FirstIndex(xs, x) == FirstIndex(init, x) {
        FirstIndexAppend(init, [last], x);
      }
      if last in u then u
      else
        assert FirstIndex(xs, last) == Some(|xs| - 1);
        u + [last]
  }

  /** All keys found in the project, each once. */
  function ScanKeys(tree: seq<SourceFile>): (r: seq<string>)
    ensures NoDup(r)
    ensures forall k :: k in r ==> !IsEmptyString(k)
    ensures forall k :: k in r <==> exists f :: f in FilesToScan(tree) && k in FileKeys(f.content)
  {
    Unique(AllKeys(FilesToScan(tree)))
  }

  /** The keys of the files in order, duplicates included. */
  function AllKeys(files: seq<SourceFile>): (r: seq<string>)
    ensures forall k :: k in r ==> !IsEmptyString(k)
    ensures forall k :: k in r <==> exists f :: f in files && k in FileKeys(f.content)
  {
    if files == [] then []
    else
      assert files == [files[0]] + files[1..];
      FileKeys(files[0].content) + AllKeys(files[1..])
  }
}

=== FILE: sorting.dfy ===
/** Insertion sort by a sort key made of strings, compared column by column in
    code-point order. It models `ksort` on the generated JSON file (key: the
    entry's key) and `ORDER BY group, key` in the CSV export (key: group, then
    key). */
module Sorting {
  import opened PhpString

  /** Lexicographic order on rows of strings, each column compared with StrLe. */
  predicate LexLe(a: seq<string>, b: seq<string>) {
    |a| == 0 || (|b| > 0 && ((a[0] != b[0] && StrLe(a[0], b[0])) || (a[0] == b[0] && LexLe(a[1..], b[1..]))))
  }

  lemma {:induction false} LexLeTotal(a: seq<string>, b: seq<string>)
    ensures LexLe(a, b) || LexLe(b, a)
  {
    if |a| > 0 && |b| > 0 {
      StrLeTotal(a[0], b[0]);
      if a[0] == b[0] {
        LexLeTotal(a[1..], b[1..]);
      }
    }
  }

  lemma {:induction false} LexLeTransitive(a: seq<string>, b: seq<string>, c: seq<string>)
    requires LexLe(a, b) && LexLe(b, c)
    ensures LexLe(a, c)
  {
    if |a| > 0 {
      if a[0] == b[0] && b[0] == c[0] {
        LexLeTransitive(a[1..], b[1..], c[1..]);
      } else {
        StrLeReflexive(a[0]);
        StrLeReflexive(b[0]);
        StrLeTransitive(a[0], b[0], c[0]);
        if a[0] == c[0] {
          StrLeAntisymmetric(a[0], b[0]);
        }
      }
    }
  }

  lemma {:induction false} LexLeAntisymmetric(a: seq<string>, b: seq<string>)
    requires LexLe(a, b) && LexLe(b, a)
    requires |a| == |b|
    ensures a == b
  {
    if |a| > 0 {
      if a[0] != b[0] {
        StrLeAntisymmetric(a[0], b[0]);
      }
      LexLeAntisymmetric(a[1..], b[1..]);
      assert a == [a[0]] + a[1..] && b == [b[0]] + b[1..];
    }
  }

  /** Every element's key is LexLe every later element's key. */
  predicate SortedBy<T>(s: seq<T>, key: T -> seq<string>) {
    forall i, j :: 0 <= i < j < |s| ==> LexLe(key(s[i]), key(s[j]))
  }

  /** An element whose key is below every key of a sorted sequence can lead it. */
  lemma SortedCons<T>(x: T, s: seq<T>, key: T -> seq<string>)
    requires SortedBy(s, key)
    requires forall j :: 0 <= j < |s| ==> LexLe(key(x), key(s[j]))
    ensures SortedBy([x] + s, key)
  {
    var r := [x] + s;
    forall i, j | 0 <= i < j < |r| ensures LexLe(key(r[i]), key(r[j])) {
      if i > 0 {
        assert r[i] == s[i - 1] && r[j] == s[j - 1];
      } else {
        assert r[j] == s[j - 1];
      }
    }
  }

  /** Puts `x` into a sorted sequence in front of the first element whose key
      is not smaller. */
  function Insert<T>(x: T, s: seq<T>, key: T -> seq<string>): (r: seq<T>)
    requires SortedBy(s, key)
    ensures SortedBy(r, key)
    ensures multiset(r) == multiset(s) + multiset{x}
  {
    if s == [] then [x]
    else if LexLe(key(x), key(s[0])) then
      InsertFront(x, s, key);
      [x] + s
    else
      LexLeTotal(key(x), key(s[0]));
      var rest := Insert(x, s[1..], key);
      InsertBehind(x, s, rest, key);
      [s[0]] + rest
  }

  lemma InsertFront<T>(x: T, s: seq<T>, key: T -> seq<string>)
    requires SortedBy(s, key) && |s| > 0
    requires LexLe(key(x), key(s[0]))
    ensures SortedBy([x] + s, key)
  {
    forall j | 0 <= j < |s| ensures LexLe(key(x), key(s[j])) {
      if j > 0 { LexLeTransitive(key(x), key(s[0]), key(s[j])); }
    }
    SortedCons(x, s, key);
  }

  lemma InsertBehind<T>(x: T, s: seq<T>, rest: seq<T>, key: T -> seq<string>)
    requires SortedBy(s, key) && |s| > 0
    requires LexLe(key(s[0]), key(x))
    requires SortedBy(rest, key)
    requires multiset(rest) == multiset(s[1..]) + multiset{x}
    ensures SortedBy([s[0]] + rest, key)
    ensures multiset([s[0]] + rest) == multiset(s) + multiset{x}
  {
    forall j | 0 <= j < |rest| ensures LexLe(key(s[0]), key(rest[j])) {
      assert rest[j] in multiset(rest);
      if rest[j] != x {
        assert rest[j] in multiset(s[1..]);
        var k :| 0 <= k < |s[1..]| && s[1..][k] == rest[j];
        assert s[k + 1] == rest[j];
      }
    }
    SortedCons(s[0], rest, key);
    assert s == [s[0]] + s[1..];
  }

  /** A permutation of `s` sorted by `key`. */
  function Sort<T>(s: seq<T>, key: T -> seq<string>): (r: seq<T>)
    ensures SortedBy(r, key)
    ensures multiset(r) == multiset(s)
  {
    if s == [] then []
    else
      assert s == [s[0]] + s[1..];
      Insert(s[0], Sort(s[1..], key), key)
  }

  /** Two sorted arrangements of the same elements, none sharing a sort key,
      start with the same element. */
  lemma SameHead<T>(a: seq<T>, b: seq<T>, key: T -> seq<string>, width: nat)
    requires SortedBy(a, key) && SortedBy(b, key) && multiset(a) == multiset(b) && |a| > 0
    requires forall x :: x in a ==> |key(x)| == width
    requires forall x, y :: x in a && y in a && key(x) == key(y) ==> x == y
    ensures |b| > 0 && a[0] == b[0]
  {
    assert |b| == |multiset(b)| > 0;
    assert a[0] in multiset(b) && b[0] in multiset(a);
    var j :| 0 <= j < |b| && b[j] == a[0];
    var i :| 0 <= i < |a| && a[i] == b[0];
    if i > 0 && j > 0 {
      assert LexLe(key(a[0]), key(a[i])) && LexLe(key(b[0]), key(b[j]));
      LexLeAntisymmetric(key(a[0]), key(b[0]));
    }
  }

  /** Removing the same first element from two arrangements of the same
      elements leaves arrangements of the same elements. */
  lemma SameTail<T>(a: seq<T>, b: seq<T>)
    requires multiset(a) == multiset(b) && |a| > 0 && |b| > 0 && a[0] == b[0]
    ensures multiset(a[1..]) == multiset(b[1..])
  {
    assert a == [a[0]] + a[1..] && b == [b[0]] + b[1..];
    assert multiset(a[1..]) == multiset(a) - multiset{a[0]};
    assert multiset(b[1..]) == multiset(b) - multiset{b[0]};
  }

  /** Sorting is deterministic when no two elements share a sort key: two
      sorted arrangements of the same elements are the same sequence. */
  lemma {:induction false} SortedUnique<T>(a: seq<T>, b: seq<T>, key: T -> seq<string>, width: nat)
    requires SortedBy(a, key) && SortedBy(b, key) && multiset(a) == multiset(b)
    requires forall x :: x in a ==> |key(x)| == width
    requires forall x, y :: x in a && y in a && key(x) == key(y) ==> x == y
    ensures a == b
  {
    if a == [] {
      assert |b| == |multiset(b)| == 0;
    } else {
      SameHead(a, b, key, width);
      SameTail(a, b);
      assert forall x :: x in a[1..] ==> x in a;
      SortedUnique(a[1..], b[1..], key, width);
      assert a == [a[0]] + a[1..] && b == [b[0]] + b[1..];
    }
  }
}

=== FILE: store.dfy ===
/** The `translations` table: one record per (key, group) pair, holding a map
    from locale to value, together with the primary-key order in which the
    records were created (the order `Translation::all()` returns them in).
    Both importers change the table through two operations: `saveTranslation`
    of the lang-file import and the `firstOrCreate` of the CSV import. */
module Store {
  import opened Base
  import opened OrderedMap

  /** The unique index of the table. */
  datatype RecordId = RecordId(key: string, group: string)

  datatype Store = Store(records: map<RecordId, map<string, Value>>, order: seq<RecordId>)

  /** Every record occurs once in the creation order, and nothing else does. */
  predicate Valid(s: Store) {
    && NoDup(s.order)
    && (forall id :: id in s.records ==> id in s.order)
    && (forall i :: 0 <= i < |s.order| ==> s.order[i] in s.records)
  }

  /** The empty table. */
  const Empty := Store(map[], [])

  /** `values[locale]` of a record: `None` when the record or the locale is
      missing. */
  function Lookup(s: Store, id: RecordId, locale: string): Option<Value> {
    if id in s.records && locale in s.records[id] then Some(s.records[id][locale]) else None
  }

  /** PHP `isset` on a looked-up value. */
  predicate Settled(x: Option<Value>) {
    x.Some? && x.value != Null
  }

  // ---------------------------------------------------------------- the two primitive changes

  /** The `firstOrCreate` of the CSV import: a missing record is created with
      no values. */
  function Touch(s: Store, id: RecordId): (r: Store)
    requires Valid(s)
    ensures Valid(r)
    ensures forall id', l :: Lookup(r, id', l) == Lookup(s, id', l)
    ensures r.records.Keys == s.records.Keys + {id}
    ensures id in s.records ==> r.order == s.order
    ensures id !in s.records ==> r.order == s.order + [id]
  {
    if id in s.records then s
    else
      NoDupAppend(s.order, id);
      Store(s.records[id := map[]], s.order + [id])
  }

  /** The value a write leaves: the new value when forced or when the old one
      is not set, the old one otherwise. */
  function Next(x: Option<Value>, v: Value, force: bool): Option<Value> {
    if force || !Settled(x) then Some(v) else x
  }

  /** `saveTranslation`: a missing record is created holding only this
      locale's value; an existing one receives the value when `force` holds or
      the locale is not set, and keeps its value otherwise. */
  function Save(s: Store, id: RecordId, locale: string, v: Value, force: bool): (r: Store)
    requires Valid(s)
    ensures Valid(r)
    ensures Lookup(r, id, locale) == Next(Lookup(s, id, locale), v, force)
    ensures forall id', l :: (id', l) != (id, locale) ==> Lookup(r, id', l) == Lookup(s, id', l)
    ensures r.records.Keys == s.records.Keys + {id}
    ensures id in s.records ==> r.order == s.order
    ensures id !in s.records ==> r.order == s.order + [id]
  {
    if id !in s.records then
      NoDupAppend(s.order, id);
      Store(s.records[id := map[locale := v]], s.order + [id])
    else
      var values := s.records[id];
      if force || !IsSet(values, locale) then Store(s.records[id := values[locale := v]], s.order)
      else s
  }

  // ---------------------------------------------------------------- sequences of changes

  /** A change to the table. */
  datatype Op = Touch(id: RecordId) | Write(id: RecordId, locale: string, value: Value)

  function Apply(s: Store, op: Op, force: bool): (r: Store)
    requires Valid(s)
    ensures Valid(r)
  {
    match op
    case Touch(id) => Touch(s, id)
    case Write(id, l, v) => Save(s, id, l, v, force)
  }

  /** The changes applied one after the other. */
  function ApplyAll(s: Store, ops: seq<Op>, force: bool): (r: Store)
    requires Valid(s)
    ensures Valid(r)
    decreases |ops|
  {
    if ops == [] then s else ApplyAll(Apply(s, ops[0], force), ops[1..], force)
  }

  /** Applying two sequences of changes in turn is applying their
      concatenation. */
  lemma {:induction false} ApplyAllConcat(s: Store, a: seq<Op>, b: seq<Op>, force: bool)
    requires Valid(s)
    ensures ApplyAll(s, a + b, force) == ApplyAll(ApplyAll(s, a, force), b, force)
    decreases |a|
  {
    if a != [] {
      assert (a + b)[0] == a[0] && (a + b)[1..] == a[1..] + b;
      ApplyAllConcat(Apply(s, a[0], force), a[1..], b, force);
    } else {
      assert a + b == b;
    }
  }

  /** The values written to one locale of one record, in order. */
  function WrittenTo(ops: seq<Op>, id: RecordId, locale: string): (r: seq<Value>)
    ensures |r| <= |ops|
  {
    if ops == [] then []
    else
      var rest := WrittenTo(ops[1..], id, locale);
      if ops[0].Write? && ops[0].id == id && ops[0].locale == locale then [ops[0].value] + rest else rest
  }

  /** The value left by a sequence of writes. */
  function Fold(x: Option<Value>, vs: seq<Value>, force: bool): Option<Value>
    decreases |vs|
  {
    if vs == [] then x else Fold(Next(x, vs[0], force), vs[1..], force)
  }

  /** The ids the changes mention. */
  function Mentioned(ops: seq<Op>): (r: set<RecordId>)
    ensures forall id :: id in r <==> exists i :: 0 <= i < |ops| && ops[i].id == id
  {
    if ops == [] then {}
    else
      assert forall i :: 1 <= i < |ops| ==> ops[i] == ops[1..][i - 1];
      {ops[0].id} + Mentioned(ops[1..])
  }

  /** Each value after the changes is the fold of what was written to it. */
  lemma {:induction false} ApplyAllLookup(s: Store, ops: seq<Op>, force: bool, id: RecordId, locale: string)
    requires Valid(s)
    ensures Lookup(ApplyAll(s, ops, force), id, locale) == Fold(Lookup(s, id, locale), WrittenTo(ops, id, locale), force)
    decreases |ops|
  {
    if ops != [] {
      ApplyAllLookup(Apply(s, ops[0], force), ops[1..], force, id, locale);
    }
  }

  /** The changes create exactly the records they mention, and leave the
      order alone when those records all exist. */
  lemma {:induction false} ApplyAllRecords(s: Store, ops: seq<Op>, force: bool)
    requires Valid(s)
    ensures ApplyAll(s, ops, force).records.Keys == s.records.Keys + Mentioned(ops)
    ensures Mentioned(ops) <= s.records.Keys ==> ApplyAll(s, ops, force).order == s.order
    decreases |ops|
  {
    if ops != [] {
      ApplyAllRecords(Apply(s, ops[0], force), ops[1..], force);
    }
  }

  // ---------------------------------------------------------------- folds

  /** Without `force`, a set value is never replaced. */
  lemma {:induction false} FoldKeepsSettled(x: Option<Value>, vs: seq<Value>)
    requires Settled(x)
    ensures Fold(x, vs, false) == x
    decreases |vs|
  {
    if vs != [] {
      FoldKeepsSettled(x, vs[1..]);
    }
  }

  /** With `force`, the last write wins. */
  lemma {:induction false} FoldForcedLast(x: Option<Value>, vs: seq<Value>)
    requires vs != []
    ensures Fold(x, vs, true) == Some(vs[|vs| - 1])
    decreases |vs|
  {
    if |vs| > 1 {
      FoldForcedLast(Next(x, vs[0], true), vs[1..]);
    }
  }

  /** Without `force`, the result is unset only when every write was null;
      it is then null itself (or untouched when nothing was written). */
  lemma {:induction false} FoldUnsettled(x: Option<Value>, vs: seq<Value>)
    requires !Settled(Fold(x, vs, false))
    ensures forall i :: 0 <= i < |vs| ==> vs[i] == Null
    ensures vs != [] ==> Fold(x, vs, false) == Some(Null)
    decreases |vs|
  {
    if vs != [] {
      var y := Next(x, vs[0], false);
      if Settled(y) {
        FoldKeepsSettled(y, vs[1..]);
      }
      FoldUnsettled(y, vs[1..]);
    }
  }

  /** Null writes onto an unset value leave null, or nothing when there are
      none. */
  lemma {:induction false} FoldNulls(x: Option<Value>, vs: seq<Value>)
    requires !Settled(x)
    requires forall i :: 0 <= i < |vs| ==> vs[i] == Null
    ensures Fold(x, vs, false) == if vs == [] then x else Some(Null)
    decreases |vs|
  {
    if vs != [] {
      FoldNulls(Some(Null), vs[1..]);
    }
  }

  /** Writing the same values again changes nothing. */
  lemma FoldIdempotent(x: Option<Value>, vs: seq<Value>, force: bool)
    ensures Fold(Fold(x, vs, force), vs, force) == Fold(x, vs, force)
  {
    var y := Fold(x, vs, force);
    if vs != [] {
      if force {
        FoldForcedLast(x, vs);
        FoldForcedLast(y, vs);
      } else if Settled(y) {
        FoldKeepsSettled(y, vs);
      } else {
        FoldUnsettled(x, vs);
        FoldNulls(y, vs);
      }
    }
  }

  /** Two tables with the same records, order and values are equal. */
  lemma SameStore(a: Store, b: Store)
    requires Valid(a) && Valid(b) && a.order == b.order
    requires forall id, l :: Lookup(a, id, l) == Lookup(b, id, l)
    ensures a == b
  {
    assert a.records.Keys == b.records.Keys;
    forall id | id in a.records ensures a.records[id] == b.records[id] {
      var ma, mb := a.records[id], b.records[id];
      assert forall l :: l in ma <==> Lookup(a, id, l).Some?;
      assert forall l :: l in mb <==> Lookup(b, id, l).Some?;
      assert ma.Keys == mb.Keys;
      assert forall l :: l in ma ==> Lookup(a, id, l) == Some(ma[l]) && Lookup(b, id, l) == Some(mb[l]);
    }
  }

  /** Applying the same changes twice is applying them once. */
  lemma ApplyAllIdempotent(s: Store, ops: seq<Op>, force: bool)
    requires Valid(s)
    ensures ApplyAll(ApplyAll(s, ops, force), ops, force) == ApplyAll(s, ops, force)
  {
    var once := ApplyAll(s, ops, force);
    var twice := ApplyAll(once, ops, force);
    ApplyAllRecords(s, ops, force);
    ApplyAllRecords(once, ops, force);
    forall id, l ensures Lookup(twice, id, l) == Lookup(once, id, l) {
      ApplyAllLookup(s, ops, force, id, l);
      ApplyAllLookup(once, ops, force, id, l);
      FoldIdempotent(Lookup(s, id, l), WrittenTo(ops, id, l), force);
    }
    SameStore(twice, once);
  }

  // ---------------------------------------------------------------- Translation::getAllByLocale

  /** A record takes part in the locale's export: its value for the locale is
      set. */
  predicate Shown(s: Store, id: RecordId, locale: string) {
    id in s.records && IsSet(s.records[id], locale)
  }

  /** Group name to (key to value). */
  type Groups = seq<(string, seq<(string, Value)>)>

  /** The items of `g` holding key `k`, if any. */
  function Find(r: Groups, g: string, k: string): Option<Value> {
    match Get(r, g)
    case None => None
    case Some(items) => Get(items, k)
  }

  /** Both levels are free of repeated keys. */
  predicate GroupsWellFormed(r: Groups) {
    WellFormed(r) && forall i :: 0 <= i < |r| ==> WellFormed(r[i].1)
  }

  /** Adds the shown records among `ids` to `acc`, grouped by their group. */
  function GroupInto(s: Store, locale: string, acc: Groups, ids: seq<RecordId>): (r: Groups)
    requires GroupsWellFormed(acc)
    ensures GroupsWellFormed(r)
    ensures forall g, k :: Find(r, g, k) ==
                 (if RecordId(k, g) in ids && Shown(s, RecordId(k, g), locale)
                  then Some(s.records[RecordId(k, g)][locale]) else Find(acc, g, k))
    ensures forall g :: g in Keys(r) <==> g in Keys(acc) || exists id :: id in ids && Shown(s, id, locale) && id.group == g
    decreases |ids|
  {
    if ids == [] then acc
    else
      var id := ids[0];
      var next := if Shown(s, id, locale) then AddItem(acc, id.group, id.key, s.records[id][locale]) else acc;
      assert forall x :: x in ids <==> x == id || x in ids[1..];
      GroupInto(s, locale, next, ids[1..])
  }

  /** `$groups[$g][$k] = $v`. */
  function AddItem(acc: Groups, g: string, k: string, v: Value): (r: Groups)
    requires GroupsWellFormed(acc)
    ensures GroupsWellFormed(r)
    ensures Keys(r) == if g in Keys(acc) then Keys(acc) else Keys(acc) + [g]
    ensures Find(r, g, k) == Some(v)
    ensures forall g', k' :: (g', k') != (g, k) ==> Find(r, g', k') == Find(acc, g', k')
  {
    var items := Get(acc, g).GetOr([]);
    GroupWellFormed(acc, g);
    PutGroupWellFormed(acc, g, Put(items, k, v));
    Put(acc, g, Put(items, k, v))
  }

  /** The items of any group are free of repeated keys. */
  lemma GroupWellFormed(acc: Groups, g: string)
    requires GroupsWellFormed(acc)
    ensures WellFormed(Get(acc, g).GetOr([]))
  {
    if Get(acc, g).Some? {
      var i :| 0 <= i < |acc| && acc[i] == (g, Get(acc, g).value);
    }
  }

  /** Storing well-formed items under a group keeps both levels well-formed. */
  lemma PutGroupWellFormed(acc: Groups, g: string, items: seq<(string, Value)>)
    requires GroupsWellFormed(acc) && WellFormed(items)
    ensures GroupsWellFormed(Put(acc, g, items))
  {
    var r := Put(acc, g, items);
    forall i | 0 <= i < |r| ensures WellFormed(r[i].1) {
      GetEntry(r, i);
      if r[i].0 != g {
        var j :| 0 <= j < |acc| && acc[j] == (r[i].0, r[i].1);
      }
    }
  }

  /** `Translation::getAllByLocale`: the records whose value for `locale` is
      set, grouped by group, each mapping key to value. Nothing else is
      included, and every group listed holds at least one record. */
  function GetAllByLocale(s: Store, locale: string): (r: Groups)
    requires Valid(s)
    ensures GroupsWellFormed(r)
    ensures forall g, k :: Find(r, g, k) ==
                 (if Shown(s, RecordId(k, g), locale) then Some(s.records[RecordId(k, g)][locale]) else None)
    ensures forall g :: g in Keys(r) <==> exists id :: Shown(s, id, locale) && id.group == g
  {
    GroupInto(s, locale, [], s.order)
  }
}

=== FILE: tooltip.dfy ===
/** `tooltip_callback($limit)`: the tooltip a truncated table cell shows,
    which is the full text when it is at least `limit` characters long and
    nothing otherwise. */
module Tooltip {
  import opened Base
  import opened PhpString

  /** The cell state the callback receives: null, a string, or a list of
      strings (a relationship column such as the role names). */
  datatype State = Absent | Str(s: string) | Items(items: seq<string>)

  /** The state as text: a list joined with ", ", null cast to "". */
  function Text(state: State): (r: string)
    ensures state.Str? ==> r == state.s
    ensures state.Items? ==> r == Join(", ", state.items)
    ensures state.Absent? ==> r == ""
  {
    match state
    case Absent => ""
    case Str(s) => s
    case Items(items) => Join(", ", items)
  }

  /** The callback applied to a cell state. */
  function Show(limit: int, state: State): (r: Option<string>)
    ensures r.Some? <==> |Trim(Text(state))| >= limit
    ensures r.Some? ==> r.value == Trim(Text(state))
  {
    var text := Trim(Text(state));
    if |text| >= limit then Some(text) else None
  }

  /** A list is shown exactly as the string it joins to; what is shown is
      already trimmed; a tooltip shown at one limit is shown at every
      smaller one; and an empty cell shows something only at a limit of at
      most zero. */
  lemma {:induction false} ShowProperties(limit: int, smaller: int, state: State)
    ensures state.Items? ==> Show(limit, state) == Show(limit, Str(Join(", ", state.items)))
    ensures Show(limit, state).Some? ==> Trim(Show(limit, state).value) == Show(limit, state).value
    ensures smaller <= limit && Show(limit, state).Some? ==> Show(smaller, state) == Show(limit, state)
    ensures Show(limit, Absent).Some? <==> limit <= 0
  {
    TrimIdempotent(Text(state));
  }

  /** A null cell, an empty list and an empty string show the same; a list
      of one name shows as that name. */
  lemma EmptyAndSingle(limit: int, name: string)
    ensures Show(limit, Absent) == Show(limit, Items([])) == Show(limit, Str(""))
    ensures Show(limit, Items([name])) == Show(limit, Str(name))
  {
  }

  /** A list of two names shows as the two joined with ", ". */
  lemma ListExample(limit: int)
    ensures Show(limit, Items(["a", "b"])) == Show(limit, Str("a, b"))
  {
    assert Join(", ", ["a", "b"]) == "a, b";
  }

  /** Surrounding whitespace does not count towards the limit: any trim
      characters before and after an already trimmed text show as the text
      alone. */
  lemma PaddingIgnored(limit: int, a: string, s: string, b: string)
    requires Trim(s) == s
    requires forall k :: 0 <= k < |a| ==> IsTrimChar(a[k])
    requires forall k :: 0 <= k < |b| ==> IsTrimChar(b[k])
    ensures Show(limit, Str(a + s + b)) == Show(limit, Str(s))
  {
    TrimPadding(a, s, b);
    SameTrimShowsSame(limit, a + s + b, s);
  }

  lemma SameTrimShowsSame(limit: int, t: string, s: string)
    requires Trim(t) == Trim(s)
    ensures Show(limit, Str(t)) == Show(limit, Str(s))
  {
  }
}

=== FILE: user_pages.dfy ===
/** The create and edit pages of the user resource (`CreateUser`,
    `EditUser`; the manager pages inherit both): turning the "email
    verified" toggle into a timestamp, giving a new account the `user` role
    when it has none, and when to send a verification email. The clock is a
    parameter: `now` is the timestamp `now()` would give. */
module UserPages {
  import opened Base
  import opened Policies
  import opened UserResource

  /** The toggle's state in the submitted form: absent, or on/off. */
  type Toggle = Option<bool>

  /** `!empty($data['email_verified_at']) ? now() : null`. */
  function VerifiedAt(toggle: Toggle, now: int): (r: Option<int>)
    ensures r.Some? <==> toggle == Some(true)
    ensures r.Some? ==> r.value == now
  {
    if toggle.Some? && toggle.value then Some(now) else None
  }

  /** A notification shown to the admin. */
  datatype Notice = Notice(title: string, body: string)

  function SentTo(user: Account): string {
    "Verification email has been sent to " + user.email
  }

  /** What happens after a save: the account as stored, whether the
      `Registered` event (which mails the verification link) fires, and the
      notice shown. */
  datatype Effects = Effects(user: Account, registered: bool, notice: Option<Notice>)

  // -------------------------------------------------------------- create

  /** `CreateUser::afterCreate`. */
  function AfterCreate(user: Account): (r: Effects)
    ensures user.roles == [] ==> r.user == user.(roles := [UserRole])
    ensures user.roles != [] ==> r.user == user
    ensures r.registered <==> user.verifiedAt.None?
    ensures r.notice.Some? <==> r.registered
    ensures r.notice.Some? ==> r.notice.value == Notice("Email verification sent", SentTo(user))
  {
    var u := if user.roles == [] then user.(roles := [UserRole]) else user;
    if u.verifiedAt.None? then Effects(u, true, Some(Notice("Email verification sent", SentTo(u))))
    else Effects(u, false, None)
  }

  /** The fields of the user form that the pages act on. */
  datatype Form = Form(email: string, verified: Toggle, roles: seq<string>, password: Option<string>)

  /** The whole create page: the toggle becomes a timestamp, the account is
      inserted under `id` with no roles, the role picker is saved when it is
      shown, then `afterCreate` runs. */
  function Create(resource: Resource, actor: Account, form: Form, id: int, now: int): (r: Effects)
    ensures r.user.id == id && r.user.email == form.email
    ensures r.user.verifiedAt == VerifiedAt(form.verified, now)
  {
    var record := Account(id, [], {}, {}, form.email, VerifiedAt(form.verified, now), form.password.GetOr(""));
    var saved := if RolePickerVisible(resource, CreatePage) then SaveRoles(actor, record, form.roles) else record;
    AfterCreate(saved)
  }

  /** Every new account ends up with a role: `user` on the users resource,
      the chosen roles on the managers resource when the creator may assign
      roles, by the permission or by the Gate's before-check; and the verification email goes out exactly when the toggle was
      not switched on. */
  lemma {:induction false} CreatedAccounts(resource: Resource, actor: Account, form: Form, id: int, now: int)
    requires id != actor.id
    ensures var r := Create(resource, actor, form, id, now);
      && r.user.roles != []
      && (resource == Users ==> r.user.roles == [UserRole])
      && (resource == Managers && (Can(actor, AssignRoles) || "assign-roles" in actor.granted) && form.roles != [] ==>
            r.user.roles == form.roles)
      && (resource == Managers && !Can(actor, AssignRoles) && "assign-roles" !in actor.granted ==> r.user.roles == [UserRole])
      && (r.registered <==> form.verified != Some(true))
  {
    var record := Account(id, [], {}, {}, form.email, VerifiedAt(form.verified, now), form.password.GetOr(""));
    assert !IsAdministrator(record);
  }

  // ---------------------------------------------------------------- edit

  /** `EditUser::afterSave`, comparing the account before and after the
      save as `wasChanged` does. */
  function AfterSave(before: Account, after: Account): (r: Option<Notice>)
    ensures r.Some? <==> after.verifiedAt.None? && (before.email != after.email || before.verifiedAt != after.verifiedAt)
    ensures r.Some? && before.email != after.email ==> r.value.title == "Email address was changed"
    ensures r.Some? && before.email == after.email ==> r.value.title == "Email address unverified"
    ensures r.Some? ==> r.value.body == SentTo(after)
  {
    var emailChanged := before.email != after.email;
    var verificationChanged := before.verifiedAt != after.verifiedAt;
    var isCurrentlyUnverified := after.verifiedAt.None?;
    if isCurrentlyUnverified && (emailChanged || verificationChanged) then
      var title := if emailChanged then "Email address was changed" else "Email address unverified";
      Some(Notice(title, SentTo(after)))
    else None
  }

  /** The whole edit page: the toggle becomes a timestamp, email and
      password are written (a blank password is kept), the role picker is
      saved when it is shown, then `afterSave` runs. */
  function Edit(resource: Resource, actor: Account, before: Account, form: Form, now: int): (r: Effects)
    ensures r.user.id == before.id && r.user.email == form.email
    ensures r.user.verifiedAt == VerifiedAt(form.verified, now)
    ensures r.user.password == SavedPassword(before.password, form.password)
    ensures r.registered <==> r.notice.Some?
  {
    var written := before.(email := form.email, verifiedAt := VerifiedAt(form.verified, now),
      password := SavedPassword(before.password, form.password));
    var after := if RolePickerVisible(resource, EditPage) then SaveRoles(actor, written, form.roles) else written;
    var notice := AfterSave(before, after);
    Effects(after, notice.Some?, notice)
  }

  /** In terms of the form: an edit mails the account exactly when the
      toggle is left off and either the address changed or the account was
      verified before. So an account that stays verified is never mailed,
      and editing other fields of an unverified account mails nobody. */
  lemma {:induction false} EditMailsWhen(resource: Resource, actor: Account, before: Account, form: Form, now: int)
    ensures var r := Edit(resource, actor, before, form, now);
      r.registered <==> form.verified != Some(true) && (form.email != before.email || before.verifiedAt.Some?)
    ensures var r := Edit(resource, actor, before, form, now);
      r.notice.Some? && form.email == before.email ==> r.notice.value.title == "Email address unverified"
  {
  }

  // ---------------------------------------------------------------- properties

  /** The toggle shown when the account is opened again reflects what was
      submitted: on exactly when it was switched on. */
  lemma ToggleReadsBack(toggle: Toggle, now: int, user: Account)
    ensures VerifiedToggleDefault(EditPage, Some(user.(verifiedAt := VerifiedAt(toggle, now)))) <==> toggle == Some(true)
  {
  }

  /** Submitting a form with the toggle left at its default, and the address
      unchanged, mails nobody: a new account starts verified, and an edited
      one keeps its state. */
  lemma DefaultToggleMailsNobody(resource: Resource, actor: Account, before: Account, form: Form, id: int, now: int)
    ensures form.verified == Some(VerifiedToggleDefault(CreatePage, None)) ==> !Create(resource, actor, form, id, now).registered
    ensures form.verified == Some(VerifiedToggleDefault(EditPage, Some(before))) && form.email == before.email ==>
              !Edit(resource, actor, before, form, now).registered
  {
  }

  /** `afterCreate` settles the account: running it on what it stored
      changes no role, and mails again exactly when it mailed. */
  lemma AfterCreateSettles(user: Account)
    ensures AfterCreate(AfterCreate(user).user).user == AfterCreate(user).user
    ensures AfterCreate(AfterCreate(user).user).registered == AfterCreate(user).registered
    ensures AfterCreate(user).user.roles != []
  {
  }

  /** A save that changes neither the address nor the verification shows
      nothing, and a verified account is never mailed. */
  lemma AfterSaveQuiet(before: Account, after: Account)
    ensures before.email == after.email && before.verifiedAt == after.verifiedAt ==> AfterSave(before, after).None?
    ensures after.verifiedAt.Some? ==> AfterSave(before, after).None?
    ensures AfterSave(after, after).None?
  {
  }

  /** The roles after an edit: the chosen ones when the picker is shown and
      the editor may assign them, and the old ones otherwise, so the users
      resource never changes roles. A blank password field keeps the
      password, which is why the field is required on the create page only. */
  lemma EditRoles(resource: Resource, actor: Account, before: Account, form: Form, now: int)
    ensures var r := Edit(resource, actor, before, form, now);
      r.user.roles == (if RolePickerVisible(resource, EditPage) && MayAssignRoles(actor, r.user.(roles := before.roles))
                       then form.roles else before.roles)
    ensures resource == Users ==> Edit(resource, actor, before, form, now).user.roles == before.roles
    ensures !PasswordRequired(EditPage) && PasswordRequired(CreatePage)
    ensures !Filled(form.password) ==> Edit(resource, actor, before, form, now).user.password == before.password
  {
  }
}

=== FILE: user_resource.dfy ===
/** The decisions inside the admin panel's user and manager resources
    (`UserResource`, and `ManagerResource`, which extends it): which
    accounts each listing holds, which roles the role picker offers and
    what it defaults to, when a role change is saved, how the password and
    the "email verified" toggle behave, and who may use the managers pages. */
module UserResource {
  import opened Base
  import opened PhpString
  import Roles
  import opened Policies

  /** The two resources sharing this form and table. */
  datatype Resource = Users | Managers

  /** The page a form is shown on. */
  datatype Context = CreatePage | EditPage | ViewPage

  const UserRole := Roles.Role.User.Value()
  const ManagerRole := Roles.Role.Manager.Value()
  const AdministratorRole := Roles.Role.Administrator.Value()

  // ------------------------------------------------------------ listings

  /** `whereHas('roles', …)`: some role of the account satisfies `p`. */
  function SomeRole(roles: seq<string>, p: string -> bool): (r: bool)
    ensures r <==> exists i :: 0 <= i < |roles| && p(roles[i])
  {
    if roles == [] then false
    else if p(roles[0]) then true
    else
      var rest := SomeRole(roles[1..], p);
      assert forall i :: 1 <= i < |roles| ==> roles[i] == roles[1..][i - 1];
      rest
  }

  /** `UserResource::getEloquentQuery`: accounts having the `user` role, or
      no role at all. */
  function InUsersListing(u: Account): (r: bool)
    ensures r <==> UserRole in u.roles || u.roles == []
  {
    SomeRole(u.roles, name => name == UserRole) || !SomeRole(u.roles, name => true)
  }

  /** `ManagerResource::getEloquentQuery`: accounts having some role other
      than `user`. */
  function InManagersListing(u: Account): (r: bool)
    ensures r <==> exists i :: 0 <= i < |u.roles| && u.roles[i] != UserRole
  {
    SomeRole(u.roles, name => name != UserRole)
  }

  /** Does `resource`'s query select `u`? */
  predicate Lists(resource: Resource, u: Account) {
    if resource == Users then InUsersListing(u) else InManagersListing(u)
  }

  /** The accounts a resource lists, in table order. */
  function Listing(resource: Resource, accounts: seq<Account>): (r: seq<Account>)
    ensures forall u :: u in r <==> u in accounts && Lists(resource, u)
    ensures |r| <= |accounts|
  {
    if accounts == [] then []
    else
      var u := accounts[0];
      var rest := Listing(resource, accounts[1..]);
      assert accounts == [u] + accounts[1..];
      if Lists(resource, u) then [u] + rest else rest
  }

  /** Nobody falls between the two listings; an account with the `user`
      role and another one is in both, and so is no other account. */
  lemma {:induction false} ListingsCover(accounts: seq<Account>, u: Account)
    requires u in accounts
    ensures u in Listing(Users, accounts) || u in Listing(Managers, accounts)
    ensures u in Listing(Users, accounts) && u in Listing(Managers, accounts)
      <==> UserRole in u.roles && exists i :: 0 <= i < |u.roles| && u.roles[i] != UserRole
  {
    if !InUsersListing(u) {
      assert u.roles[0] != UserRole;
    }
  }

  /** How the four kinds of account from the listing tests fall. */
  lemma {:induction false} ListingExamples(u: Account)
    ensures u.roles == [] ==> InUsersListing(u) && !InManagersListing(u)
    ensures u.roles == [UserRole] ==> InUsersListing(u) && !InManagersListing(u)
    ensures u.roles == [ManagerRole] ==> !InUsersListing(u) && InManagersListing(u)
    ensures u.roles == [AdministratorRole] ==> !InUsersListing(u) && InManagersListing(u)
  {
    if u.roles == [UserRole] {
      assert forall i :: 0 <= i < |u.roles| ==> u.roles[i] == UserRole;
    }
    if u.roles == [ManagerRole] || u.roles == [AdministratorRole] {
      assert u.roles[0] != UserRole;
    }
  }

  // --------------------------------------------------------- role picker

  /** A row of the roles table. */
  datatype RoleRow = RoleRow(id: int, name: string)

  /** The options of the role picker: every role except `administrator` and
      `user`. The order in which the picker shows them is not modelled. */
  function PickerOptions(rows: seq<RoleRow>): (r: seq<RoleRow>)
    ensures forall x :: x in r <==> x in rows && x.name != AdministratorRole && x.name != UserRole
    ensures |r| <= |rows|
  {
    if rows == [] then []
    else
      var rest := PickerOptions(rows[1..]);
      assert rows == [rows[0]] + rows[1..];
      if rows[0].name in [AdministratorRole, UserRole] then rest else [rows[0]] + rest
  }

  /** The id of the first role row named `name`: `Role::whereName(…)->first()->id`.
      `None` when there is no such row, where reading `id` of null fails. */
  function FirstNamed(rows: seq<RoleRow>, name: string): (r: Option<int>)
    ensures r.None? <==> forall i :: 0 <= i < |rows| ==> rows[i].name != name
    ensures r.Some? ==>
      exists i :: 0 <= i < |rows| && rows[i] == RoleRow(r.value, name) && forall j :: 0 <= j < i ==> rows[j].name != name
  {
    if rows == [] then None
    else if rows[0].name == name then Some(rows[0].id)
    else
      var r := FirstNamed(rows[1..], name);
      assert forall i :: 1 <= i < |rows| ==> rows[i] == rows[1..][i - 1];
      r
  }

  /** The role picker's default: the manager role in the managers resource,
      the user role everywhere else. */
  function DefaultRole(resource: Resource, rows: seq<RoleRow>): (r: Option<int>)
    ensures resource == Managers ==> r == FirstNamed(rows, ManagerRole)
    ensures resource == Users ==> r == FirstNamed(rows, UserRole)
  {
    if resource == Managers then FirstNamed(rows, ManagerRole) else FirstNamed(rows, UserRole)
  }

  /** The managers resource's default role is one the picker offers, and
      there is a default exactly when the roles table has a row of that
      name. */
  lemma DefaultRoleOffered(resource: Resource, rows: seq<RoleRow>)
    ensures resource == Managers && DefaultRole(resource, rows).Some? ==>
              RoleRow(DefaultRole(resource, rows).value, ManagerRole) in PickerOptions(rows)
    ensures DefaultRole(resource, rows).None? <==>
              forall i :: 0 <= i < |rows| ==> rows[i].name != (if resource == Managers then ManagerRole else UserRole)
  {
    if resource == Managers && DefaultRole(resource, rows).Some? {
      var i :| 0 <= i < |rows| && rows[i] == RoleRow(DefaultRole(resource, rows).value, ManagerRole);
      assert rows[i] in rows;
    }
  }

  /** Only the managers resource shows the role picker, and not on the view
      page; a hidden field saves nothing. */
  function RolePickerVisible(resource: Resource, context: Context): (r: bool)
    ensures r <==> resource == Managers && context != ViewPage
  {
    resource == Managers && context != ViewPage
  }

  /** May the signed-in user change the roles of `record`
      (`can('assign-roles', $record)`, through the Gate)? */
  predicate MayAssignRoles(actor: Account, record: Account) {
    GateAllows(AssignRolesTo, actor, Some(record))
  }

  /** The picker is greyed out on an existing record whose roles the
      signed-in user may not change. */
  function RolePickerDisabled(actor: Account, record: Option<Account>): (r: bool)
    ensures r <==> record.Some? && !MayAssignRoles(actor, record.value)
  {
    record.Some? && !MayAssignRoles(actor, record.value)
  }

  /** The picker is never greyed out on the create page. Unless the
      signed-in user holds a permission named `assign-roles`, it is always
      greyed out on an administrator's record and on one's own; holding one,
      it never is. */
  lemma RolePickerDisabledFor(actor: Account, record: Account)
    ensures !RolePickerDisabled(actor, None)
    ensures "assign-roles" !in actor.granted && (IsAdministrator(record) || record.id == actor.id) ==>
              RolePickerDisabled(actor, Some(record))
    ensures "assign-roles" in actor.granted ==> !RolePickerDisabled(actor, Some(record))
  {
  }

  /** The hint under a greyed-out picker. */
  function RolePickerHelp(actor: Account, record: Option<Account>): (r: Option<string>)
    ensures r.Some? <==> RolePickerDisabled(actor, record)
    ensures r.Some? ==> r.value == "You do not have permission to change this user's role."
  {
    if record.Some? && !MayAssignRoles(actor, record.value) then
      Some("You do not have permission to change this user's role.")
    else None
  }

  /** Saving the picker: the record's roles become exactly the chosen ones
      when the signed-in user may assign them, and nothing changes otherwise. */
  function SaveRoles(actor: Account, record: Account, chosen: seq<string>): (r: Account)
    ensures MayAssignRoles(actor, record) ==> r == record.(roles := chosen)
    ensures !MayAssignRoles(actor, record) ==> r == record
  {
    if MayAssignRoles(actor, record) then record.(roles := chosen) else record
  }

  /** Unless the signed-in user holds a permission named `assign-roles`, the
      roles of an administrator and one's own roles never change through the
      picker; holding one, every save goes through. A picker that is not
      greyed out always saves. */
  lemma {:induction false} SaveRolesGuarded(actor: Account, record: Account, chosen: seq<string>)
    ensures "assign-roles" !in actor.granted && (IsAdministrator(record) || record.id == actor.id) ==>
              SaveRoles(actor, record, chosen) == record
    ensures "assign-roles" in actor.granted ==> SaveRoles(actor, record, chosen) == record.(roles := chosen)
    ensures !RolePickerDisabled(actor, Some(record)) ==> SaveRoles(actor, record, chosen).roles == chosen
    ensures RolePickerDisabled(actor, Some(record)) ==> SaveRoles(actor, record, chosen) == record
  {
  }

  /** Saving the same choice twice is the same as saving it once. */
  lemma SaveRolesIdempotent(actor: Account, record: Account, chosen: seq<string>)
    ensures SaveRoles(actor, SaveRoles(actor, record, chosen), chosen) == SaveRoles(actor, record, chosen)
    ensures SaveRoles(actor, record, chosen).id == record.id
  {
  }

  // ------------------------------------------------------------ password

  /** Laravel's `filled`: not null and not blank after trimming. */
  predicate Filled(state: Option<string>) {
    state.Some? && Trim(state.value) != ""
  }

  /** The password field is required on the create page only. */
  function PasswordRequired(context: Context): (r: bool)
    ensures r <==> context == CreatePage
  {
    context == CreatePage
  }

  /** The password a save leaves on the account: the one typed when it is
      filled; a blank field is not saved and leaves the current one. */
  function SavedPassword(current: string, state: Option<string>): (r: string)
    ensures Filled(state) ==> r == state.value
    ensures !Filled(state) ==> r == current
  {
    if Filled(state) then state.value else current
  }

  /** Blank means "keep the password": spaces alone change nothing, and a
      second save of the same field changes nothing more. */
  lemma {:induction false} BlankPasswordKeeps(current: string, state: Option<string>)
    ensures SavedPassword(current, None) == current && SavedPassword(current, Some("   ")) == current
    ensures SavedPassword(SavedPassword(current, state), state) == SavedPassword(current, state)
  {
    assert Trim("   ") == "" by {
      assert forall k :: 0 <= k < 3 ==> IsTrimChar("   "[k]);
    }
  }

  // ------------------------------------------------------- verified toggle

  /** The "email verified" toggle starts on for a new account and otherwise
      shows whether the account is verified. */
  function VerifiedToggleDefault(context: Context, record: Option<Account>): (r: bool)
    ensures context == CreatePage ==> r
    ensures context != CreatePage ==> (r <==> record.Some? && record.value.verifiedAt.Some?)
  {
    context == CreatePage || (record.Some? && record.value.verifiedAt.Some?)
  }

  // ------------------------------------------------ managers page access

  /** The permission checks `ManagerResource` overrides. */
  datatype ManagerCheck = CanAccess | CanViewAny | CanCreate | CanEdit(record: Account) | CanDelete(record: Account)

  /** Each check asks the Gate, for the signed-in user when there is one,
      for the matching `UserPolicy` ability; with nobody signed in it is
      false. */
  function ManagersAllow(check: ManagerCheck, auth: Option<Account>): (r: bool)
    ensures auth.None? ==> !r
    ensures auth.Some? && check in {CanAccess, CanViewAny} ==>
              (r <==> "viewManagers" in auth.value.granted || Can(auth.value, ViewManagers))
    ensures auth.Some? && check == CanCreate ==>
              (r <==> "createManagers" in auth.value.granted || Can(auth.value, CreateManagers))
    ensures auth.Some? && check.CanEdit? ==>
              (r <==> "updateManagers" in auth.value.granted || Can(auth.value, EditManagers))
    ensures auth.Some? && check.CanDelete? ==>
              (r <==> "deleteManagers" in auth.value.granted
                      || (auth.value.id != check.record.id && Can(auth.value, DeleteManagers)))
  {
    if auth.None? then false
    else
      var user := auth.value;
      match check
      case CanAccess => GateAllows(ViewManagersAbility, user, None)
      case CanViewAny => GateAllows(ViewManagersAbility, user, None)
      case CanCreate => GateAllows(CreateManagersAbility, user, None)
      case CanEdit(record) => GateAllows(UpdateManagers, user, Some(record))
      case CanDelete(record) => GateAllows(DeleteManagersAbility, user, Some(record))
  }

  /** Unless the signed-in user holds a permission named `deleteManagers`,
      nobody deletes their own manager account from the panel; editing does
      not depend on which manager is edited. */
  lemma {:induction false} ManagersNoSelfDelete(u: Account, a: Account, b: Account)
    ensures "deleteManagers" !in u.granted ==> !ManagersAllow(CanDelete(u), Some(u))
    ensures "deleteManagers" in u.granted ==> ManagersAllow(CanDelete(a), Some(u))
    ensures ManagersAllow(CanEdit(a), Some(u)) == ManagersAllow(CanEdit(b), Some(u))
    ensures u.id != a.id ==> (ManagersAllow(CanDelete(a), Some(u)) <==> "deleteManagers" in u.granted || Can(u, DeleteManagers))
  {
  }
}
